=== FILE: README.md ===
# fbyo-sh core helpers in Dafny

This project models five self-contained pieces of the fbyo-sh shell (a
bash derivative) as pure Dafny functions over immutable data, and proves
what the shell relies on them for.

- **Temporary files** (`lib/sh/tmpfile.c`). The model covers:
  - the choice of the system temporary directory from an ordered probe list, cached after the first call;
  - the `TMPDIR` override;
  - the `filenum` mixing step and the `dir/root-N` candidate name, with its truncation to `NAME_MAX`;
  - the retry loops of `sh_mktmpname`, `sh_mktmpfd`, `sh_mktmpfp` and `sh_mktmpdir`, with their outcome rules.

  The file system is an abstract value (`TmpFile.Fs`). It holds a map from paths to nodes, a map of injected faults per operation and path, and the open descriptors.
- **Hash tables** (`hashlib.c`). This covers `hash_string` (32-bit FNV-1 written as shifts and adds) and `HASH_BUCKET` masking. It also covers `hash_create`, `hash_search`, `hash_insert`, `hash_remove`, `hash_rehash`/`hash_grow`, `hash_flush` and `hash_copy`. A table is a sequence of bucket chains. The ghost multisets `Bag` and `TableKeys` are its abstract contents. `Valid` states three things: `nentries` counts the chained items, every item sits in the bucket its `khash` selects, and `khash` is `hash_string` of the key.
- **Physical path resolution** (`lib/sh/pathphys.c`). This covers `sh_physpath` and `sh_realpath`. Dot components are handled lexically. A leading `//` is kept, as POSIX.1-2017 XBD section 4.13 allows. Symbolic links are expanded through a `readlink` oracle, with the `MAXSYMLINKS` bound of 20 links and the `PATH_MAX` length checks.
- **Case modification** (`lib/sh/casemod.c`). This is the single-byte branch of `sh_modcase`, with `strmatch` given as a per-byte predicate.
- **Builtin helpers** (`builtins/common.c`). These are:
  - `read_octal` and `get_exitstat`;
  - `shell_builtin_compare` and the binary search of `builtin_address_internal`;
  - the positional parameters kept by `remember_args` and `shift_args`;
  - the numeric branch of `display_signal_list`.

A C string is a `string` here, and each `char` stands for one byte of it: the
length of a Dafny string is what `strlen` counts, which is how the `PATH_MAX`
and `NAME_MAX` limits compare. Multibyte characters are not modelled.

`base.dfy` holds the shared vocabulary (module `Base`):
- the errno values the code tests by name;
- a `Result` type;
- `PATH_MAX` (4096, the Linux value);
- `WrapInt32`, the 32-bit two's-complement wrap of a C `int`;
- bitwise AND on naturals.

The other modules are `TmpFile` (tmpfile.dfy), `HashLib` (hashlib.dfy), `PathPhys` (pathphys.dfy), `CaseMod` (casemod.dfy) and `BuiltinsCommon` (common.dfy).

Retry loops that the C code runs without bound consume a finite sequence of `Tick`s. Each tick is the time and random word one attempt reads. When the ticks run out, the result is an explicit `Exhausted` outcome.

## Model

| member | source | states |
|---|---|---|
| TmpFile.OpenExcl | lib/sh/tmpfile.c:49 | an exclusive create succeeds only on an absent path, and then adds a mode-0600 file and one descriptor with the requested access: the lowest one not already open; without an injected fault it fails only with EEXIST on an existing path |
| TmpFile.FreeFrom | lib/sh/tmpfile.c:269 | the descriptor chosen is not open, and every descriptor from the starting one up to it is |
| TmpFile.Mkdir | lib/sh/tmpfile.c:345 | mkdir succeeds only on an absent path and adds a mode-0700 directory; without a fault it fails only with EEXIST on an existing path |
| TmpFile.Unlink | lib/sh/tmpfile.c:139-146 | a successful unlink removes exactly that existing path and leaves the descriptors alone |
| TmpFile.FirstWDir | lib/sh/tmpfile.c:71-98 | the index found is that of the first probe that is a writable directory, and no earlier probe is one |
| TmpFile.GetSysTmpdir | lib/sh/tmpfile.c:71-98 | a cached directory is returned unchanged; otherwise the result is the first usable probe of P_tmpdir, /tmp, /var/tmp, /usr/tmp, or "." when none is usable, and it becomes the cache |
| TmpFile.SysTmpdirCached | lib/sh/tmpfile.c:71-98 | once chosen, the system directory is returned again whatever the file system has become |
| TmpFile.GetTmpdir | lib/sh/tmpfile.c:100-120 | TMPDIR is used if and only if MT_USETMPDIR is set and TMPDIR names a writable directory of at most PATH_MAX bytes; otherwise the system directory is used; tmpnamelen is asked of pathconf for the chosen directory whenever it is still -1 (never set, or pathconf failed) and kept otherwise; the counters are untouched |
| TmpFile.EffectiveFlags | lib/sh/tmpfile.c:161-166 | MT_TEMPLATE survives only with a non-null name root of at most PATH_MAX bytes; every other flag is kept |
| TmpFile.UIntOf | lib/sh/tmpfile.c:186 | the `unsigned int` the conditional converts ntmpfiles to is congruent to it modulo 2^32 and lies in [0, 2^32) |
| TmpFile.NextFilenum | lib/sh/tmpfile.c:184-193 | the new filenum XORed with the shifted old filenum, the time and the pid gives back the mixed word x |
| TmpFile.Draw | lib/sh/tmpfile.c:184-193 | with MT_USERANDOM the counter ntmpfiles is unchanged; otherwise it is incremented with int wrap-around; filenum takes the mixing step |
| TmpFile.DrawSeparates | lib/sh/tmpfile.c:184-193 | two random words drawn at the same time give different filenums |
| TmpFile.DecimalRoundTrip | lib/sh/tmpfile.c:194 | the %lu rendering of a number reads back as that number |
| TmpFile.FormattedInjective | lib/sh/tmpfile.c:194 | distinct counters give distinct "dir/root-N" names |
| TmpFile.Snprintf | lib/sh/tmpfile.c:194 | snprintf into PATH_MAX bytes keeps a prefix of at most PATH_MAX-1 characters, and all of a shorter string |
| TmpFile.CandidateAsWritten | lib/sh/tmpfile.c:194-196 | the NUL that truncates the name to the directory plus tmpnamelen characters is stored only when 0 < tmpnamelen < 32, and then lands outside the PATH_MAX+1 buffer exactly when the directory plus tmpnamelen exceeds PATH_MAX |
| TmpFile.CandidateOverrun | lib/sh/tmpfile.c:112-117 | a 4090-byte TMPDIR with NAME_MAX 14 makes the truncating write overrun |
| TmpFile.MakeCandidate | lib/sh/tmpfile.c:194-196 | the candidate is a prefix of "dir/root-N" of at most PATH_MAX-1 characters, cut to the directory plus tmpnamelen characters when 0 < tmpnamelen < 32; the truncating NUL is stored exactly when it fits in the buffer, and then at the same index the code uses, so it never overruns |
| TmpFile.CandidatesDistinct | lib/sh/tmpfile.c:190-196 | without truncation, equal candidates come from equal filenums |
| TmpFile.NameLoop | lib/sh/tmpfile.c:182-204 | a name is returned only when lstat of it failed with ENOENT; it is the candidate for the final filenum; any other lstat result draws again; the directory cache and tmpnamelen are kept |
| TmpFile.NameLoopCounts | lib/sh/tmpfile.c:186-188 | after n draws ntmpfiles is unchanged with MT_USERANDOM and has advanced by n with wrap-around otherwise |
| TmpFile.MkTmpName | lib/sh/tmpfile.c:148-208 | sh_mktmpname returns only a name that did not exist (lstat gave ENOENT); that name is the candidate built in the directory get_tmpdir chose, from the name root, the final filenum and tmpnamelen; the counter stays in int range, and the directory cache and tmpnamelen are the ones get_tmpdir left |
| TmpFile.TemplateIgnored | lib/sh/tmpfile.c:182-196 | the fallback loop builds the same names with and without MT_TEMPLATE |
| TmpFile.FdLoop | lib/sh/tmpfile.c:254-271 | the open is retried only on EEXIST; the name last tried is the candidate for the final filenum; a success creates the absent file with mode 0600 and a descriptor not open before, O_RDWR or O_WRONLY by MT_READWRITE; a failure leaves the file system unchanged |
| TmpFile.FinishFd | lib/sh/tmpfile.c:273-289 | the name is returned if and only if the descriptor is valid and it was asked for; a valid descriptor means no errno; an opened file stays open, and with MT_UNLINK it is unlinked; if that unlink fails the descriptor is closed, -1 is returned with the unlink's errno and the file stays; after a failed open, MT_UNLINK still unlinks the name tried, and the errno is the open's unless that unlink fails, when it is the unlink's |
| TmpFile.MkTmpFd | lib/sh/tmpfile.c:210-291 | the same outcome rules for sh_mktmpfd as a whole; the name tried is the candidate built in the directory get_tmpdir chose for the final filenum; the directory cache and tmpnamelen are the ones get_tmpdir left |
| TmpFile.MkTmpFp | lib/sh/tmpfile.c:293-306 | a stream exists if and only if sh_mktmpfd gave a valid descriptor and fdopen succeeded, and it is that descriptor with the flags' access; the name sh_mktmpfd stored is kept even when fdopen fails; a failed fdopen closes the descriptor and leaves the files alone; on any failure no new descriptor stays open |
| TmpFile.MkTmpDir | lib/sh/tmpfile.c:308-355 | mkdir is retried only on EEXIST; a returned name was absent, is now a mode-0700 directory, and is the candidate built in the directory get_tmpdir chose for the final filenum; a failure returns no name, a non-EEXIST error and the file system unchanged; across the retries the directory cache and tmpnamelen stay the ones the first get_tmpdir left |
| TmpFile.TmpdirStable | lib/sh/tmpfile.c:100-120 | once get_tmpdir has filled the directory cache and tmpnamelen, asking again chooses the same directory and keeps both, even when pathconf gave -1 (it is asked again of the same directory and gives -1 again) |
| HashLib.CharWord | hashlib.c:218 | the XORed character is the byte itself below 0x80 and its sign extension above |
| HashLib.ShiftAddIsPrimeMul | hashlib.c:217 | the sum of shifts equals multiplication by the FNV prime 16777619 modulo 2^32 |
| HashLib.HashStringIsFnv1 | hashlib.c:197-222 | on keys of seven-bit bytes hash_string is the 32-bit FNV-1 hash, starting from 2166136261 and multiplying before the XOR |
| HashLib.HighByteDiffers | hashlib.c:218 | a byte of 0x80 or more makes the step differ from FNV-1 because plain char is signed |
| HashLib.BucketIndex | hashlib.c:51 | the masked hash is a valid bucket index |
| HashLib.BucketIndexPowerOfTwo | hashlib.c:51 | with 2^k buckets the mask is the hash modulo 2^k |
| HashLib.LookupComplete | hashlib.c:244-258 | the chain walk finds an entry if and only if the key is in the table, and the entry found has that key |
| HashLib.Create | hashlib.c:61-80 | a new table is valid and empty, with the requested number of buckets or 128 for 0 |
| HashLib.Rehash | hashlib.c:122-151 | rehashing keeps every entry and every key and the count, and puts each entry in its bucket for the new size |
| HashLib.GrowAsWritten | hashlib.c:153-161 | as written, quadrupling wraps for more than 2^29 buckets: between 2^29 and 2^30 the table is kept, and above 2^30 it is rehashed into 4n-2^32 buckets |
| HashLib.GrowSize | hashlib.c:153-161 | the int product nbuckets*4 per range of nbuckets |
| HashLib.GrowAsWrittenShrinks | hashlib.c:153-161 | a table of 2^30+1 buckets is grown into 4 buckets |
| HashLib.Grow | hashlib.c:41-42 | growth quadruples the bucket count when that fits in an int and otherwise keeps the table; it never shrinks and keeps every entry |
| HashLib.AddNew | hashlib.c:259-277 | adding a key grows the table if due (quadrupling it when that fits, else keeping the size), puts one new entry with no data, times_found 0 and the key's hash at the head of its chain, increments nentries, and leaves every other entry as it was: the bag gains exactly the new entry |
| HashLib.TouchKeeps | hashlib.c:252-255 | bumping times_found of one entry keeps the table valid and its keys, and the bag differs only in that entry |
| HashLib.Search | hashlib.c:237-281 | a miss without HASH_CREATE returns nothing and the same table; a miss with it adds exactly one new entry and changes no other; a hit returns the key's entry with times_found incremented, keeps the keys and the bucket count, and changes no other entry |
| HashLib.Insert | hashlib.c:317-350 | HASH_NOSRCH always adds a new entry, so duplicates are possible; otherwise an existing entry is returned with times_found incremented and no other entry changes; a new entry is the only addition to the bag |
| HashLib.Remove | hashlib.c:286-313 | an entry is returned if and only if the key is present; then it is the first match, nentries drops by one, one copy of the key is gone and the bag loses exactly that entry; otherwise the table is unchanged |
| HashLib.Flush | hashlib.c:355-384 | every bucket is emptied, nentries is 0 and the bucket count is kept |
| HashLib.Copy | hashlib.c:90-120 | the copy is valid, with the same bucket count, nentries and keys, and each chain in the same order with key, hash and times_found kept and the data passed through the copier (NULL stays NULL) |
| CaseMod.ModCase | lib/sh/casemod.c:113-118 | a null string gives ""; otherwise the output has one byte per input byte |
| CaseMod.ModFromAfterFirst | lib/sh/casemod.c:133-219 | after the first byte every selected byte gets the operation for non-initial bytes |
| CaseMod.ModCaseMeaning | lib/sh/casemod.c:98-266 | each output byte is the input byte converted by the operation for its position, or copied when the pattern rejects it |
| CaseMod.MapsEveryChar | lib/sh/casemod.c:206-217 | CASE_UPPER, CASE_LOWER and CASE_TOGGLEALL map every byte |
| CaseMod.UnknownFlagsKeep | lib/sh/casemod.c:164-219 | a flag value that names no single operation, such as a combination, leaves the string unchanged |
| CaseMod.CapitalizeUncap | lib/sh/casemod.c:164-179 | CASE_CAPITALIZE uppercases the first byte and lowercases the rest; CASE_UNCAP is the mirror |
| CaseMod.FirstCharOnly | lib/sh/casemod.c:180-200 | CASE_UPFIRST, CASE_LOWFIRST and CASE_TOGGLE change the first byte only |
| CaseMod.UseWordsHasNoEffect | lib/sh/casemod.c:129-141 | CASE_USEWORDS gives the same result as without it, since inword is set again on every byte |
| CaseMod.PatternSelects | lib/sh/casemod.c:143-158 | with a pattern, rejected bytes are copied and accepted bytes are converted exactly as without a pattern |
| BuiltinsCommon.OctalPrefixBelow | builtins/common.c:566-577 | the running value never exceeds the value of the whole numeral |
| BuiltinsCommon.ReadOctal | builtins/common.c:561-579 | the result is the octal value if and only if the string is non-empty, all octal digits, and at most 07777; otherwise -1 |
| BuiltinsCommon.OctalRoundTrip | builtins/common.c:561-579 | an octal numeral reads back as the number it renders |
| BuiltinsCommon.GetExitStat | builtins/common.c:518-556 | no argument gives the last status; a non-number gives EX_USAGE; one number gives that number modulo 256 |
| BuiltinsCommon.MaskIsMod | builtins/common.c:547-556 | the 64-bit value masked with 255 is the value modulo 256 |
| BuiltinsCommon.StrCmpZero | builtins/common.c:918-919 | strcmp is zero if and only if the strings are equal |
| BuiltinsCommon.StrCmpTransitive | builtins/common.c:918-919 | strcmp is a transitive order |
| BuiltinsCommon.CompareAgreesWithStrCmp | builtins/common.c:913-922 | for names starting with ASCII bytes, shell_builtin_compare has the sign of strcmp |
| BuiltinsCommon.CompareAntisymmetric | builtins/common.c:913-922 | swapping the names negates the comparison |
| BuiltinsCommon.CompareZero | builtins/common.c:913-922 | the comparison is zero if and only if the names are equal |
| BuiltinsCommon.CompareTransitive | builtins/common.c:913-931 | the comparison is a transitive order, as qsort requires |
| BuiltinsCommon.BuiltinAddress | builtins/common.c:849-884 | on a sorted table, the result is an entry with the name that has a function, is not deleted, and is enabled or allowed disabled, if and only if such an entry exists |
| BuiltinsCommon.RememberArgs | builtins/common.c:358-394 | $1..$9 take the first nine words; a destructive call clears the slots beyond and replaces the rest list; a non-destructive call with k <= 9 words replaces only $1..$k; the count is the word count |
| BuiltinsCommon.RememberDestructive | builtins/common.c:358-394 | after a destructive call the parameters are exactly the words |
| BuiltinsCommon.ShiftArgs | builtins/common.c:396-426 | a count of n <= 0 changes nothing; otherwise the parameter count drops by n |
| BuiltinsCommon.ShiftOnceParams | builtins/common.c:405-425 | one shift drops the first parameter |
| BuiltinsCommon.ShiftDrops | builtins/common.c:396-426 | shifting by n with 0 < n <= count drops the first n parameters |
| BuiltinsCommon.SignalOfNumber | builtins/common.c:793-805 | a number above 128 is reduced by 128 and a smaller one is kept; that value is the result, accepted if and only if it lies in [0, NSIG) |
| PathPhys.ElemLen | lib/sh/pathphys.c:148-156 | the element length is the distance to the next slash or the end |
| PathPhys.SplitJoin | lib/sh/pathphys.c:125-228 | splitting a joined list of proper components gives the list back |
| PathPhys.LexicalClean | lib/sh/pathphys.c:127-139 | lexical resolution of proper components only appends them |
| PathPhys.Start | lib/sh/pathphys.c:107-114 | the prefix is the first character, or "//" exactly when the path starts with two slashes and no third |
| PathPhys.StepOnce | lib/sh/pathphys.c:125-228 | a step keeps the result well formed and within PATH_MAX and either makes progress or fails; a failure is never EINVAL |
| PathPhys.Follow | lib/sh/pathphys.c:172-226 | following a link counts it and fails exactly when that makes more than MAXSYMLINKS (20) links or when link + rest + 2 >= PATH_MAX, with ELOOP if and only if the link bound is passed and ENAMETOOLONG otherwise; an absolute target restarts from its own root with an empty stack and reads link + rest, keeping its leading `//` status; a relative target keeps the prefix and the components written before the link and reads link + rest |
| PathPhys.WholeElem | lib/sh/pathphys.c:127-146 | a proper component followed by the end or a slash is read as one whole element, neither `.` nor `..`, with the rest left after it |
| PathPhys.ResolveNonLink | lib/sh/pathphys.c:163-169 | when readlink says EINVAL of the buffer with an element appended, the walk goes on from that buffer with the rest of the path |
| PathPhys.ResolveLink | lib/sh/pathphys.c:163-226 | when readlink gives text t for the buffer with an element appended, within the link and length bounds, the walk gives what it gives from t + rest: from t's own root with an empty stack for an absolute t, and from the components before the element for a relative t, with one more link counted |
| PathPhys.FollowNext | lib/sh/pathphys.c:205-226 | within the link and length bounds, following an absolute target restarts the walk on target + rest, and a relative target is read as target + rest from the state before the element |
| PathPhys.LinkThenPlain | lib/sh/pathphys.c:125-242 | with /a a link to `c` or to `/c` and neither /c nor /c/b a link, "/a/b" resolves to "/c/b" |
| PathPhys.ResolveSlash | lib/sh/pathphys.c:127-128 | a slash before the rest of the path changes nothing |
| PathPhys.AbsoluteLinkExample | lib/sh/pathphys.c:205-226 | with /a a link to /x and no other links, "/a/b" resolves to "/x/b" |
| PathPhys.RelativeLinkExample | lib/sh/pathphys.c:222-226 | with /a a link to c and no other links, "/a/b" resolves to "/c/b" |
| PathPhys.StepPhysical | lib/sh/pathphys.c:163-169 | a step keeps every written component a non-link: an element stays in the result only when readlink said EINVAL of it |
| PathPhys.StepReported | lib/sh/pathphys.c:148-197 | a step fails only with ENAMETOOLONG, ELOOP or an error readlink reported |
| PathPhys.Resolve | lib/sh/pathphys.c:125-228 | resolution ends with the input consumed or an error other than EINVAL, which is ENAMETOOLONG, ELOOP or one readlink reported; a leading slash is kept; no component of the result names a link |
| PathPhys.JoinBoundary | lib/sh/pathphys.c:143-161 | each place in the buffer that ends a component is where the buffer stood after that component was appended |
| PathPhys.PhysicalRendered | lib/sh/pathphys.c:161-169 | every leading part of the result that ends a component was asked of readlink and is not a link |
| PathPhys.FixupNeverApplies | lib/sh/pathphys.c:236-242 | the result starts with a double slash exactly when the path the walk last started from did (the input, or the last absolute link target followed), so the final fix-up leaves the result as it is |
| PathPhys.PhysPath | lib/sh/pathphys.c:71-245 | a result fits in PATH_MAX, keeps an absolute path absolute, and has only proper components after its prefix, none of whose leading parts is a symbolic link; an error is never EINVAL, and is ENAMETOOLONG, ELOOP or one readlink reported |
| PathPhys.BudgetStep | lib/sh/pathphys.c:125-168 | without links, a pass whose buffer, unread rest and pending separator fit in PATH_MAX does not fail and does not make that total grow |
| PathPhys.ResolveNoLinks | lib/sh/pathphys.c:125-228 | without links the walk is the lexical fold over the components, or ENAMETOOLONG; it succeeds whenever its buffer, unread rest and pending separator fit in PATH_MAX |
| PathPhys.NoLinksIsLexical | lib/sh/pathphys.c:71-245 | without links, sh_physpath drops empty and "." components and pops on "..", never above the prefix, or fails with ENAMETOOLONG; a path of at most PATH_MAX bytes always gets the lexical result |
| PathPhys.NoLinksKeepsRoot | lib/sh/pathphys.c:107-114 | without links the result keeps the first character and the leading-"//" status of the input |
| PathPhys.PhysPathIdempotent | lib/sh/pathphys.c:71-245 | without links, resolving a result again gives the same result |
| PathPhys.SelfLinkLoops | lib/sh/pathphys.c:173-185 | a link that points back to itself is followed until the MAXSYMLINKS bound of 20 links and then gives ELOOP |
| PathPhys.SelfLinkIsEloop | lib/sh/pathphys.c:173-185 | sh_physpath("/a") with /a a link to /a fails with ELOOP |
| PathPhys.RealPath | lib/sh/pathphys.c:247-287 | a null path gives EINVAL and "" gives ENOENT, leaving the buffer alone; an absolute path is resolved by sh_physpath; a relative one is resolved as its join to the cwd, and a cwd error is passed on; a caller buffer receives the result cut to at most PATH_MAX-1 characters, or "" when resolution fails |
| PathPhys.RealPathCut | lib/sh/pathphys.c:275-279 | the caller's buffer receives the physical path whole, or its first PATH_MAX-1 characters when it fills all PATH_MAX |
| PathPhys.RealPathRelative | lib/sh/pathphys.c:258-269 | a relative name with an absolute cwd gives what the joined absolute name gives |

## Left out

- System calls are oracles. This covers `lstat`, `open`, `mkdir`, `unlink`, `close`, `fdopen`, `pathconf` and `readlink`. The file system is a map with injected per-path faults. `fdopen` success is a boolean input. `readlink` is a function from the accumulated path to a result. `pathconf(NAME_MAX)` is an input function of the directory.
- Time, the pid and random words are inputs. `gettimeofday`, `dollar_dollar_pid`, `random`/`get_urandom32` and `sh_seedrand` become the fields of `Env` and `Tick`.
- The `USE_MKTEMP`, `USE_MKSTEMP` and `USE_MKDTEMP` branches of tmpfile.c are not modelled. They hand the work to host primitives; only the fallback loops are modelled.
- The retry loops are unbounded in the source. The model bounds them by a finite sequence of ticks and reports `Exhausted` when the ticks run out.
- TmpFile.MkTmpName: it does not restate the ntmpfiles count, which `TmpFile.NameLoopCounts` states for the loop. TmpFile.FdLoop likewise states no count.
- The `MT_*`, `HASH_*`, `CASE_*` and builtin flag bits are modelled as booleans or as the constants casemod.c defines. The header values are not part of this model.
- Default sizes come from headers that are not part of this model. DEFAULT_HASH_BUCKETS is 128 and EX_USAGE is 258, the values bash uses.
- PathPhys.PhysPath requires a non-empty path. With "" the source reads past the terminator; `sh_realpath` rejects "" before calling it.
- A relative path given straight to `sh_physpath` keeps its first character as the prefix, as the source does ("./a" becomes ".a"). Only `sh_realpath` makes paths absolute first.
- `MAXSYMLINKS` is 20, the value glibc's `<sys/param.h>` gives on Linux hosts, where PATH_MAX is also 4096. pathphys.c:41-43 defines 32 only as a fallback for hosts whose headers lack it, and that fallback is not modelled.
- `readlink` truncation at PATH_MAX is not modelled. A link text long enough to be truncated already fails the link + rest + 2 >= PATH_MAX check.
- `sh_makepath` (makepath.c) is not part of this model. `PathPhys.MakePath` joins with one slash, and the cwd (`get_working_directory`) is a parameter.
- The Cygwin `realpath` branch is not modelled.
- Single-byte locales other than C are not modelled: `CaseMod` classifies and converts bytes as the C locale does, so for example the Latin-1 letters at 0x80 and above are left unchanged.
- The multibyte branch of `sh_modcase` is not modelled. It needs locale case tables and `mbrtowc`/`wcrtomb`. `strmatch` is a per-byte predicate.
- These hashlib.c members are not modelled: memory management (`xmalloc`, `free`, `hash_dispose`, the free callbacks), `hash_walk`, `hash_pstats`, `hash_size`, the unused `hash_shrink` and the TEST_HASHING `main`.
- HashLib.AddNew: it grows with the corrected `HashLib.Grow`, not with hash_grow as written (hashlib.c:263, 333). The as-written growth, which shrinks a table of more than 2^30 buckets, is `HashLib.GrowAsWritten` under Findings.
- tmpfile.c is modelled as built with `USE_URANDOM32` and `HAVE_PATHCONF`. Built with `random()` instead (tmpfile.c:188, 260), the `long` result converts to `unsigned long` modulo 2^64, not through `unsigned int`. Built without `HAVE_PATHCONF`, `tmpnamelen` is set to 0 on every call (tmpfile.c:115-116), so names are never truncated.
- Signed `int` overflow is undefined behaviour in C. The model gives `ntmpfiles++` (tmpfile.c:186) and `nbuckets * 4` (hashlib.c:158) the two's-complement wrap that common compilers produce.
- HashLib.HashStringIsFnv1 is stated for seven-bit keys only. Above 0x7f the signed `char` makes the hash differ from FNV-1, which `HashLib.HighByteDiffers` shows.
- Error and usage printing in common.c is not modelled (`builtin_error`, `sh_*` messages, `sh_chkwrite`). Of `no_args` (common.c:139-151), only the jump back to the command loop is modelled, as `GetExitStat`'s `Discarded` outcome; its message and the EX_BADUSAGE exit status are not. The job and variable helpers depend on subsystems outside this model.
- Concurrency is not modelled. The process-global state of tmpfile.c (`sys_tmpdir`, `ntmpfiles`, `tmpnamelen`, `filenum`) is threaded through as `TmpFile.TmpState`.

## Findings

| source | as written | input that shows it | evidently intended | confidence | as-written member | corrected member |
|---|---|---|---|---|---|---|
| hashlib.c:153-161 | `nbuckets * HASH_REHASH_MULTIPLIER` is an `int` product, and the only overflow guard is `nsize > 0` | a table of 2^30+1 buckets: the product wraps to 4, and the table is rehashed into 4 buckets | keep the table when quadrupling does not fit in an int | not executed; reachable only for tables created with more than 2^30 buckets | HashLib.GrowAsWritten, HashLib.GrowAsWrittenShrinks | HashLib.Grow |
| lib/sh/tmpfile.c:194-196 (also 266-268) | after `snprintf` into the PATH_MAX+1 buffer, the NUL that truncates the name is stored at index `tdlen + 1 + tmpnamelen` without a bound | TMPDIR a writable directory of 4090 bytes with NAME_MAX 14: the store is at index 4105, past the 4097-byte buffer | truncate only within the buffer | not executed | TmpFile.CandidateAsWritten, TmpFile.CandidateOverrun | TmpFile.MakeCandidate |

=== FILE: base.dfy ===
/** Shared vocabulary of the model: the errno values the modelled code
    distinguishes, a success/failure result, and host limits. */
module Base {

  /** The errno values the modelled code tests for by name; every other
      host error is carried as `Other` with its number. */
  datatype Errno =
    | ENOENT
    | EEXIST
    | EINVAL
    | EISDIR
    | ELOOP
    | ENAMETOOLONG
    | Other(code: int)

  datatype Result<+T> = Ok(value: T) | Err(error: Errno) {
    predicate IsFailure() {
      Err?
    }

    function PropagateFailure<U>(): Result<U>
      requires Err?
    {
      Err(error)
    }

    function Extract(): T
      requires Ok?
    {
      value
    }
  }

  datatype Option<+T> = None | Some(value: T)

  /** A byte of a C string, as an `unsigned char` value. */
  type Byte = x: nat | x < 256

  /** PATH_MAX of the host (Linux); the buffers of the modelled code hold
      PATH_MAX + 1 bytes. */
  const PATH_MAX: nat := 4096

  /** The 32-bit two's-complement value of an unbounded integer, as a C
      `int` holds it after a multiplication that wrapped. */
  function WrapInt32(x: int): (r: int)
    ensures -0x8000_0000 <= r < 0x8000_0000
    ensures (r - x) % 0x1_0000_0000 == 0
    ensures -0x8000_0000 <= x < 0x8000_0000 ==> r == x
  {
    var m := x % 0x1_0000_0000;
    if m >= 0x8000_0000 then m - 0x1_0000_0000 else m
  }

  function Pow2(k: nat): (r: nat)
    ensures r >= 1
  {
    if k == 0 then 1 else 2 * Pow2(k - 1)
  }

  /** Bitwise AND of two non-negative integers, bit by bit from the least
      significant end: the `&` of C on unsigned values. */
  function BitAnd(a: nat, b: nat): nat
    decreases a
  {
    if a == 0 || b == 0 then 0
    else 2 * BitAnd(a / 2, b / 2) + (if a % 2 == 1 && b % 2 == 1 then 1 else 0)
  }

  /** Masking never exceeds the mask. */
  lemma {:induction false} BitAndBound(a: nat, b: nat)
    ensures BitAnd(a, b) <= b
    decreases a
  {
    if a != 0 && b != 0 {
      BitAndBound(a / 2, b / 2);
    }
  }

  lemma MulZero(d: int, k: int)
    requires d > 0 && -d < d * k < d
    ensures k == 0
  {
    assert d * k == d * (k - 1) + d;
    assert d * k == d * (k + 1) - d;
    assert k >= 1 ==> d * (k - 1) >= 0;
    assert k <= -1 ==> d * (k + 1) <= 0;
  }

  /** Quotient and remainder are determined by the division equation. */
  lemma DivModUnique(a: int, d: int, q: int, r: int)
    requires d > 0 && a == d * q + r && 0 <= r < d
    ensures a % d == r && a / d == q
  {
    var q0, r0 := a / d, a % d;
    assert d * (q0 - q) == r - r0;
    MulZero(d, q0 - q);
  }

  lemma HalfMod(a: nat, p: nat)
    requires p >= 1
    ensures a % (2 * p) == 2 * ((a / 2) % p) + a % 2
  {
    var q, t := (a / 2) / p, (a / 2) % p;
    assert a / 2 == p * q + t;
    assert a == (2 * p) * q + (2 * t + a % 2);
    DivModUnique(a, 2 * p, q, 2 * t + a % 2);
  }

  /** Masking with 2^k - 1 keeps the k low bits: it is reduction modulo 2^k. */
  lemma {:induction false} BitAndLowMask(a: nat, k: nat)
    ensures BitAnd(a, Pow2(k) - 1) == a % Pow2(k)
    decreases k
  {
    if k != 0 && a != 0 {
      var m := Pow2(k - 1);
      assert Pow2(k) - 1 == 2 * (m - 1) + 1;
      assert (Pow2(k) - 1) / 2 == m - 1 && (Pow2(k) - 1) % 2 == 1;
      BitAndLowMask(a / 2, k - 1);
      HalfMod(a, m);
    }
  }

  /** Bitwise exclusive or of two non-negative integers. */
  function BitXor(a: nat, b: nat): nat
    decreases a + b
  {
    if a == 0 then b
    else if b == 0 then a
    else 2 * BitXor(a / 2, b / 2) + (if a % 2 == b % 2 then 0 else 1)
  }

  lemma {:induction false} BitXorBelow(a: nat, b: nat, k: nat)
    requires a < Pow2(k) && b < Pow2(k)
    ensures BitXor(a, b) < Pow2(k)
    decreases k
  {
    if a != 0 && b != 0 {
      BitXorBelow(a / 2, b / 2, k - 1);
    }
  }

  lemma BitXorHalves(a: nat, b: nat)
    ensures BitXor(a, b) % 2 == (if a % 2 == b % 2 then 0 else 1)
    ensures BitXor(a, b) / 2 == BitXor(a / 2, b / 2)
  {
    var bit := if a % 2 == b % 2 then 0 else 1;
    if a == 0 {
      assert BitXor(a / 2, b / 2) == b / 2;
      DivModUnique(b, 2, b / 2, bit);
    } else if b == 0 {
      assert BitXor(a / 2, b / 2) == a / 2;
      DivModUnique(a, 2, a / 2, bit);
    } else {
      DivModUnique(BitXor(a, b), 2, BitXor(a / 2, b / 2), bit);
    }
  }

  /** XOR with a fixed operand is injective. */
  lemma {:induction false} BitXorInjective(a: nat, b: nat, c: nat)
    requires BitXor(a, b) == BitXor(a, c)
    ensures b == c
    decreases b + c
  {
    BitXorHalves(a, b);
    BitXorHalves(a, c);
    if b != 0 || c != 0 {
      BitXorInjective(a / 2, b / 2, c / 2);
    }
  }

  /** Applying the same XOR twice gives the word back. */
  lemma {:induction false} BitXorCancel(k: nat, x: nat)
    ensures BitXor(BitXor(k, x), k) == x
    decreases k + x
  {
    var y := BitXor(k, x);
    BitXorHalves(k, x);
    BitXorHalves(y, k);
    if k != 0 || x != 0 {
      BitXorCancel(k / 2, x / 2);
    }
  }

  /** 2^32 and 2^64, the ranges of `unsigned int` and `unsigned long`. */
  lemma Pow2Word()
    ensures Pow2(32) == 0x1_0000_0000
    ensures Pow2(64) == 0x1_0000_0000_0000_0000
  {
    Pow2Half();
    assert Pow2(40) == 0x100_0000_0000;
    assert Pow2(48) == 0x1_0000_0000_0000;
    assert Pow2(56) == 0x100_0000_0000_0000;
  }

  lemma Pow2Half()
    ensures Pow2(32) == 0x1_0000_0000
  {
    assert Pow2(8) == 0x100;
    assert Pow2(16) == 0x1_0000;
    assert Pow2(24) == 0x100_0000;
  }
}

=== FILE: casemod.dfy ===
/** Case modification of strings (sh_modcase), single-byte locale: every
    byte is one character, classified and converted as in the C locale.
    The optional pattern is a predicate on one character, standing for
    `strmatch (pat, c, FNM_EXTMATCH)` on the one-character substring. */
module CaseMod {
  import opened Base

  const CASE_NOOP: bv32 := 0x0000
  const CASE_LOWER: bv32 := 0x0001
  const CASE_UPPER: bv32 := 0x0002
  const CASE_CAPITALIZE: bv32 := 0x0004
  const CASE_UNCAP: bv32 := 0x0008
  const CASE_TOGGLE: bv32 := 0x0010
  const CASE_TOGGLEALL: bv32 := 0x0020
  const CASE_UPFIRST: bv32 := 0x0040
  const CASE_LOWFIRST: bv32 := 0x0080
  const CASE_USEWORDS: bv32 := 0x1000

  // ---------------------------------------------------------------------
  // Character classes of the C locale

  predicate IsUpper(c: Byte) { 'A' as nat <= c <= 'Z' as nat }
  predicate IsLower(c: Byte) { 'a' as nat <= c <= 'z' as nat }
  predicate IsDigit(c: Byte) { '0' as nat <= c <= '9' as nat }
  predicate IsAlnum(c: Byte) { IsUpper(c) || IsLower(c) || IsDigit(c) }

  /** TOUPPER: lower-case letters to upper case, everything else kept. */
  function ToUpper(c: Byte): (r: Byte)
    ensures IsLower(c) ==> IsUpper(r) && r + 32 == c
    ensures !IsLower(c) ==> r == c
  {
    if IsLower(c) then c - 32 else c
  }

  /** TOLOWER: upper-case letters to lower case, everything else kept. */
  function ToLower(c: Byte): (r: Byte)
    ensures IsUpper(c) ==> IsLower(r) && r == c + 32
    ensures !IsUpper(c) ==> r == c
  {
    if IsUpper(c) then c + 32 else c
  }

  /** TOGGLE: upper case to lower, anything else through TOUPPER. */
  function Toggle(c: Byte): Byte {
    if IsUpper(c) then ToLower(c) else ToUpper(c)
  }

  /** The `switch (nop)` of the single-byte branch: CASE_TOGGLE and
      CASE_TOGGLEALL toggle, CASE_UPPER and CASE_LOWER convert, and every
      other value, CASE_NOOP included, copies the character. */
  function Convert(nop: bv32, c: Byte): Byte {
    if nop == CASE_UPPER then ToUpper(c)
    else if nop == CASE_LOWER then ToLower(c)
    else if nop == CASE_TOGGLEALL || nop == CASE_TOGGLE then Toggle(c)
    else c
  }

  /** Case conversion changes letters only. */
  lemma ConvertKeepsNonLetters(nop: bv32, c: Byte)
    requires !IsAlnum(c)
    ensures Convert(nop, c) == c
  {
  }

  lemma ToggleInvolutive(c: Byte)
    ensures Toggle(Toggle(c)) == c
  {
  }

  // ---------------------------------------------------------------------
  // sh_modcase

  /** The operators that single out the first character of a word. */
  predicate IsWordOp(flags: bv32) {
    flags == CASE_CAPITALIZE || flags == CASE_UNCAP || flags == CASE_UPFIRST
    || flags == CASE_LOWFIRST || flags == CASE_TOGGLE
  }

  /** The operation on a word's first character and on the others. */
  function FirstOp(flags: bv32): bv32 {
    if flags == CASE_CAPITALIZE || flags == CASE_UPFIRST then CASE_UPPER
    else if flags == CASE_UNCAP || flags == CASE_LOWFIRST then CASE_LOWER
    else if flags == CASE_TOGGLE then CASE_TOGGLE
    else flags
  }

  function RestOp(flags: bv32): bv32 {
    if flags == CASE_CAPITALIZE then CASE_LOWER
    else if flags == CASE_UNCAP then CASE_UPPER
    else if flags == CASE_UPFIRST || flags == CASE_LOWFIRST || flags == CASE_TOGGLE then CASE_NOOP
    else flags
  }

  /** The choice of `nop` for a character that the pattern (if any)
      matched, and the new `inword`.  The capitalising operators decide
      "first" by `inword` under CASE_USEWORDS and by position otherwise;
      CASE_TOGGLE always decides by `inword`. */
  function Choose(flags: bv32, usewords: bool, inword: bool, start: nat): (bv32, bool) {
    if flags == CASE_TOGGLE then
      (if inword then RestOp(flags) else FirstOp(flags), true)
    else if IsWordOp(flags) then
      var first := if usewords then !inword else start == 0;
      (if first then FirstOp(flags) else RestOp(flags), true)
    else
      (flags, inword)
  }

  /** The loop of sh_modcase from index `start` with the given `inword`:
      the output for `s[start..]`. */
  function ModFrom(s: seq<Byte>, pat: Option<Byte -> bool>, flags: bv32, usewords: bool,
                   start: nat, inword: bool): (r: seq<Byte>)
    requires start <= |s|
    ensures |r| == |s| - start
    decreases |s| - start
  {
    if start == |s| then []
    else
      var c := s[start];
      var iw := inword && IsAlnum(c);
      if pat.Some? && !pat.value(c) then
        [c] + ModFrom(s, pat, flags, usewords, start + 1, true)
      else
        var (nop, iw') := Choose(flags, usewords, iw, start);
        [Convert(nop, c)] + ModFrom(s, pat, flags, usewords, start + 1, iw')
  }

  /** The flags with CASE_USEWORDS removed, as the loop sees them. */
  function Strip(flags: bv32): bv32 {
    flags & !CASE_USEWORDS
  }

  /** sh_modcase: a null or empty string gives the empty string; otherwise
      one output character per input character. */
  function ModCase(str: Option<seq<Byte>>, pat: Option<Byte -> bool>, flags: bv32): (r: seq<Byte>)
    ensures str.None? ==> r == []
    ensures str.Some? ==> |r| == |str.value|
  {
    if str.None? || |str.value| == 0 then []
    else ModFrom(str.value, pat, Strip(flags), flags & CASE_USEWORDS != 0, 0, false)
  }

  // ---------------------------------------------------------------------
  // What the loop computes

  /** Reference definition: the character at index `i` of the result.  A
      character the pattern rejects is copied; any other is converted by
      the first-character operation at index 0 and by the rest operation
      elsewhere. */
  function Expected(s: seq<Byte>, pat: Option<Byte -> bool>, flags: bv32, i: nat): Byte
    requires i < |s|
  {
    if pat.Some? && !pat.value(s[i]) then s[i]
    else if i == 0 then Convert(FirstOp(flags), s[i])
    else Convert(RestOp(flags), s[i])
  }

  /** One step of the loop at an index past the first: once any character
      has gone by, `inword` is set for a word operator, and it is cleared
      only at a character that no conversion changes. */
  lemma StepAfterFirst(c: Byte, pat: Option<Byte -> bool>, flags: bv32, usewords: bool,
                       start: nat, inword: bool)
    requires start >= 1 && (IsWordOp(flags) ==> inword)
    requires pat.None? || pat.value(c)
    ensures Convert(Choose(flags, usewords, inword && IsAlnum(c), start).0, c)
         == Convert(RestOp(flags), c)
    ensures IsWordOp(flags) ==> Choose(flags, usewords, inword && IsAlnum(c), start).1
  {
    if !IsAlnum(c) {
      ConvertKeepsNonLetters(Choose(flags, usewords, inword && IsAlnum(c), start).0, c);
      ConvertKeepsNonLetters(RestOp(flags), c);
    }
  }

  lemma {:induction false} ModFromAfterFirst(s: seq<Byte>, pat: Option<Byte -> bool>, flags: bv32,
                                            usewords: bool, start: nat, inword: bool)
    requires 1 <= start <= |s| && (IsWordOp(flags) ==> inword)
    ensures forall k :: 0 <= k < |s| - start ==>
      ModFrom(s, pat, flags, usewords, start, inword)[k] == Expected(s, pat, flags, start + k)
    decreases |s| - start
  {
    if start < |s| {
      var c := s[start];
      var iw := inword && IsAlnum(c);
      var r := ModFrom(s, pat, flags, usewords, start, inword);
      if pat.Some? && !pat.value(c) {
        var t := ModFrom(s, pat, flags, usewords, start + 1, true);
        ModFromAfterFirst(s, pat, flags, usewords, start + 1, true);
        assert r == [c] + t;
        ShiftExpected(s, pat, flags, start, r, t);
      } else {
        var (nop, iw') := Choose(flags, usewords, iw, start);
        var t := ModFrom(s, pat, flags, usewords, start + 1, iw');
        StepAfterFirst(c, pat, flags, usewords, start, inword);
        ModFromAfterFirst(s, pat, flags, usewords, start + 1, iw');
        assert r == [Convert(nop, c)] + t;
        ShiftExpected(s, pat, flags, start, r, t);
      }
    }
  }

  /** An output that starts with the expected character at `start` and
      continues with the expected output from `start + 1` is the expected
      output from `start`. */
  lemma ShiftExpected(s: seq<Byte>, pat: Option<Byte -> bool>, flags: bv32, start: nat,
                      r: seq<Byte>, t: seq<Byte>)
    requires start < |s| && |r| > 0 && r[1..] == t && r[0] == Expected(s, pat, flags, start)
    requires |t| == |s| - (start + 1)
    requires forall k :: 0 <= k < |s| - (start + 1) ==> t[k] == Expected(s, pat, flags, start + 1 + k)
    ensures forall k :: 0 <= k < |s| - start ==> r[k] == Expected(s, pat, flags, start + k)
  {
    forall k | 0 <= k < |s| - start
      ensures r[k] == Expected(s, pat, flags, start + k)
    {
      if k > 0 {
        assert r[k] == t[k - 1];
      }
    }
  }

  /** The meaning of sh_modcase, character by character, against the
      reference definition. */
  lemma ModCaseMeaning(s: seq<Byte>, pat: Option<Byte -> bool>, flags: bv32)
    ensures |ModCase(Some(s), pat, flags)| == |s|
    ensures forall i :: 0 <= i < |s| ==> ModCase(Some(s), pat, flags)[i] == Expected(s, pat, Strip(flags), i)
  {
    if |s| != 0 {
      var f, uw := Strip(flags), flags & CASE_USEWORDS != 0;
      var c := s[0];
      var r := ModFrom(s, pat, f, uw, 0, false);
      if pat.Some? && !pat.value(c) {
        var t := ModFrom(s, pat, f, uw, 1, true);
        ModFromAfterFirst(s, pat, f, uw, 1, true);
        assert r == [c] + t;
        ShiftExpected(s, pat, f, 0, r, t);
      } else {
        var (nop, iw') := Choose(f, uw, false, 0);
        var t := ModFrom(s, pat, f, uw, 1, iw');
        ModFromAfterFirst(s, pat, f, uw, 1, iw');
        assert r == [Convert(nop, c)] + t;
        ShiftExpected(s, pat, f, 0, r, t);
      }
    }
  }

  // ---------------------------------------------------------------------
  // Consequences

  /** Without a pattern, CASE_UPPER, CASE_LOWER and CASE_TOGGLEALL convert
      every character. */
  lemma MapsEveryChar(s: seq<Byte>, flags: bv32)
    requires Strip(flags) in {CASE_UPPER, CASE_LOWER, CASE_TOGGLEALL}
    ensures var r := ModCase(Some(s), None, flags);
      && |r| == |s|
      && (Strip(flags) == CASE_UPPER ==> forall i :: 0 <= i < |s| ==> r[i] == ToUpper(s[i]))
      && (Strip(flags) == CASE_LOWER ==> forall i :: 0 <= i < |s| ==> r[i] == ToLower(s[i]))
      && (Strip(flags) == CASE_TOGGLEALL ==> forall i :: 0 <= i < |s| ==> r[i] == Toggle(s[i]))
  {
    ModCaseMeaning(s, None, flags);
  }

  /** A flag value the switch does not know, a combination of operators
      among them, leaves the string as it was. */
  lemma UnknownFlagsKeep(s: seq<Byte>, pat: Option<Byte -> bool>, flags: bv32)
    requires Strip(flags) !in {CASE_LOWER, CASE_UPPER, CASE_CAPITALIZE, CASE_UNCAP,
                               CASE_TOGGLE, CASE_TOGGLEALL, CASE_UPFIRST, CASE_LOWFIRST}
    ensures ModCase(Some(s), pat, flags) == s
  {
    ModCaseMeaning(s, pat, flags);
  }

  /** Without a pattern, CASE_CAPITALIZE upper-cases the first character and
      lower-cases the rest; CASE_UNCAP does the opposite. */
  lemma CapitalizeUncap(s: seq<Byte>, flags: bv32)
    requires Strip(flags) in {CASE_CAPITALIZE, CASE_UNCAP}
    ensures var r := ModCase(Some(s), None, flags);
      && |r| == |s|
      && (Strip(flags) == CASE_CAPITALIZE ==>
            (|s| > 0 ==> r[0] == ToUpper(s[0])) && forall i :: 1 <= i < |s| ==> r[i] == ToLower(s[i]))
      && (Strip(flags) == CASE_UNCAP ==>
            (|s| > 0 ==> r[0] == ToLower(s[0])) && forall i :: 1 <= i < |s| ==> r[i] == ToUpper(s[i]))
  {
    ModCaseMeaning(s, None, flags);
  }

  /** Without a pattern, CASE_UPFIRST, CASE_LOWFIRST and CASE_TOGGLE convert
      the first character only and copy all others. */
  lemma FirstCharOnly(s: seq<Byte>, flags: bv32)
    requires |s| > 0 && Strip(flags) in {CASE_UPFIRST, CASE_LOWFIRST, CASE_TOGGLE}
    ensures var r := ModCase(Some(s), None, flags);
      && |r| == |s|
      && r[1..] == s[1..]
      && (Strip(flags) == CASE_UPFIRST ==> r[0] == ToUpper(s[0]))
      && (Strip(flags) == CASE_LOWFIRST ==> r[0] == ToLower(s[0]))
      && (Strip(flags) == CASE_TOGGLE ==> r[0] == Toggle(s[0]))
  {
    ModCaseMeaning(s, None, flags);
    var r := ModCase(Some(s), None, flags);
    assert forall i :: 1 <= i < |s| ==> r[i] == s[i];
  }

  /** CASE_USEWORDS changes nothing in a single-byte locale: `inword` is
      cleared only at the character being looked at, and only when that
      character is not alphanumeric, so no letter after the first is ever
      treated as the start of a word. */
  lemma UseWordsHasNoEffect(s: seq<Byte>, pat: Option<Byte -> bool>, flags: bv32)
    ensures ModCase(Some(s), pat, flags | CASE_USEWORDS) == ModCase(Some(s), pat, flags)
  {
    assert Strip(flags | CASE_USEWORDS) == Strip(flags);
    ModCaseMeaning(s, pat, flags | CASE_USEWORDS);
    ModCaseMeaning(s, pat, flags);
  }

  /** With a pattern, a character it rejects is copied unchanged and one it
      accepts is converted as without a pattern. */
  lemma PatternSelects(s: seq<Byte>, p: Byte -> bool, flags: bv32)
    ensures var r := ModCase(Some(s), Some(p), flags);
      var q := ModCase(Some(s), None, flags);
      && |r| == |s| == |q|
      && forall i :: 0 <= i < |s| ==> r[i] == (if p(s[i]) then q[i] else s[i])
  {
    ModCaseMeaning(s, Some(p), flags);
    ModCaseMeaning(s, None, flags);
  }
}

=== FILE: common.dfy ===
/** Small helpers shared by the shell's builtins: the octal parser of
    umask-style arguments, the exit status of `exit` and `return`, the
    lookup of a builtin by name in the sorted builtin table, the positional
    parameters `$1`..`$9` with the list of the rest, and the numeric
    signal arguments of `kill -l`. */
module BuiltinsCommon {
  import opened Base

  /** EX_USAGE of the shell (shell.h is not part of this model). */
  const EX_USAGE: int := 258

  // ---------------------------------------------------------------------
  // read_octal

  predicate IsOctal(c: char) { '0' <= c <= '7' }

  predicate AllOctal(s: string) {
    forall i :: 0 <= i < |s| ==> IsOctal(s[i])
  }

  function DigitValue(c: char): nat
    requires IsOctal(c)
  {
    (c as int - '0' as int) as nat
  }

  /** Reference definition: the base-8 value of a string of octal digits. */
  function OctalValue(s: string): nat
    requires AllOctal(s)
  {
    if |s| == 0 then 0 else 8 * OctalValue(s[..|s| - 1]) + DigitValue(s[|s| - 1])
  }

  /** A longer string of digits never has a smaller value. */
  lemma {:induction false} OctalPrefixBelow(s: string, k: nat)
    requires AllOctal(s) && k <= |s|
    ensures OctalValue(s[..k]) <= OctalValue(s)
    decreases |s| - k
  {
    if k < |s| {
      assert s[..k + 1][..k] == s[..k];
      assert OctalValue(s[..k]) <= OctalValue(s[..k + 1]);
      OctalPrefixBelow(s, k + 1);
    } else {
      assert s[..k] == s;
    }
  }

  /** read_octal: the value of a non-empty string of octal digits that is at
      most 07777, and -1 for the empty string, for a string with any other
      character, and for a value above 07777. */
  method ReadOctal(s: string) returns (r: int)
    ensures r == -1 || 0 <= r <= 4095
    ensures r != -1 <==> |s| > 0 && AllOctal(s) && OctalValue(s) <= 4095
    ensures r != -1 ==> AllOctal(s) && r == OctalValue(s)
  {
    var result := 0;
    var i := 0;
    while i < |s| && IsOctal(s[i])
      invariant 0 <= i <= |s| && AllOctal(s[..i])
      invariant result == OctalValue(s[..i]) <= 4095
    {
      assert s[..i + 1][..i] == s[..i];
      result := result * 8 + DigitValue(s[i]);
      i := i + 1;
      if result > 4095 {
        if AllOctal(s) {
          OctalPrefixBelow(s, i);
        }
        return -1;
      }
    }
    if i == 0 || i < |s| {
      assert i < |s| ==> !IsOctal(s[i]);
      return -1;
    }
    assert s[..i] == s;
    return result;
  }

  /** The octal numeral of a number, most significant digit first. */
  function OctalNumeral(n: nat): (r: string)
    ensures AllOctal(r) && |r| >= 1
    decreases n
  {
    var d := ['0' + (n % 8) as char];
    if n < 8 then d else OctalNumeral(n / 8) + d
  }

  /** Parsing the numeral of a number gives the number back, so read_octal
      accepts exactly the numerals of 0..07777 among the plain numerals. */
  lemma {:induction false} OctalRoundTrip(n: nat)
    ensures OctalValue(OctalNumeral(n)) == n
    decreases n
  {
    var r := OctalNumeral(n);
    var d := ['0' + (n % 8) as char];
    if n >= 8 {
      OctalRoundTrip(n / 8);
      assert r[..|r| - 1] == OctalNumeral(n / 8);
    }
    assert r[|r| - 1] == d[0];
  }

  // ---------------------------------------------------------------------
  // get_exitstat

  /** The outcome of get_exitstat: a status, or control leaving the builtin
      because extra arguments followed a number (no_args jumps to the top
      level with DISCARD). */
  datatype ExitStat = Status(value: int) | Discarded

  /** get_exitstat.  A leading `--` is skipped; no argument gives
      `lastStatus` (the value of `$?` the caller chose, before or after a
      trap); a non-number gives EX_USAGE; a number with nothing after it
      gives its low eight bits.  `number` is valid_number: the value of a
      word that is a decimal integer in the range of `intmax_t`. */
  function GetExitStat(args: seq<string>, lastStatus: int, number: string -> Option<int>): (r: ExitStat)
    ensures var a := if |args| > 0 && args[0] == "--" then args[1..] else args;
      && (|a| == 0 ==> r == Status(lastStatus))
      && (|a| > 0 && number(a[0]).None? ==> r == Status(EX_USAGE))
      && (|a| > 1 && number(a[0]).Some? ==> r == Discarded)
      && (|a| == 1 && number(a[0]).Some? ==>
            r.Status? && 0 <= r.value < 256 && (r.value - number(a[0]).value) % 256 == 0)
  {
    var a := if |args| > 0 && args[0] == "--" then args[1..] else args;
    if |a| == 0 then Status(lastStatus)
    else
      match number(a[0])
      case None => Status(EX_USAGE)
      case Some(v) => if |a| > 1 then Discarded else Status(v % 256)
  }

  /** The 64-bit two's-complement bits of an `intmax_t`, as a non-negative
      integer. */
  function Bits64(v: int): nat
    requires -0x8000_0000_0000_0000 <= v < 0x8000_0000_0000_0000
  {
    if v >= 0 then v else v + 0x1_0000_0000_0000_0000
  }

  /** `sval & 255` on a two's-complement `intmax_t` is the non-negative
      remainder modulo 256, negative values included. */
  lemma MaskIsMod(v: int)
    requires -0x8000_0000_0000_0000 <= v < 0x8000_0000_0000_0000
    ensures BitAnd(Bits64(v), 255) == v % 256
  {
    BitAndLowMask(Bits64(v), 8);
    assert Pow2(8) == 256;
    if v < 0 {
      DivModUnique(Bits64(v), 256, v / 256 + 0x100_0000_0000_0000, v % 256);
    }
  }

  /** `exit n` for a status n in 0..255 exits with n itself. */
  lemma ExitStatusRoundTrip(word: string, n: int, number: string -> Option<int>)
    requires word != "--" && number(word) == Some(n) && 0 <= n < 256
    ensures GetExitStat([word], 0, number) == Status(n)
  {
  }

  // ---------------------------------------------------------------------
  // shell_builtin_compare and builtin_address_internal

  /** The character at `i`, with the terminating NUL past the end. */
  function CharAt(s: seq<Byte>, i: nat): Byte {
    if i < |s| then s[i] else 0
  }

  /** A C string holds no NUL before its end. */
  predicate NulFree(s: seq<Byte>) {
    forall i :: 0 <= i < |s| ==> s[i] != 0
  }

  /** strcmp: the difference of the first differing bytes, taken as
      `unsigned char`, or 0 for equal strings. */
  function StrCmp(a: seq<Byte>, b: seq<Byte>): int
    decreases |a|
  {
    if |a| == 0 || |b| == 0 || a[0] != b[0] then CharAt(a, 0) - CharAt(b, 0)
    else StrCmp(a[1..], b[1..])
  }

  /** A plain `char` is signed on the modelled host. */
  function SignedChar(c: Byte): int {
    if c < 128 then c else c - 256
  }

  /** shell_builtin_compare: the difference of the first characters as
      plain (signed) `char`, and strcmp when they are equal. */
  function BuiltinCompare(a: seq<Byte>, b: seq<Byte>): int {
    var d := SignedChar(CharAt(a, 0)) - SignedChar(CharAt(b, 0));
    if d == 0 then StrCmp(a, b) else d
  }

  function Sign(x: int): int {
    if x < 0 then -1 else if x == 0 then 0 else 1
  }

  lemma {:induction false} StrCmpAntisymmetric(a: seq<Byte>, b: seq<Byte>)
    ensures StrCmp(a, b) == -StrCmp(b, a)
    decreases |a|
  {
    if !(|a| == 0 || |b| == 0 || a[0] != b[0]) {
      StrCmpAntisymmetric(a[1..], b[1..]);
    }
  }

  lemma {:induction false} StrCmpZero(a: seq<Byte>, b: seq<Byte>)
    requires NulFree(a) && NulFree(b)
    ensures StrCmp(a, b) == 0 <==> a == b
    decreases |a|
  {
    if |a| != 0 && |b| != 0 && a[0] == b[0] {
      StrCmpZero(a[1..], b[1..]);
      if a[1..] == b[1..] {
        assert a == [a[0]] + a[1..] && b == [b[0]] + b[1..];
      }
    } else if |a| == 0 && |b| == 0 {
    } else {
      assert |a| != 0 ==> a[0] != 0;
      assert |b| != 0 ==> b[0] != 0;
    }
  }

  lemma {:induction false} StrCmpTransitive(a: seq<Byte>, b: seq<Byte>, c: seq<Byte>)
    requires StrCmp(a, b) < 0 && StrCmp(b, c) < 0
    ensures StrCmp(a, c) < 0
    decreases |a|
  {
    if |a| != 0 && |b| != 0 && |c| != 0 && a[0] == b[0] && b[0] == c[0] {
      StrCmpTransitive(a[1..], b[1..], c[1..]);
    }
  }

  /** For names whose first bytes are below 0x80, where a signed and an
      unsigned `char` agree, shell_builtin_compare orders like strcmp. */
  lemma CompareAgreesWithStrCmp(a: seq<Byte>, b: seq<Byte>)
    requires CharAt(a, 0) < 128 && CharAt(b, 0) < 128
    ensures Sign(BuiltinCompare(a, b)) == Sign(StrCmp(a, b))
  {
  }

  lemma CompareAntisymmetric(a: seq<Byte>, b: seq<Byte>)
    ensures BuiltinCompare(a, b) == -BuiltinCompare(b, a)
  {
    StrCmpAntisymmetric(a, b);
  }

  lemma CompareZero(a: seq<Byte>, b: seq<Byte>)
    requires NulFree(a) && NulFree(b)
    ensures BuiltinCompare(a, b) == 0 <==> a == b
  {
    StrCmpZero(a, b);
  }

  lemma CompareTransitive(a: seq<Byte>, b: seq<Byte>, c: seq<Byte>)
    requires BuiltinCompare(a, b) < 0 && BuiltinCompare(b, c) < 0
    ensures BuiltinCompare(a, c) < 0
  {
    if SignedChar(CharAt(a, 0)) == SignedChar(CharAt(b, 0)) == SignedChar(CharAt(c, 0)) {
      StrCmpTransitive(a, b, c);
    }
  }

  /** An entry of the builtin table; BUILTIN_ENABLED and BUILTIN_DELETED
      of its flags are the two booleans. */
  datatype Builtin = Builtin(name: seq<Byte>, hasFunction: bool, enabled: bool, deleted: bool)

  /** The table as initialize_shell_builtins leaves it: sorted by
      shell_builtin_compare, names distinct and NUL-free. */
  predicate SortedTable(t: seq<Builtin>) {
    && (forall k :: 0 <= k < |t| ==> NulFree(t[k].name))
    && (forall i, j :: 0 <= i < j < |t| ==> BuiltinCompare(t[i].name, t[j].name) < 0)
  }

  /** What a lookup may return: an entry with a function, not deleted, and
      enabled unless disabled builtins are asked for. */
  predicate Usable(b: Builtin, disabledOkay: bool) {
    b.hasFunction && !b.deleted && (b.enabled || disabledOkay)
  }

  /** builtin_address_internal: binary search for `name`; the entry found
      is returned only if it is usable, and nothing otherwise. */
  method BuiltinAddress(t: seq<Builtin>, name: seq<Byte>, disabledOkay: bool) returns (r: Option<nat>)
    requires SortedTable(t) && NulFree(name)
    ensures r.Some? ==> r.value < |t| && t[r.value].name == name && Usable(t[r.value], disabledOkay)
    ensures r.None? <==> !exists k :: 0 <= k < |t| && t[k].name == name && Usable(t[k], disabledOkay)
  {
    var lo, hi := 0, |t| - 1;
    while lo <= hi
      invariant 0 <= lo <= |t| && -1 <= hi < |t| && lo <= hi + 1
      invariant forall k :: 0 <= k < lo ==> BuiltinCompare(t[k].name, name) < 0
      invariant forall k :: hi < k < |t| ==> BuiltinCompare(t[k].name, name) > 0
      decreases hi - lo
    {
      var mid := (lo + hi) / 2;
      var j := BuiltinCompare(t[mid].name, name);
      if j == 0 {
        CompareZero(t[mid].name, name);
        if Usable(t[mid], disabledOkay) {
          return Some(mid);
        }
        forall k | 0 <= k < |t| && k != mid
          ensures t[k].name != name
        {
          if k < mid {
            CompareZero(t[k].name, t[mid].name);
          } else {
            CompareZero(t[mid].name, t[k].name);
          }
        }
        return None;
      }
      if j > 0 {
        forall k | mid <= k < |t|
          ensures BuiltinCompare(t[k].name, name) > 0
        {
          if k > mid {
            CompareAntisymmetric(t[mid].name, name);
            CompareAntisymmetric(t[k].name, name);
            CompareTransitive(name, t[mid].name, t[k].name);
          }
        }
        hi := mid - 1;
      } else {
        forall k | 0 <= k <= mid
          ensures BuiltinCompare(t[k].name, name) < 0
        {
          if k < mid {
            CompareTransitive(t[k].name, t[mid].name, name);
          }
        }
        lo := mid + 1;
      }
    }
    forall k | 0 <= k < |t| && t[k].name == name
      ensures false
    {
      CompareZero(t[k].name, name);
    }
    return None;
  }

  // ---------------------------------------------------------------------
  // remember_args and shift_args

  /** The positional parameters: `dollar[i]` is `$(i+1)` for i in 0..8
      (null when unset), `rest` holds `${10}` on, and `count` is
      posparam_count. */
  datatype PosParams = PosParams(dollar: seq<Option<string>>, rest: seq<string>, count: int)

  function Min(a: int, b: int): int {
    if a < b then a else b
  }

  /** The shape every builtin keeps: the first `count` slots set (at most
      nine), the others null, and the rest list holding what is beyond. */
  predicate Consistent(p: PosParams) {
    && |p.dollar| == 9
    && p.count >= 0
    && (forall i :: 0 <= i < 9 ==> (p.dollar[i].Some? <==> i < p.count))
    && |p.rest| == (if p.count > 9 then p.count - 9 else 0)
  }

  /** The positional parameters as one list, `$1` first. */
  function Params(p: PosParams): (r: seq<string>)
    requires Consistent(p)
    ensures |r| == p.count
  {
    seq(Min(p.count, 9), i requires 0 <= i < Min(p.count, 9) => p.dollar[i].value) + p.rest
  }

  /** remember_args.  Slot i takes the i-th word when there is one; past the
      words it is cleared when `destructive`, else kept.  The rest list is
      replaced by the words after the ninth when `destructive` or when there
      are more than nine words, else kept.  The count is the number of
      words. */
  function RememberArgs(p: PosParams, words: seq<string>, destructive: bool): (r: PosParams)
    requires |p.dollar| == 9
    ensures |r.dollar| == 9 && r.count == |words|
    ensures forall i :: 0 <= i < 9 ==>
      r.dollar[i] == (if i < |words| then Some(words[i]) else if destructive then None else p.dollar[i])
    ensures destructive || |words| > 9 ==> r.rest == (if |words| > 9 then words[9..] else [])
    ensures !destructive && |words| <= 9 ==> r.rest == p.rest
  {
    var slots := seq(9, i requires 0 <= i < 9 =>
      if i < |words| then Some(words[i]) else if destructive then None else p.dollar[i]);
    var rest := if destructive || |words| > 9 then (if |words| > 9 then words[9..] else []) else p.rest;
    PosParams(slots, rest, |words|)
  }

  /** A destructive remember_args makes the parameters exactly the words. */
  lemma RememberDestructive(p: PosParams, words: seq<string>)
    requires |p.dollar| == 9
    ensures Consistent(RememberArgs(p, words, true))
    ensures Params(RememberArgs(p, words, true)) == words
  {
    var r := RememberArgs(p, words, true);
    var q := Params(r);
    forall i | 0 <= i < |words|
      ensures q[i] == words[i]
    {
      if i >= 9 {
        assert q[i] == r.rest[i - 9];
      }
    }
  }

  /** One pass of the shift loop: `$1` dropped, the slots moved down, `$9`
      filled from the rest list (or cleared), and the count decremented. */
  function ShiftOnce(p: PosParams): (r: PosParams)
    requires |p.dollar| == 9
    ensures |r.dollar| == 9 && r.count == p.count - 1
  {
    var next := if |p.rest| > 0 then Some(p.rest[0]) else None;
    PosParams(p.dollar[1..] + [next], if |p.rest| > 0 then p.rest[1..] else [], p.count - 1)
  }

  /** shift_args: `times` passes of the shift loop; nothing for times <= 0. */
  function ShiftArgs(p: PosParams, times: int): (r: PosParams)
    requires |p.dollar| == 9
    ensures |r.dollar| == 9
    ensures times <= 0 ==> r == p
    ensures times > 0 ==> r.count == p.count - times
    decreases times
  {
    if times <= 0 then p else ShiftArgs(ShiftOnce(p), times - 1)
  }

  lemma ShiftOnceParams(p: PosParams)
    requires Consistent(p) && p.count >= 1
    ensures Consistent(ShiftOnce(p))
    ensures Params(ShiftOnce(p)) == Params(p)[1..]
  {
    var r := ShiftOnce(p);
    var a, b := Params(p), Params(r);
    forall i | 0 <= i < |b|
      ensures b[i] == a[i + 1]
    {
      if i < 8 {
        assert b[i] == r.dollar[i].value == p.dollar[i + 1].value;
      } else if i == 8 {
        assert b[i] == r.dollar[8].value == p.rest[0];
      } else {
        assert b[i] == r.rest[i - 9] == p.rest[i - 8];
      }
    }
  }

  /** Shifting by n, for 0 < n <= count, drops the first n parameters. */
  lemma {:induction false} ShiftDrops(p: PosParams, n: int)
    requires Consistent(p) && 0 < n <= p.count
    ensures Consistent(ShiftArgs(p, n))
    ensures Params(ShiftArgs(p, n)) == Params(p)[n..]
    decreases n
  {
    ShiftOnceParams(p);
    if n > 1 {
      ShiftDrops(ShiftOnce(p), n - 1);
      assert Params(p)[1..][n - 1..] == Params(p)[n..];
    }
  }

  // ---------------------------------------------------------------------
  // kill -l with a number

  /** The numeric branch of display_signal_list: a number above 128 is an
      exit status of a signalled process and loses 128; the result is a
      signal only if it lies in 0..NSIG-1. */
  function SignalOfNumber(n: int, nsig: nat): (r: Option<nat>)
    ensures r.Some? ==> r.value < nsig
    ensures r.Some? ==> r.value == (if n > 128 then n - 128 else n)
    ensures r.Some? <==> (if n > 128 then 0 <= n - 128 < nsig else 0 <= n < nsig)
  {
    var s := if n > 128 then n - 128 else n;
    if s < 0 || s >= nsig then None else Some(s)
  }

  /** The exit status 128 + s of a process killed by signal s names s
      again, as long as NSIG does not exceed 129. */
  lemma ExitStatusNamesSignal(s: nat, nsig: nat)
    requires 1 <= s < nsig <= 129
    ensures SignalOfNumber(128 + s, nsig) == Some(s)
    ensures SignalOfNumber(s, nsig) == Some(s)
  {
  }
}

=== FILE: hashlib.dfy ===
/** The shell's string-keyed hash tables: 32-bit FNV-1 hashing, chained
    buckets selected by masking the hash with `nbuckets - 1`, growth by
    rehashing into four times as many buckets, and search, insert, remove,
    flush and copy.  A table is a sequence of buckets, each a chain in list
    order; the multisets `Bag` and `TableKeys` are the ghost view of what the
    table holds. */
module HashLib {
  import opened Base

  /** A key is the byte string up to (not including) its terminating NUL. */
  type Key = seq<Byte>

  /** The value of a 32-bit `unsigned int`. */
  type Word = x: nat | x < 0x1_0000_0000

  const FNV_OFFSET: Word := 2166136261

  /** Bucket count used when a table is created with 0 buckets (bash's value;
      hashlib.h is not part of this model). */
  const DEFAULT_HASH_BUCKETS: nat := 128
  const HASH_REHASH_MULTIPLIER: nat := 4
  const HASH_REHASH_FACTOR: nat := 2

  // ---------------------------------------------------------------------
  // hash_string

  /** The loop body's multiplication as the source writes it,
      `i += (i<<1) + (i<<4) + (i<<7) + (i<<8) + (i<<24)` on an `unsigned int`:
      each shift by k is a product with 2^k reduced modulo 2^32, and so is
      the sum. */
  function ShiftAddStep(i: Word): Word {
    (i + (i * 2) % 0x1_0000_0000 + (i * 16) % 0x1_0000_0000 + (i * 128) % 0x1_0000_0000
      + (i * 256) % 0x1_0000_0000 + (i * 0x100_0000) % 0x1_0000_0000) % 0x1_0000_0000
  }

  /** `i ^= *s` with a plain `char`, which is signed on the modelled host:
      a byte of 0x80 or more is sign-extended before the XOR. */
  function CharWord(b: Byte): (r: Word)
    ensures b < 128 ==> r == b
    ensures b >= 128 ==> r % 256 == b && r >= 0xFFFF_FF00
  {
    if b < 128 then b else 0xFFFF_FF00 + b
  }

  function XorWord(a: Word, b: Word): (r: Word)
    ensures r == BitXor(a, b)
  {
    Pow2Word();
    BitXorBelow(a, b, 32);
    BitXor(a, b)
  }

  /** One byte of hash_string: multiply (as shifts and adds), then XOR the
      promoted character. */
  function Mix(h: Word, b: Byte): Word {
    XorWord(ShiftAddStep(h), CharWord(b))
  }

  function HashFrom(h: Word, s: Key): Word
    decreases |s|
  {
    if |s| == 0 then h else HashFrom(Mix(h, s[0]), s[1..])
  }

  /** hash_string. */
  function HashString(s: Key): Word {
    HashFrom(FNV_OFFSET, s)
  }

  /** Reference definition of 32-bit FNV-1: starting from the offset basis,
      per octet multiply by the prime 16777619 modulo 2^32, then XOR the
      octet. */
  function Fnv1(s: Key): Word
    decreases |s|
  {
    if |s| == 0 then FNV_OFFSET else FnvStep(Fnv1(s[..|s| - 1]), s[|s| - 1])
  }

  function FnvStep(h: Word, b: Byte): Word {
    XorWord((h * 16777619) % 0x1_0000_0000, b)
  }

  /** Adding a multiple of the modulus does not change a remainder. */
  lemma ModAddMultiple(a: int, k: int)
    ensures (a + 0x1_0000_0000 * k) % 0x1_0000_0000 == a % 0x1_0000_0000
  {
    var m := 0x1_0000_0000;
    assert a == m * (a / m) + a % m;
    DivModUnique(a + m * k, m, a / m + k, a % m);
  }

  /** The shift-add form is multiplication by the FNV prime
      16777619 = 2^24 + 2^8 + 2^7 + 2^4 + 2 + 1, modulo 2^32. */
  lemma ShiftAddIsPrimeMul(i: Word)
    ensures ShiftAddStep(i) == (i * 16777619) % 0x1_0000_0000
  {
    var m := 0x1_0000_0000;
    var q1, q4, q7, q8, q24 := (i * 2) / m, (i * 16) / m, (i * 128) / m, (i * 256) / m, (i * 0x100_0000) / m;
    assert (i * 2) % m == i * 2 - m * q1;
    assert (i * 16) % m == i * 16 - m * q4;
    assert (i * 128) % m == i * 128 - m * q7;
    assert (i * 256) % m == i * 256 - m * q8;
    assert (i * 0x100_0000) % m == i * 0x100_0000 - m * q24;
    ModAddMultiple(i * 16777619, -(q1 + q4 + q7 + q8 + q24));
  }

  /** On a byte below 0x80 one step of hash_string is one step of FNV-1. */
  lemma MixIsFnvStep(h: Word, b: Byte)
    requires b < 128
    ensures Mix(h, b) == FnvStep(h, b)
  {
    ShiftAddIsPrimeMul(h);
  }

  lemma {:induction false} HashFromSnoc(h: Word, s: Key, b: Byte)
    ensures HashFrom(h, s + [b]) == Mix(HashFrom(h, s), b)
    decreases |s|
  {
    if |s| != 0 {
      assert (s + [b])[1..] == s[1..] + [b];
      HashFromSnoc(Mix(h, s[0]), s[1..], b);
    }
  }

  /** A key whose bytes are all below 0x80, where a signed `char` and an
      `unsigned char` agree. */
  predicate SevenBit(s: Key) {
    forall k :: 0 <= k < |s| ==> s[k] < 128
  }

  /** On seven-bit keys hash_string computes 32-bit FNV-1. */
  lemma {:induction false} HashStringIsFnv1(s: Key)
    requires SevenBit(s)
    ensures HashString(s) == Fnv1(s)
    decreases |s|
  {
    if |s| != 0 {
      var init := s[..|s| - 1];
      assert s == init + [s[|s| - 1]];
      HashStringIsFnv1(init);
      HashFromSnoc(FNV_OFFSET, init, s[|s| - 1]);
      MixIsFnvStep(HashFrom(FNV_OFFSET, init), s[|s| - 1]);
    }
  }

  /** A byte of 0x80 or more is XORed in sign-extended, so it flips the high
      24 bits that FNV-1 leaves alone: the last step differs from FNV-1's. */
  lemma HighByteDiffers(h: Word, b: Byte)
    requires b >= 128
    ensures Mix(h, b) != FnvStep(h, b)
  {
    ShiftAddIsPrimeMul(h);
    var x := (h * 16777619) % 0x1_0000_0000;
    if BitXor(x, CharWord(b)) == BitXor(x, b) {
      BitXorInjective(x, CharWord(b), b);
    }
  }

  // ---------------------------------------------------------------------
  // Tables

  datatype Entry<V> = Entry(key: Key, data: Option<V>, khash: Word, timesFound: nat)

  datatype Table<V> = Table(buckets: seq<seq<Entry<V>>>, nentries: int)

  /** HASH_BUCKET: the hash masked with `nbuckets - 1`. */
  function BucketIndex(h: nat, nbuckets: nat): (r: nat)
    requires nbuckets >= 1
    ensures r < nbuckets
  {
    BitAndBound(h, nbuckets - 1);
    BitAnd(h, nbuckets - 1)
  }

  /** With a power-of-two bucket count the mask is reduction modulo the count. */
  lemma BucketIndexPowerOfTwo(h: nat, k: nat)
    ensures BucketIndex(h, Pow2(k)) == h % Pow2(k)
  {
    BitAndLowMask(h, k);
  }

  function Count<V>(b: seq<seq<Entry<V>>>): nat
    decreases |b|
  {
    if |b| == 0 then 0 else |b[0]| + Count(b[1..])
  }

  /** The multiset of entries held by the buckets. */
  ghost function Bag<V>(b: seq<seq<Entry<V>>>): multiset<Entry<V>>
    decreases |b|
  {
    if |b| == 0 then multiset{} else multiset(b[0]) + Bag(b[1..])
  }

  ghost function KeyBag<V>(s: seq<Entry<V>>): multiset<Key>
    decreases |s|
  {
    if |s| == 0 then multiset{} else multiset{s[0].key} + KeyBag(s[1..])
  }

  /** The multiset of keys held by the buckets (a key occurs more than once
      only after insertions that skipped the search). */
  ghost function TableKeys<V>(b: seq<seq<Entry<V>>>): multiset<Key>
    decreases |b|
  {
    if |b| == 0 then multiset{} else KeyBag(b[0]) + TableKeys(b[1..])
  }

  /** Every entry caches the hash of its own key. */
  ghost predicate Hashed<V>(b: seq<seq<Entry<V>>>) {
    forall i, j :: 0 <= i < |b| && 0 <= j < |b[i]| ==> b[i][j].khash == HashString(b[i][j].key)
  }

  /** Every entry sits in the bucket its cached hash selects. */
  ghost predicate Placed<V>(b: seq<seq<Entry<V>>>)
    requires |b| >= 1
  {
    forall i, j :: 0 <= i < |b| && 0 <= j < |b[i]| ==> BucketIndex(b[i][j].khash, |b|) == i
  }

  /** The table invariant: a positive `int` bucket count, `nentries` equal to
      the number of chained entries, and every entry hashed and placed. */
  ghost predicate Valid<V>(t: Table<V>) {
    && 1 <= |t.buckets| < 0x8000_0000
    && t.nentries == Count(t.buckets)
    && Hashed(t.buckets)
    && Placed(t.buckets)
  }

  predicate Matches<V>(e: Entry<V>, hv: Word, key: Key) {
    e.khash == hv && e.key == key
  }

  /** The position of the first entry of a chain, from `from` on, that
      matches the hash and the key. */
  function FindIn<V>(chain: seq<Entry<V>>, hv: Word, key: Key, from: nat): (r: Option<nat>)
    requires from <= |chain|
    ensures r.Some? ==> from <= r.value < |chain| && Matches(chain[r.value], hv, key)
    ensures r.Some? ==> forall j :: from <= j < r.value ==> !Matches(chain[j], hv, key)
    ensures r.None? ==> forall j :: from <= j < |chain| ==> !Matches(chain[j], hv, key)
    decreases |chain| - from
  {
    if from == |chain| then None
    else if Matches(chain[from], hv, key) then Some(from)
    else FindIn(chain, hv, key, from + 1)
  }

  function Home<V>(t: Table<V>, key: Key): (r: nat)
    requires |t.buckets| >= 1
    ensures r < |t.buckets|
  {
    BucketIndex(HashString(key), |t.buckets|)
  }

  /** The entry a search for `key` stops at: the first one in the key's
      bucket whose cached hash and key both match. */
  function Lookup<V>(t: Table<V>, key: Key): Option<Entry<V>>
    requires |t.buckets| >= 1
  {
    var chain := t.buckets[Home(t, key)];
    match FindIn(chain, HashString(key), key, 0)
    case Some(j) => Some(chain[j])
    case None => None
  }

  // ---------------------------------------------------------------------
  // Bag lemmas

  lemma {:induction false} KeyBagMember<V>(s: seq<Entry<V>>, j: nat)
    requires j < |s|
    ensures s[j].key in KeyBag(s)
    decreases |s|
  {
    if j > 0 {
      KeyBagMember(s[1..], j - 1);
    }
  }

  lemma {:induction false} KeyBagWitness<V>(s: seq<Entry<V>>, k: Key)
    requires k in KeyBag(s)
    ensures exists j :: 0 <= j < |s| && s[j].key == k
    decreases |s|
  {
    if s[0].key != k {
      KeyBagWitness(s[1..], k);
      var j :| 0 <= j < |s[1..]| && s[1..][j].key == k;
      assert s[j + 1].key == k;
    }
  }

  lemma {:induction false} KeyBagConcat<V>(a: seq<Entry<V>>, c: seq<Entry<V>>)
    ensures KeyBag(a + c) == KeyBag(a) + KeyBag(c)
    decreases |a|
  {
    if |a| != 0 {
      assert (a + c)[0] == a[0];
      assert (a + c)[1..] == a[1..] + c;
      KeyBagConcat(a[1..], c);
    } else {
      assert a + c == c;
    }
  }

  lemma {:induction false} TableKeysMember<V>(b: seq<seq<Entry<V>>>, i: nat, j: nat)
    requires i < |b| && j < |b[i]|
    ensures b[i][j].key in TableKeys(b)
    decreases |b|
  {
    if i == 0 {
      KeyBagMember(b[0], j);
    } else {
      TableKeysMember(b[1..], i - 1, j);
    }
  }

  lemma {:induction false} TableKeysWitness<V>(b: seq<seq<Entry<V>>>, k: Key)
    requires k in TableKeys(b)
    ensures exists i, j :: 0 <= i < |b| && 0 <= j < |b[i]| && b[i][j].key == k
    decreases |b|
  {
    if k in KeyBag(b[0]) {
      KeyBagWitness(b[0], k);
      var j :| 0 <= j < |b[0]| && b[0][j].key == k;
      assert b[0][j].key == k;
    } else {
      TableKeysWitness(b[1..], k);
      var i, j :| 0 <= i < |b[1..]| && 0 <= j < |b[1..][i]| && b[1..][i][j].key == k;
      assert b[i + 1][j].key == k;
    }
  }

  /** Replacing chain `i` by `x` swaps the chain's share of every view. */
  lemma BagUpdate<V>(b: seq<seq<Entry<V>>>, i: nat, x: seq<Entry<V>>)
    requires i < |b|
    ensures multiset(b[i]) <= Bag(b) && KeyBag(b[i]) <= TableKeys(b) && |b[i]| <= Count(b)
    ensures Bag(b[i := x]) == Bag(b) - multiset(b[i]) + multiset(x)
    ensures TableKeys(b[i := x]) == TableKeys(b) - KeyBag(b[i]) + KeyBag(x)
    ensures Count(b[i := x]) == Count(b) - |b[i]| + |x|
  {
    EntryBagUpdate(b, i, x);
    KeyViewUpdate(b, i, x);
    CountUpdate(b, i, x);
  }

  /** Replacing a part `a` of `rest` by `x` commutes with adding `m0`. */
  lemma MultisetSwap<T>(m0: multiset<T>, rest: multiset<T>, a: multiset<T>, x: multiset<T>)
    requires a <= rest
    ensures a <= m0 + rest
    ensures m0 + (rest - a + x) == (m0 + rest) - a + x
  {
  }

  lemma {:induction false} EntryBagUpdate<V>(b: seq<seq<Entry<V>>>, i: nat, x: seq<Entry<V>>)
    requires i < |b|
    ensures multiset(b[i]) <= Bag(b)
    ensures Bag(b[i := x]) == Bag(b) - multiset(b[i]) + multiset(x)
    decreases |b|
  {
    var b': seq<seq<Entry<V>>> := b[i := x];
    if i == 0 {
      assert b'[1..] == b[1..];
    } else {
      assert b'[1..] == b[1..][i - 1 := x] && b[1..][i - 1] == b[i] && b'[0] == b[0];
      EntryBagUpdate(b[1..], i - 1, x);
      MultisetSwap(multiset(b[0]), Bag(b[1..]), multiset(b[i]), multiset(x));
    }
  }

  lemma {:induction false} KeyViewUpdate<V>(b: seq<seq<Entry<V>>>, i: nat, x: seq<Entry<V>>)
    requires i < |b|
    ensures KeyBag(b[i]) <= TableKeys(b)
    ensures TableKeys(b[i := x]) == TableKeys(b) - KeyBag(b[i]) + KeyBag(x)
    decreases |b|
  {
    var b': seq<seq<Entry<V>>> := b[i := x];
    if i == 0 {
      assert b'[1..] == b[1..];
    } else {
      assert b'[1..] == b[1..][i - 1 := x] && b[1..][i - 1] == b[i] && b'[0] == b[0];
      KeyViewUpdate(b[1..], i - 1, x);
      MultisetSwap(KeyBag(b[0]), TableKeys(b[1..]), KeyBag(b[i]), KeyBag(x));
    }
  }

  lemma {:induction false} CountUpdate<V>(b: seq<seq<Entry<V>>>, i: nat, x: seq<Entry<V>>)
    requires i < |b|
    ensures |b[i]| <= Count(b)
    ensures Count(b[i := x]) == Count(b) - |b[i]| + |x|
    decreases |b|
  {
    var b': seq<seq<Entry<V>>> := b[i := x];
    if i == 0 {
      assert b'[1..] == b[1..];
    } else {
      assert b'[1..] == b[1..][i - 1 := x];
      CountUpdate(b[1..], i - 1, x);
    }
  }

  lemma {:induction false} KeyBagRemove<V>(s: seq<Entry<V>>, j: nat)
    requires j < |s|
    ensures KeyBag(s[..j] + s[j + 1..]) == KeyBag(s) - multiset{s[j].key}
    decreases |s|
  {
    if j == 0 {
      assert s[..j] + s[j + 1..] == s[1..];
    } else {
      var t := s[1..];
      assert s[..j] + s[j + 1..] == [s[0]] + (t[..j - 1] + t[j..]);
      assert ([s[0]] + (t[..j - 1] + t[j..]))[1..] == t[..j - 1] + t[j..];
      KeyBagRemove(t, j - 1);
      KeyBagMember(t, j - 1);
      assert t[j - 1] == s[j];
      MultisetAddRemove(multiset{s[0].key}, KeyBag(t), s[j].key);
    }
  }

  lemma MultisetAddRemove<T>(a: multiset<T>, m: multiset<T>, k: T)
    requires k in m
    ensures a + (m - multiset{k}) == (a + m) - multiset{k}
  {
  }

  lemma KeyBagUpdate<V>(s: seq<Entry<V>>, j: nat, e: Entry<V>)
    requires j < |s| && e.key == s[j].key
    ensures KeyBag(s[j := e]) == KeyBag(s)
  {
    assert s == s[..j] + ([s[j]] + s[j + 1..]);
    assert s[j := e] == s[..j] + ([e] + s[j + 1..]);
    KeyBagConcat(s[..j], [s[j]] + s[j + 1..]);
    KeyBagConcat([s[j]], s[j + 1..]);
    KeyBagConcat(s[..j], [e] + s[j + 1..]);
    KeyBagConcat([e], s[j + 1..]);
    assert [s[j]][1..] == [] && [e][1..] == [];
  }

  lemma {:induction false} EmptyBuckets<V>(b: seq<seq<Entry<V>>>)
    requires Count(b) == 0
    ensures forall i :: 0 <= i < |b| ==> b[i] == []
    ensures TableKeys(b) == multiset{}
    decreases |b|
  {
    if |b| != 0 {
      EmptyBuckets(b[1..]);
      assert forall i :: 1 <= i < |b| ==> b[i] == b[1..][i - 1];
    }
  }

  /** A search finds an entry for exactly the keys the table holds, and what
      it finds carries that key. */
  lemma LookupComplete<V>(t: Table<V>, key: Key)
    requires Valid(t)
    ensures Lookup(t, key).Some? <==> key in TableKeys(t.buckets)
    ensures Lookup(t, key).Some? ==> Lookup(t, key).value.key == key
  {
    var b := t.buckets;
    var h := Home(t, key);
    var pos := FindIn(b[h], HashString(key), key, 0);
    if pos.Some? {
      TableKeysMember(b, h, pos.value);
    }
    if key in TableKeys(b) {
      TableKeysWitness(b, key);
      var i, j :| 0 <= i < |b| && 0 <= j < |b[i]| && b[i][j].key == key;
      assert i == h;
      assert Matches(b[h][j], HashString(key), key);
    }
  }

  // ---------------------------------------------------------------------
  // hash_create

  /** hash_create: `buckets` empty chains, or DEFAULT_HASH_BUCKETS of them
      when 0 is asked for. */
  function Create<V>(buckets: nat): (t: Table<V>)
    requires buckets < 0x8000_0000
    ensures Valid(t) && t.nentries == 0 && TableKeys(t.buckets) == multiset{}
    ensures buckets != 0 ==> |t.buckets| == buckets
    ensures buckets == 0 ==> |t.buckets| == DEFAULT_HASH_BUCKETS
    ensures forall i :: 0 <= i < |t.buckets| ==> t.buckets[i] == []
  {
    var n := if buckets == 0 then DEFAULT_HASH_BUCKETS else buckets;
    var b := seq<seq<Entry<V>>>(n, _ => []);
    EmptyCount(b);
    Table(b, 0)
  }

  lemma {:induction false} EmptyCount<V>(b: seq<seq<Entry<V>>>)
    requires forall i :: 0 <= i < |b| ==> b[i] == []
    ensures Count(b) == 0 && TableKeys(b) == multiset{} && Bag(b) == multiset{}
    decreases |b|
  {
    if |b| != 0 {
      EmptyCount(b[1..]);
    }
  }

  // ---------------------------------------------------------------------
  // Replacing one chain

  /** Every entry of chain `x` is hashed and belongs in bucket `i` of `n`. */
  ghost predicate ChainFits<V>(x: seq<Entry<V>>, i: nat, n: nat)
    requires n >= 1
  {
    forall c :: 0 <= c < |x| ==> x[c].khash == HashString(x[c].key) && BucketIndex(x[c].khash, n) == i
  }

  lemma ChainFitsOf<V>(b: seq<seq<Entry<V>>>, i: nat)
    requires |b| >= 1 && Hashed(b) && Placed(b) && i < |b|
    ensures ChainFits(b[i], i, |b|)
  {
  }

  lemma ReplaceChain<V>(b: seq<seq<Entry<V>>>, i: nat, x: seq<Entry<V>>)
    requires |b| >= 1 && Hashed(b) && Placed(b) && i < |b| && ChainFits(x, i, |b|)
    ensures Hashed(b[i := x]) && Placed(b[i := x])
  {
    var b': seq<seq<Entry<V>>> := b[i := x];
    forall a, c | 0 <= a < |b'| && 0 <= c < |b'[a]|
      ensures b'[a][c].khash == HashString(b'[a][c].key) && BucketIndex(b'[a][c].khash, |b'|) == a
    {
      if a != i {
        assert b'[a][c] == b[a][c];
      }
    }
  }

  /** Pushing a hashed entry onto the head of its own chain keeps the chain fitting. */
  lemma PushFits<V>(x: seq<Entry<V>>, e: Entry<V>, i: nat, n: nat)
    requires n >= 1 && ChainFits(x, i, n)
    requires e.khash == HashString(e.key) && BucketIndex(e.khash, n) == i
    ensures ChainFits([e] + x, i, n)
  {
    assert ([e] + x)[1..] == x;
    forall c | 0 <= c < |[e] + x|
      ensures ([e] + x)[c].khash == HashString(([e] + x)[c].key) && BucketIndex(([e] + x)[c].khash, n) == i
    {
      if c > 0 {
        assert ([e] + x)[c] == x[c - 1];
      }
    }
  }

  // ---------------------------------------------------------------------
  // hash_rehash / hash_grow

  /** The entries of the buckets in the order the rehash loop visits them:
      bucket 0 first, each chain from its head. */
  function Flatten<V>(b: seq<seq<Entry<V>>>): seq<Entry<V>>
    decreases |b|
  {
    if |b| == 0 then [] else b[0] + Flatten(b[1..])
  }

  lemma {:induction false} FlattenFacts<V>(b: seq<seq<Entry<V>>>)
    ensures |Flatten(b)| == Count(b)
    ensures multiset(Flatten(b)) == Bag(b)
    ensures KeyBag(Flatten(b)) == TableKeys(b)
    decreases |b|
  {
    if |b| != 0 {
      FlattenFacts(b[1..]);
      KeyBagConcat(b[0], Flatten(b[1..]));
    }
  }

  lemma {:induction false} FlattenHashed<V>(b: seq<seq<Entry<V>>>)
    requires Hashed(b)
    ensures forall k :: 0 <= k < |Flatten(b)| ==> Flatten(b)[k].khash == HashString(Flatten(b)[k].key)
    decreases |b|
  {
    if |b| != 0 {
      assert Hashed(b[1..]) by {
        forall i, j | 0 <= i < |b[1..]| && 0 <= j < |b[1..][i]|
          ensures b[1..][i][j].khash == HashString(b[1..][i][j].key)
        {
          assert b[1..][i] == b[i + 1];
        }
      }
      FlattenHashed(b[1..]);
      forall k | 0 <= k < |Flatten(b)|
        ensures Flatten(b)[k].khash == HashString(Flatten(b)[k].key)
      {
        if k >= |b[0]| {
          assert Flatten(b)[k] == Flatten(b[1..])[k - |b[0]|];
        }
      }
    }
  }

  /** The inner loop of hash_rehash: each item, in order, is pushed onto the
      head of the chain its cached hash selects in the new array. */
  function Distribute<V>(nb: seq<seq<Entry<V>>>, items: seq<Entry<V>>): (r: seq<seq<Entry<V>>>)
    requires |nb| >= 1
    ensures |r| == |nb|
    decreases |items|
  {
    if |items| == 0 then nb
    else
      var i := BucketIndex(items[0].khash, |nb|);
      Distribute(nb[i := [items[0]] + nb[i]], items[1..])
  }

  lemma {:induction false} DistributePlaces<V>(nb: seq<seq<Entry<V>>>, items: seq<Entry<V>>)
    requires |nb| >= 1 && Hashed(nb) && Placed(nb)
    requires forall k :: 0 <= k < |items| ==> items[k].khash == HashString(items[k].key)
    ensures Hashed(Distribute(nb, items)) && Placed(Distribute(nb, items))
    decreases |items|
  {
    if |items| != 0 {
      var e := items[0];
      var i := BucketIndex(e.khash, |nb|);
      ChainFitsOf(nb, i);
      PushFits(nb[i], e, i, |nb|);
      ReplaceChain(nb, i, [e] + nb[i]);
      DistributePlaces(nb[i := [e] + nb[i]], items[1..]);
    }
  }

  lemma DistributeCounts<V>(nb: seq<seq<Entry<V>>>, items: seq<Entry<V>>)
    requires |nb| >= 1
    ensures Bag(Distribute(nb, items)) == Bag(nb) + multiset(items)
    ensures TableKeys(Distribute(nb, items)) == TableKeys(nb) + KeyBag(items)
    ensures Count(Distribute(nb, items)) == Count(nb) + |items|
  {
    DistributeBag(nb, items);
    DistributeKeys(nb, items);
    DistributeCount(nb, items);
  }

  lemma MultisetAssoc<T>(a: multiset<T>, b: multiset<T>, c: multiset<T>, d: multiset<T>)
    requires d == b + c
    ensures (a + b) + c == a + d
  {
  }

  lemma {:induction false} DistributeBag<V>(nb: seq<seq<Entry<V>>>, items: seq<Entry<V>>)
    requires |nb| >= 1
    ensures Bag(Distribute(nb, items)) == Bag(nb) + multiset(items)
    decreases |items|
  {
    if |items| != 0 {
      var e, tail := items[0], items[1..];
      var i := BucketIndex(e.khash, |nb|);
      var nb' := nb[i := [e] + nb[i]];
      var r := Distribute(nb', tail);
      assert Distribute(nb, items) == r;
      PushBag(nb, i, e);
      DistributeBag(nb', tail);
      assert multiset(items) == multiset{e} + multiset(tail) by {
        assert items == [e] + tail;
      }
      MultisetAssoc(Bag(nb), multiset{e}, multiset(tail), multiset(items));
    }
  }

  lemma {:induction false} DistributeKeys<V>(nb: seq<seq<Entry<V>>>, items: seq<Entry<V>>)
    requires |nb| >= 1
    ensures TableKeys(Distribute(nb, items)) == TableKeys(nb) + KeyBag(items)
    decreases |items|
  {
    if |items| != 0 {
      var e := items[0];
      var nb' := nb[BucketIndex(e.khash, |nb|) := [e] + nb[BucketIndex(e.khash, |nb|)]];
      assert Distribute(nb, items) == Distribute(nb', items[1..]);
      PushKeys(nb, BucketIndex(e.khash, |nb|), e);
      DistributeKeys(nb', items[1..]);
      assert KeyBag(items) == multiset{e.key} + KeyBag(items[1..]);
      MultisetAssoc(TableKeys(nb), multiset{e.key}, KeyBag(items[1..]), KeyBag(items));
    }
  }

  lemma {:induction false} DistributeCount<V>(nb: seq<seq<Entry<V>>>, items: seq<Entry<V>>)
    requires |nb| >= 1
    ensures Count(Distribute(nb, items)) == Count(nb) + |items|
    decreases |items|
  {
    if |items| != 0 {
      var e := items[0];
      var i := BucketIndex(e.khash, |nb|);
      assert Distribute(nb, items) == Distribute(nb[i := [e] + nb[i]], items[1..]);
      CountUpdate(nb, i, [e] + nb[i]);
      DistributeCount(nb[i := [e] + nb[i]], items[1..]);
    }
  }

  /** Pushing one entry onto chain `i` adds it to every view. */
  lemma PushCounts<V>(nb: seq<seq<Entry<V>>>, i: nat, e: Entry<V>)
    requires i < |nb|
    ensures Bag(nb[i := [e] + nb[i]]) == Bag(nb) + multiset{e}
    ensures TableKeys(nb[i := [e] + nb[i]]) == TableKeys(nb) + multiset{e.key}
    ensures Count(nb[i := [e] + nb[i]]) == Count(nb) + 1
  {
    PushBag(nb, i, e);
    PushKeys(nb, i, e);
    CountUpdate(nb, i, [e] + nb[i]);
  }

  lemma PushBag<V>(nb: seq<seq<Entry<V>>>, i: nat, e: Entry<V>)
    requires i < |nb|
    ensures Bag(nb[i := [e] + nb[i]]) == Bag(nb) + multiset{e}
  {
    var x := [e] + nb[i];
    EntryBagUpdate(nb, i, x);
    var mb, mt := multiset(nb[i]), Bag(nb);
    assert multiset(x) == multiset{e} + mb;
    assert mt - mb + (multiset{e} + mb) == mt + multiset{e};
  }

  lemma PushKeys<V>(nb: seq<seq<Entry<V>>>, i: nat, e: Entry<V>)
    requires i < |nb|
    ensures TableKeys(nb[i := [e] + nb[i]]) == TableKeys(nb) + multiset{e.key}
  {
    var x := [e] + nb[i];
    assert x[1..] == nb[i];
    KeyViewUpdate(nb, i, x);
    var kb, kt := KeyBag(nb[i]), TableKeys(nb);
    assert KeyBag(x) == multiset{e.key} + kb;
    assert kt - kb + (multiset{e.key} + kb) == kt + multiset{e.key};
  }

  /** hash_rehash: every entry moves, in visiting order, to the head of
      chain `khash & (nsize - 1)` of a new array of `nsize` chains. */
  function Rehash<V>(t: Table<V>, nsize: nat): (r: Table<V>)
    requires Valid(t) && 1 <= nsize < 0x8000_0000
    ensures Valid(r) && |r.buckets| == nsize && r.nentries == t.nentries
    ensures Bag(r.buckets) == Bag(t.buckets) && TableKeys(r.buckets) == TableKeys(t.buckets)
  {
    if nsize == |t.buckets| then t
    else
      var empty := seq<seq<Entry<V>>>(nsize, _ => []);
      EmptyCount(empty);
      FlattenFacts(t.buckets);
      FlattenHashed(t.buckets);
      DistributePlaces(empty, Flatten(t.buckets));
      DistributeCounts(empty, Flatten(t.buckets));
      Table(Distribute(empty, Flatten(t.buckets)), t.nentries)
  }

  /** HASH_SHOULDGROW: at least two entries per bucket on average. */
  predicate ShouldGrow<V>(t: Table<V>) {
    t.nentries >= WrapInt32(|t.buckets| * HASH_REHASH_FACTOR)
  }

  /** hash_grow as written: the new size is the `int` product of the bucket
      count and four, and the table is rehashed whenever that product is
      positive.  Between 2^30 and 3 * 2^29 buckets the product wraps to a
      small positive size and the table shrinks. */
  function GrowAsWritten<V>(t: Table<V>): (r: Table<V>)
    requires Valid(t)
    ensures Valid(r) && r.nentries == t.nentries
    ensures Bag(r.buckets) == Bag(t.buckets) && TableKeys(r.buckets) == TableKeys(t.buckets)
    ensures |t.buckets| < 0x2000_0000 ==> |r.buckets| == 4 * |t.buckets|
    ensures 0x2000_0000 <= |t.buckets| <= 0x4000_0000 ==> r == t
    ensures 0x4000_0000 < |t.buckets| < 0x6000_0000 ==> |r.buckets| == 4 * |t.buckets| - 0x1_0000_0000
    ensures 0x6000_0000 <= |t.buckets| ==> r == t
  {
    var n := |t.buckets|;
    var nsize := WrapInt32(n * HASH_REHASH_MULTIPLIER);
    GrowSize(n);
    if nsize > 0 then Rehash(t, nsize) else t
  }

  /** The `int` product hash_grow computes, by range of the old size (which
      is below 2^31, so the true product is below 2^33). */
  lemma GrowSize(n: nat)
    requires 1 <= n < 0x8000_0000
    ensures n < 0x2000_0000 ==> WrapInt32(n * HASH_REHASH_MULTIPLIER) == 4 * n
    ensures 0x2000_0000 <= n <= 0x4000_0000 ==> WrapInt32(n * HASH_REHASH_MULTIPLIER) <= 0
    ensures 0x4000_0000 < n < 0x6000_0000 ==> WrapInt32(n * HASH_REHASH_MULTIPLIER) == 4 * n - 0x1_0000_0000
    ensures 0x6000_0000 <= n ==> WrapInt32(n * HASH_REHASH_MULTIPLIER) <= 0
  {
    var m := n * 4;
    if 0x2000_0000 <= n < 0x4000_0000 {
      DivModUnique(m, 0x1_0000_0000, 0, m);
    } else if 0x4000_0000 <= n < 0x8000_0000 {
      DivModUnique(m, 0x1_0000_0000, 1, m - 0x1_0000_0000);
    }
  }

  /** The overflow test of hash_grow lets a wrapped size through: a table
      of 2^30 + 1 buckets is rehashed down to 4 buckets. */
  lemma GrowAsWrittenShrinks<V>(t: Table<V>)
    requires Valid(t) && |t.buckets| == 0x4000_0001
    ensures |GrowAsWritten(t).buckets| == 4
  {
  }

  /** hash_grow as intended: four times the buckets when that still fits in
      an `int`, otherwise the table is left as it is; it never shrinks. */
  function Grow<V>(t: Table<V>): (r: Table<V>)
    requires Valid(t)
    ensures Valid(r) && r.nentries == t.nentries
    ensures Bag(r.buckets) == Bag(t.buckets) && TableKeys(r.buckets) == TableKeys(t.buckets)
    ensures |r.buckets| >= |t.buckets|
    ensures |t.buckets| < 0x2000_0000 ==> |r.buckets| == 4 * |t.buckets|
    ensures 0x2000_0000 <= |t.buckets| ==> r == t
  {
    var n := |t.buckets|;
    if n <= 0x7fff_ffff / HASH_REHASH_MULTIPLIER then Rehash(t, n * HASH_REHASH_MULTIPLIER) else t
  }

  // ---------------------------------------------------------------------
  // hash_search, hash_insert, hash_remove

  datatype Reply<V> = Reply(table: Table<V>, item: Option<Entry<V>>)

  /** A new entry for `key`: no data, never found, hash cached. */
  function NewEntry<V>(key: Key): Entry<V> {
    Entry(key, None, HashString(key), 0)
  }

  /** The creating tail of hash_search and hash_insert: grow if due, then push
      a new entry onto the head of the key's chain. */
  function AddNew<V>(t: Table<V>, key: Key): (r: Reply<V>)
    requires Valid(t)
    ensures Valid(r.table) && r.item == Some(NewEntry(key))
    ensures r.table.nentries == t.nentries + 1
    ensures TableKeys(r.table.buckets) == TableKeys(t.buckets) + multiset{key}
    ensures Bag(r.table.buckets) == Bag(t.buckets) + multiset{NewEntry(key)}
    ensures ShouldGrow(t) && |t.buckets| < 0x2000_0000 ==> |r.table.buckets| == 4 * |t.buckets|
    ensures !(ShouldGrow(t) && |t.buckets| < 0x2000_0000) ==> |r.table.buckets| == |t.buckets|
    ensures Lookup(r.table, key) == r.item
  {
    var g := if ShouldGrow(t) then Grow(t) else t;
    var i := Home(g, key);
    var e: Entry<V> := NewEntry(key);
    var x := [e] + g.buckets[i];
    ChainFitsOf(g.buckets, i);
    PushFits(g.buckets[i], e, i, |g.buckets|);
    ReplaceChain(g.buckets, i, x);
    PushCounts(g.buckets, i, e);
    var t' := Table(g.buckets[i := x], g.nentries + 1);
    assert FindIn(x, HashString(key), key, 0) == Some(0);
    Reply(t', Some(e))
  }

  /** Bumps `times_found` of the entry at position `j` of chain `i`. */
  function Touch<V>(t: Table<V>, i: nat, j: nat): (r: Reply<V>)
    requires i < |t.buckets| && j < |t.buckets[i]|
    ensures var e := t.buckets[i][j];
      && r.item == Some(e.(timesFound := e.timesFound + 1))
      && r.table == Table(t.buckets[i := t.buckets[i][j := r.item.value]], t.nentries)
  {
    var e := t.buckets[i][j];
    var e' := e.(timesFound := e.timesFound + 1);
    Reply(Table(t.buckets[i := t.buckets[i][j := e']], t.nentries), Some(e'))
  }

  /** Overwriting one entry with another of the same key and hash keeps the
      table valid and its keys, and swaps the one entry in its bag. */
  lemma TouchKeeps<V>(t: Table<V>, i: nat, j: nat, e: Entry<V>)
    requires Valid(t) && i < |t.buckets| && j < |t.buckets[i]|
    requires e.key == t.buckets[i][j].key && e.khash == t.buckets[i][j].khash
    ensures var b := t.buckets[i := t.buckets[i][j := e]];
      && Valid(Table(b, t.nentries)) && TableKeys(b) == TableKeys(t.buckets)
      && Bag(b) == Bag(t.buckets) - multiset{t.buckets[i][j]} + multiset{e}
  {
    SetKeeps(t, i, j, e);
    SetBag(t.buckets, i, j, e);
  }

  /** Overwriting one entry with another of the same key and hash keeps the
      table valid and its keys unchanged. */
  lemma SetKeeps<V>(t: Table<V>, i: nat, j: nat, e: Entry<V>)
    requires Valid(t) && i < |t.buckets| && j < |t.buckets[i]|
    requires e.key == t.buckets[i][j].key && e.khash == t.buckets[i][j].khash
    ensures Valid(Table(t.buckets[i := t.buckets[i][j := e]], t.nentries))
    ensures TableKeys(t.buckets[i := t.buckets[i][j := e]]) == TableKeys(t.buckets)
  {
    var x := t.buckets[i][j := e];
    ChainFitsOf(t.buckets, i);
    SetFits(t.buckets[i], j, e, i, |t.buckets|);
    ReplaceChain(t.buckets, i, x);
    CountUpdate(t.buckets, i, x);
    SetKeys(t.buckets, i, j, e);
  }

  lemma SetKeys<V>(b: seq<seq<Entry<V>>>, i: nat, j: nat, e: Entry<V>)
    requires i < |b| && j < |b[i]| && e.key == b[i][j].key
    ensures TableKeys(b[i := b[i][j := e]]) == TableKeys(b)
  {
    KeyViewUpdate(b, i, b[i][j := e]);
    KeyBagUpdate(b[i], j, e);
    var kb, kt := KeyBag(b[i]), TableKeys(b);
    assert kt - kb + kb == kt;
  }

  /** Overwriting one entry swaps it for the new one among the entries. */
  lemma SetBag<V>(b: seq<seq<Entry<V>>>, i: nat, j: nat, e: Entry<V>)
    requires i < |b| && j < |b[i]|
    ensures Bag(b[i := b[i][j := e]]) == Bag(b) - multiset{b[i][j]} + multiset{e}
  {
    var c := b[i];
    EntryBagUpdate(b, i, c[j := e]);
    ChainSet(c, j, e);
    MultisetReplace(Bag(b), multiset(c[..j]) + multiset(c[j + 1..]), c[j], e);
  }

  /** A sequence's elements around position `j`, before and after
      overwriting it. */
  lemma ChainSet<T>(c: seq<T>, j: nat, e: T)
    requires j < |c|
    ensures multiset(c) == multiset(c[..j]) + multiset(c[j + 1..]) + multiset{c[j]}
    ensures multiset(c[j := e]) == multiset(c[..j]) + multiset(c[j + 1..]) + multiset{e}
  {
    assert c == c[..j] + [c[j]] + c[j + 1..];
    assert c[j := e] == c[..j] + [e] + c[j + 1..];
  }

  lemma ChainCut<T>(c: seq<T>, j: nat)
    requires j < |c|
    ensures c[j] in multiset(c)
    ensures multiset(c[..j] + c[j + 1..]) == multiset(c) - multiset{c[j]}
  {
    assert c == c[..j] + [c[j]] + c[j + 1..];
  }

  /** Replacing one element `a` of a part of a multiset by `e`. */
  lemma MultisetReplace<T>(whole: multiset<T>, others: multiset<T>, a: T, e: T)
    requires others + multiset{a} <= whole
    ensures whole - (others + multiset{a}) + (others + multiset{e}) == whole - multiset{a} + multiset{e}
  {
  }

  /** Overwriting an entry of a chain with one of the same key and hash
      keeps the chain fitting and the entries before it unchanged. */
  lemma SetFits<V>(x: seq<Entry<V>>, j: nat, e: Entry<V>, i: nat, n: nat)
    requires n >= 1 && j < |x| && ChainFits(x, i, n)
    requires e.key == x[j].key && e.khash == x[j].khash
    ensures ChainFits(x[j := e], i, n)
    ensures x[j := e][..j] == x[..j]
  {
    var y := x[j := e];
    forall c | 0 <= c < |y|
      ensures y[c].khash == HashString(y[c].key) && BucketIndex(y[c].khash, n) == i
    {
      if c != j {
        assert y[c] == x[c];
      }
    }
  }

  /** hash_search.  Without `create`, an empty table or a miss gives no item
      and the table unchanged; a hit bumps the found entry's `times_found`.
      With `create`, a miss adds exactly one new entry. */
  function Search<V>(t: Table<V>, key: Key, create: bool): (r: Reply<V>)
    requires Valid(t)
    ensures Valid(r.table)
    ensures key !in TableKeys(t.buckets) && !create ==> r == Reply(t, None)
    ensures key !in TableKeys(t.buckets) && create ==>
      && r.item == Some(NewEntry(key))
      && r.table.nentries == t.nentries + 1
      && TableKeys(r.table.buckets) == TableKeys(t.buckets) + multiset{key}
      && Bag(r.table.buckets) == Bag(t.buckets) + multiset{NewEntry(key)}
    ensures key in TableKeys(t.buckets) ==>
      && Lookup(t, key).Some?
      && r.item == Some(Lookup(t, key).value.(timesFound := Lookup(t, key).value.timesFound + 1))
      && r.table.nentries == t.nentries
      && |r.table.buckets| == |t.buckets|
      && TableKeys(r.table.buckets) == TableKeys(t.buckets)
      && Bag(r.table.buckets) == Bag(t.buckets) - multiset{Lookup(t, key).value} + multiset{r.item.value}
    ensures r.item.Some? ==> r.item.value.key == key && Lookup(r.table, key) == r.item
  {
    LookupComplete(t, key);
    if !create && t.nentries == 0 then
      EmptyBuckets(t.buckets);
      Reply(t, None)
    else
      var i := Home(t, key);
      match FindIn(t.buckets[i], HashString(key), key, 0)
      case Some(j) =>
        var r := Touch(t, i, j);
        TouchKeeps(t, i, j, r.item.value);
        FindInPrefix(t.buckets[i], r.table.buckets[i], HashString(key), key, j);
        r
      case None =>
        if create then AddNew(t, key) else Reply(t, None)
  }

  /** Two chains that agree before position `j`, where both match, stop a
      search at the same place. */
  lemma FindInPrefix<V>(x: seq<Entry<V>>, y: seq<Entry<V>>, hv: Word, key: Key, j: nat)
    requires j < |x| && j < |y| && x[..j] == y[..j]
    requires FindIn(x, hv, key, 0) == Some(j) && Matches(y[j], hv, key)
    ensures FindIn(y, hv, key, 0) == Some(j)
  {
    forall c | 0 <= c < j
      ensures !Matches(y[c], hv, key)
    {
      assert y[c] == y[..j][c] == x[..j][c] == x[c];
    }
    FindInFirst(y, hv, key, 0, j);
  }

  lemma {:induction false} FindInFirst<V>(x: seq<Entry<V>>, hv: Word, key: Key, from: nat, j: nat)
    requires from <= j < |x| && Matches(x[j], hv, key)
    requires forall c :: from <= c < j ==> !Matches(x[c], hv, key)
    ensures FindIn(x, hv, key, from) == Some(j)
    decreases j - from
  {
    if from < j {
      FindInFirst(x, hv, key, from + 1, j);
    }
  }

  /** hash_insert: the existing entry for `key` (found by a search, which
      bumps its `times_found`), or a new entry.  With `noSearch`
      (HASH_NOSRCH) a new entry is always added, even for a key already
      present. */
  function Insert<V>(t: Table<V>, key: Key, noSearch: bool): (r: Reply<V>)
    requires Valid(t)
    ensures Valid(r.table) && r.item.Some? && r.item.value.key == key
    ensures Lookup(r.table, key) == r.item
    ensures noSearch || key !in TableKeys(t.buckets) ==>
      && r.item == Some(NewEntry(key))
      && r.table.nentries == t.nentries + 1
      && TableKeys(r.table.buckets) == TableKeys(t.buckets) + multiset{key}
      && Bag(r.table.buckets) == Bag(t.buckets) + multiset{NewEntry(key)}
    ensures !noSearch && key in TableKeys(t.buckets) ==>
      && Lookup(t, key).Some?
      && r.item.value == Lookup(t, key).value.(timesFound := Lookup(t, key).value.timesFound + 1)
      && r.table.nentries == t.nentries
      && |r.table.buckets| == |t.buckets|
      && TableKeys(r.table.buckets) == TableKeys(t.buckets)
      && Bag(r.table.buckets) == Bag(t.buckets) - multiset{Lookup(t, key).value} + multiset{r.item.value}
  {
    var s := if noSearch then Reply(t, None) else Search(t, key, false);
    if s.item.Some? then s else AddNew(t, key)
  }

  /** Unlinking entry `j` of chain `i` keeps the table valid with one entry
      and one occurrence of its key fewer. */
  lemma CutKeeps<V>(t: Table<V>, i: nat, j: nat)
    requires Valid(t) && i < |t.buckets| && j < |t.buckets[i]|
    ensures Valid(Table(t.buckets[i := t.buckets[i][..j] + t.buckets[i][j + 1..]], t.nentries - 1))
    ensures TableKeys(t.buckets[i := t.buckets[i][..j] + t.buckets[i][j + 1..]])
         == TableKeys(t.buckets) - multiset{t.buckets[i][j].key}
    ensures Bag(t.buckets[i := t.buckets[i][..j] + t.buckets[i][j + 1..]])
         == Bag(t.buckets) - multiset{t.buckets[i][j]}
  {
    var chain := t.buckets[i];
    var x := chain[..j] + chain[j + 1..];
    ChainFitsOf(t.buckets, i);
    CutFits(chain, j, i, |t.buckets|);
    ReplaceChain(t.buckets, i, x);
    CountUpdate(t.buckets, i, x);
    CutKeys(t.buckets, i, j);
    CutBag(t.buckets, i, j);
  }

  lemma CutBag<V>(b: seq<seq<Entry<V>>>, i: nat, j: nat)
    requires i < |b| && j < |b[i]|
    ensures Bag(b[i := b[i][..j] + b[i][j + 1..]]) == Bag(b) - multiset{b[i][j]}
  {
    var c := b[i];
    EntryBagUpdate(b, i, c[..j] + c[j + 1..]);
    ChainCut(c, j);
    MultisetCut(Bag(b), multiset(c), c[j]);
  }

  lemma CutFits<V>(x: seq<Entry<V>>, j: nat, i: nat, n: nat)
    requires n >= 1 && j < |x| && ChainFits(x, i, n)
    ensures ChainFits(x[..j] + x[j + 1..], i, n)
  {
    var y := x[..j] + x[j + 1..];
    forall c | 0 <= c < |y|
      ensures y[c].khash == HashString(y[c].key) && BucketIndex(y[c].khash, n) == i
    {
      assert y[c] == (if c < j then x[c] else x[c + 1]);
    }
  }

  lemma CutKeys<V>(b: seq<seq<Entry<V>>>, i: nat, j: nat)
    requires i < |b| && j < |b[i]|
    ensures TableKeys(b[i := b[i][..j] + b[i][j + 1..]]) == TableKeys(b) - multiset{b[i][j].key}
  {
    KeyViewUpdate(b, i, b[i][..j] + b[i][j + 1..]);
    KeyBagRemove(b[i], j);
    KeyBagMember(b[i], j);
    MultisetCut(TableKeys(b), KeyBag(b[i]), b[i][j].key);
  }

  lemma MultisetCut<T>(whole: multiset<T>, part: multiset<T>, k: T)
    requires k in part && part <= whole
    ensures whole - part + (part - multiset{k}) == whole - multiset{k}
  {
  }

  /** hash_remove: unlinks the first entry matching `key` from its chain and
      returns it; a miss (or an empty table) returns nothing and leaves the
      table as it was. */
  function Remove<V>(t: Table<V>, key: Key): (r: Reply<V>)
    requires Valid(t)
    ensures Valid(r.table)
    ensures r.item.Some? <==> key in TableKeys(t.buckets)
    ensures r.item.None? ==> r.table == t
    ensures r.item.Some? ==>
      && r.item == Lookup(t, key)
      && r.table.nentries == t.nentries - 1
      && |r.table.buckets| == |t.buckets|
      && TableKeys(r.table.buckets) == TableKeys(t.buckets) - multiset{key}
      && Bag(r.table.buckets) == Bag(t.buckets) - multiset{r.item.value}
  {
    LookupComplete(t, key);
    if t.nentries == 0 then
      EmptyBuckets(t.buckets);
      Reply(t, None)
    else
      var i := Home(t, key);
      var chain := t.buckets[i];
      match FindIn(chain, HashString(key), key, 0)
      case None => Reply(t, None)
      case Some(j) =>
        var x := chain[..j] + chain[j + 1..];
        CutKeeps(t, i, j);
        Reply(Table(t.buckets[i := x], t.nentries - 1), Some(chain[j]))
  }

  // ---------------------------------------------------------------------
  // hash_flush, hash_copy

  /** hash_flush: every chain emptied and the count zeroed; the bucket array
      keeps its size. */
  function Flush<V>(t: Table<V>): (r: Table<V>)
    requires Valid(t)
    ensures Valid(r) && r.nentries == 0 && |r.buckets| == |t.buckets|
    ensures forall i :: 0 <= i < |r.buckets| ==> r.buckets[i] == []
    ensures TableKeys(r.buckets) == multiset{}
  {
    if t.nentries == 0 then
      EmptyBuckets(t.buckets);
      t
    else
      var b := seq<seq<Entry<V>>>(|t.buckets|, _ => []);
      EmptyCount(b);
      Table(b, 0)
  }

  function CopyChain<V>(chain: seq<Entry<V>>, copyData: V -> V): (r: seq<Entry<V>>)
    ensures |r| == |chain|
    ensures forall j :: 0 <= j < |r| ==>
      && r[j].key == chain[j].key && r[j].khash == chain[j].khash
      && r[j].timesFound == chain[j].timesFound
      && (chain[j].data.None? ==> r[j].data.None?)
      && (chain[j].data.Some? ==> r[j].data == Some(copyData(chain[j].data.value)))
  {
    seq(|chain|, j requires 0 <= j < |chain| =>
      var e := chain[j];
      e.(data := if e.data.Some? then Some(copyData(e.data.value)) else None))
  }

  lemma {:induction false} CopyKeys<V>(a: seq<seq<Entry<V>>>, b: seq<seq<Entry<V>>>)
    requires |a| == |b|
    requires forall i :: 0 <= i < |a| ==> |a[i]| == |b[i]|
    requires forall i, j :: 0 <= i < |a| && 0 <= j < |a[i]| ==> a[i][j].key == b[i][j].key
    ensures Count(a) == Count(b) && TableKeys(a) == TableKeys(b)
    decreases |a|
  {
    if |a| != 0 {
      assert KeyBag(a[0]) == KeyBag(b[0]) by {
        ChainKeys(a[0], b[0]);
      }
      CopyKeys(a[1..], b[1..]);
    }
  }

  lemma {:induction false} ChainKeys<V>(a: seq<Entry<V>>, b: seq<Entry<V>>)
    requires |a| == |b| && forall j :: 0 <= j < |a| ==> a[j].key == b[j].key
    ensures KeyBag(a) == KeyBag(b)
    decreases |a|
  {
    if |a| != 0 {
      ChainKeys(a[1..], b[1..]);
    }
  }

  /** hash_copy: the same bucket count and entry count, each chain copied
      entry by entry in order, keys, hashes and find counts kept and the
      data passed through the copier. */
  function Copy<V>(t: Table<V>, copyData: V -> V): (r: Table<V>)
    requires Valid(t)
    ensures Valid(r) && |r.buckets| == |t.buckets| && r.nentries == t.nentries
    ensures TableKeys(r.buckets) == TableKeys(t.buckets)
    ensures forall i :: 0 <= i < |r.buckets| ==> |r.buckets[i]| == |t.buckets[i]|
    ensures forall i, j :: 0 <= i < |r.buckets| && 0 <= j < |r.buckets[i]| ==>
      && r.buckets[i][j].key == t.buckets[i][j].key
      && r.buckets[i][j].khash == t.buckets[i][j].khash
      && r.buckets[i][j].timesFound == t.buckets[i][j].timesFound
      && (t.buckets[i][j].data.None? ==> r.buckets[i][j].data.None?)
      && (t.buckets[i][j].data.Some? ==> r.buckets[i][j].data == Some(copyData(t.buckets[i][j].data.value)))
  {
    var b := seq(|t.buckets|, i requires 0 <= i < |t.buckets| => CopyChain(t.buckets[i], copyData));
    CopyKeys(b, t.buckets);
    Table(b, t.nentries)
  }
}

=== FILE: pathphys.dfy ===
/** Physical path resolution (lib/sh/pathphys.c): `sh_physpath` expands
    symbolic links and removes `.`, `..` and empty components; `sh_realpath`
    checks its argument and makes it absolute first.

    The result buffer is modelled as its fixed prefix (the first character,
    or the leading `//`) followed by a stack of components joined with `/`.
    The code's backward scan to the previous `/` when it meets `..` is
    exactly dropping the last component, since no component holds a `/`.
    The host's readlink is a parameter: `Ok(text)` for a symbolic link,
    `Err(EINVAL)` for anything that is not one, and any other error as
    reported. */
module PathPhys {
  import opened Base

  /** The link bound <sys/param.h> gives on glibc hosts, whose PATH_MAX is
      the one used here; 32 is only the fallback for a host whose headers
      do not define it. */
  const MAXSYMLINKS: nat := 20

  type Readlink = string -> Result<string>

  /** DOUBLE_SLASH: exactly two leading slashes. */
  predicate DoubleSlash(w: string) {
    |w| >= 2 && w[0] == '/' && w[1] == '/' && (|w| == 2 || w[2] != '/')
  }

  // ---------------------------------------------------------------------
  // Components

  /** The length of the leading run of non-`/` characters. */
  function ElemLen(s: string): (n: nat)
    ensures n <= |s|
    ensures forall i :: 0 <= i < n ==> s[i] != '/'
    ensures n < |s| ==> s[n] == '/'
    decreases |s|
  {
    if |s| == 0 || s[0] == '/' then 0
    else
      var n := ElemLen(s[1..]);
      assert forall i :: 1 <= i < n + 1 ==> s[i] == s[1..][i - 1];
      1 + n
  }

  /** `s` split at every `/`: "" gives [""], "/a" gives ["", "a"]. */
  function Components(s: string): (cs: seq<string>)
    ensures |cs| >= 1
    decreases |s|
  {
    var n := ElemLen(s);
    if n == |s| then [s] else [s[..n]] + Components(s[n + 1..])
  }

  /** A component the resolver keeps: not empty, no `/`, not `.` or `..`. */
  predicate IsComponent(c: string) {
    |c| > 0 && c != "." && c != ".." && forall i :: 0 <= i < |c| ==> c[i] != '/'
  }

  predicate Clean(cs: seq<string>) {
    forall i :: 0 <= i < |cs| ==> IsComponent(cs[i])
  }

  function Join(cs: seq<string>): string
    decreases |cs|
  {
    if |cs| == 0 then "" else if |cs| == 1 then cs[0] else cs[0] + "/" + Join(cs[1..])
  }

  /** The text of the result buffer. */
  function Render(prefix: string, stack: seq<string>): string {
    prefix + Join(stack)
  }

  function Pop(stack: seq<string>): (r: seq<string>)
    ensures |stack| > 0 ==> r == stack[..|stack| - 1]
    ensures |stack| == 0 ==> r == stack
  {
    if |stack| > 0 then stack[..|stack| - 1] else stack
  }

  /** Lexical normalisation, the reference the resolver is compared with:
      empty and `.` components vanish, `..` drops the last kept component
      (and nothing when there is none), anything else is kept. */
  function Lexical(stack: seq<string>, cs: seq<string>): seq<string>
    decreases |cs|
  {
    if |cs| == 0 then stack
    else
      var c := cs[0];
      Lexical(if c == "" || c == "." then stack else if c == ".." then Pop(stack) else stack + [c], cs[1..])
  }

  lemma {:induction false} JoinSnoc(cs: seq<string>, c: string)
    requires |cs| > 0
    ensures Join(cs + [c]) == Join(cs) + "/" + c
    decreases |cs|
  {
    if |cs| > 1 {
      assert (cs + [c])[1..] == cs[1..] + [c];
      JoinSnoc(cs[1..], c);
    }
  }

  /** Appending a component writes a separator only when the stack is not
      empty (`q != qbase`). */
  lemma RenderPush(prefix: string, stack: seq<string>, c: string)
    ensures Render(prefix, stack + [c]) == Render(prefix, stack) + (if |stack| > 0 then "/" else "") + c
  {
    if |stack| > 0 {
      JoinSnoc(stack, c);
    } else {
      assert stack + [c] == [c];
    }
  }

  lemma RenderPop(prefix: string, stack: seq<string>)
    ensures |Render(prefix, Pop(stack))| <= |Render(prefix, stack)|
  {
    if |stack| > 0 {
      assert stack == Pop(stack) + [stack[|stack| - 1]];
      RenderPush(prefix, Pop(stack), stack[|stack| - 1]);
    }
  }

  lemma ElemLenOfJoin(a: string, b: string)
    requires forall i :: 0 <= i < |a| ==> a[i] != '/'
    ensures ElemLen(a + "/" + b) == |a|
  {
    var s := a + "/" + b;
    assert s[|a|] == '/';
    assert forall i :: 0 <= i < |a| ==> s[i] == a[i];
  }

  /** Splitting a joined clean path gives its components back. */
  lemma {:induction false} SplitJoin(cs: seq<string>)
    requires |cs| > 0 && Clean(cs)
    ensures Components(Join(cs)) == cs
    decreases |cs|
  {
    if |cs| == 1 {
      assert IsComponent(cs[0]);
    } else {
      var s := Join(cs);
      assert s == cs[0] + "/" + Join(cs[1..]);
      assert IsComponent(cs[0]);
      ElemLenOfJoin(cs[0], Join(cs[1..]));
      assert s[..|cs[0]|] == cs[0];
      assert s[|cs[0]| + 1..] == Join(cs[1..]);
      assert Clean(cs[1..]) by {
        forall i | 0 <= i < |cs[1..]|
          ensures IsComponent(cs[1..][i])
        {
          assert cs[1..][i] == cs[i + 1];
        }
      }
      SplitJoin(cs[1..]);
      assert cs == [cs[0]] + cs[1..];
    }
  }

  /** A place in a joined clean path that ends a component (a `/` or the
      end) is the end of the join of some leading components. */
  lemma {:induction false} JoinBoundary(cs: seq<string>, i: nat) returns (k: nat)
    requires Clean(cs) && 0 < i <= |Join(cs)|
    requires i == |Join(cs)| || Join(cs)[i] == '/'
    ensures 1 <= k <= |cs| && Join(cs[..k]) == Join(cs)[..i]
    decreases |cs|
  {
    var n := |cs|;
    assert n > 0;
    if n == 1 {
      assert IsComponent(cs[0]);
      k := 1;
      assert cs[..1] == cs;
    } else {
      var init, c := cs[..n - 1], cs[n - 1];
      assert cs == init + [c];
      JoinSnoc(init, c);
      var s, l := Join(cs), |Join(init)|;
      assert IsComponent(c);
      assert Clean(init) by {
        forall j | 0 <= j < |init|
          ensures IsComponent(init[j])
        {
          assert init[j] == cs[j];
        }
      }
      if i == l {
        k := n - 1;
        assert s[..i] == Join(init);
      } else if i < l {
        assert Join(init)[i] == s[i];
        k := JoinBoundary(init, i);
        assert cs[..k] == init[..k];
        assert s[..i] == Join(init)[..i];
      } else if i < |s| {
        assert false;
      } else {
        k := n;
        assert cs[..n] == cs;
      }
    }
  }

  /** Lexical normalisation keeps a clean path as it is. */
  lemma {:induction false} LexicalClean(stack: seq<string>, cs: seq<string>)
    requires Clean(cs)
    ensures Lexical(stack, cs) == stack + cs
    decreases |cs|
  {
    if |cs| > 0 {
      assert IsComponent(cs[0]);
      assert Clean(cs[1..]) by {
        forall i | 0 <= i < |cs[1..]|
          ensures IsComponent(cs[1..][i])
        {
          assert cs[1..][i] == cs[i + 1];
        }
      }
      LexicalClean(stack + [cs[0]], cs[1..]);
      assert stack + [cs[0]] + cs[1..] == stack + cs;
    }
  }

  // ---------------------------------------------------------------------
  // sh_physpath

  /** The resolver's state: the fixed prefix (what lies before `qbase`),
      the components written after it, the unprocessed rest of the work
      path, whether the current work path began with exactly `//`, and the
      number of links followed. */
  datatype Walk = Walk(prefix: string, stack: seq<string>, rest: string, dslash: bool, nlink: nat)

  /** The start (and the restart after an absolute link): copy the first
      character, and the second as well when the path begins with exactly
      two slashes. */
  function Start(w: string, nlink: nat): (r: Walk)
    requires |w| > 0
    ensures r.prefix + r.rest == w && r.stack == [] && r.nlink == nlink
    ensures r.dslash == DoubleSlash(w)
    ensures r.dslash ==> r.prefix == "//"
    ensures !r.dslash ==> r.prefix == w[..1]
  {
    var d := DoubleSlash(w);
    var k := if d then 2 else 1;
    Walk(w[..k], [], w[k..], d, nlink)
  }

  /** What holds of every state: the prefix is `//` exactly when the work
      path began so, else one character; the components are clean; the
      buffer holds at most PATH_MAX characters; at most MAXSYMLINKS links. */
  predicate Good(w: Walk) {
    && (w.dslash ==> w.prefix == "//")
    && (!w.dslash ==> |w.prefix| == 1)
    && Clean(w.stack)
    && |Render(w.prefix, w.stack)| <= PATH_MAX
    && w.nlink <= MAXSYMLINKS
  }

  /** A `.` element: `.` followed by `/` or the end. */
  predicate AtDot(s: string) {
    |s| >= 1 && s[0] == '.' && (|s| == 1 || s[1] == '/')
  }

  /** A `..` element. */
  predicate AtDotDot(s: string) {
    |s| >= 2 && s[0] == '.' && s[1] == '.' && (|s| == 2 || s[2] == '/')
  }

  /** The outcome of one pass of the main loop. */
  datatype Step = Continue(next: Walk) | Fail(error: Errno)

  /** One pass of the main loop of sh_physpath.  A `/` or a `.` element is
      passed over and `..` drops the last component.  A real element is
      appended (failing with ENAMETOOLONG if a character would land at
      index PATH_MAX or beyond), then readlink is asked about the buffer:
      EINVAL means it is not a link, any other error ends the walk.  A link
      is followed at most MAXSYMLINKS times, and only if
      link + rest + 2 < PATH_MAX: an absolute target restarts from its own
      root, a relative one drops the element and re-reads the target
      followed by the rest. */
  function StepOnce(readlink: Readlink, w: Walk): (r: Step)
    requires Good(w) && |w.rest| > 0
    ensures r.Continue? ==> Good(r.next)
    ensures r.Continue? ==> r.next.nlink > w.nlink || (r.next.nlink == w.nlink && |r.next.rest| < |w.rest|)
    ensures r.Continue? && w.prefix[0] == '/' ==> r.next.prefix[0] == '/'
    ensures r.Fail? ==> r.error != EINVAL
  {
    if w.rest[0] == '/' then Continue(w.(rest := w.rest[1..]))
    else if AtDot(w.rest) then Continue(w.(rest := w.rest[1..]))
    else if AtDotDot(w.rest) then
      PopGood(w, w.rest[2..]);
      Continue(w.(rest := w.rest[2..], stack := Pop(w.stack)))
    else
      var n := ElemLen(w.rest);
      ElemIsComponent(w.rest);
      var elem := w.rest[..n];
      var rest := w.rest[n..];
      var stack := w.stack + [elem];
      if |Render(w.prefix, stack)| > PATH_MAX then Fail(ENAMETOOLONG)
      else match readlink(Render(w.prefix, stack))
        case Err(e) =>
          if e == EINVAL then
            PushGood(w, elem, rest);
            Continue(w.(stack := stack, rest := rest))
          else Fail(e)
        case Ok(link) => Follow(w, link, rest)
  }

  /** Following a link whose target is `link`, with `rest` still to read
      after the element that named it. */
  function Follow(w: Walk, link: string, rest: string): (r: Step)
    requires Good(w)
    ensures r.Fail? <==> w.nlink + 1 > MAXSYMLINKS || |rest| + |link| + 2 >= PATH_MAX
    ensures r.Fail? ==> (r.error == ELOOP <==> w.nlink + 1 > MAXSYMLINKS) && (r.error == ELOOP || r.error == ENAMETOOLONG)
    ensures r.Continue? ==> Good(r.next) && r.next.nlink == w.nlink + 1
    ensures r.Continue? && |link| > 0 && link[0] == '/' ==>
      r.next.stack == [] && r.next.prefix + r.next.rest == link + rest && r.next.dslash == DoubleSlash(link + rest)
    ensures r.Continue? && !(|link| > 0 && link[0] == '/') ==>
      r.next.prefix == w.prefix && r.next.stack == w.stack && r.next.dslash == w.dslash && r.next.rest == link + rest
    ensures r.Continue? && w.prefix[0] == '/' ==> r.next.prefix[0] == '/'
  {
    if w.nlink + 1 > MAXSYMLINKS then Fail(ELOOP)
    else if |rest| + |link| + 2 >= PATH_MAX then Fail(ENAMETOOLONG)
    else if |link| > 0 && link[0] == '/' then
      RestartGood(link + rest, w.nlink + 1);
      Continue(Start(link + rest, w.nlink + 1))
    else Continue(w.(rest := link + rest, nlink := w.nlink + 1))
  }

  /** Dropping the last component keeps a state good. */
  lemma PopGood(w: Walk, rest: string)
    requires Good(w)
    ensures Good(w.(rest := rest, stack := Pop(w.stack)))
  {
    RenderPop(w.prefix, w.stack);
  }

  /** Appending a component that fits keeps a state good. */
  lemma PushGood(w: Walk, elem: string, rest: string)
    requires Good(w) && IsComponent(elem) && |Render(w.prefix, w.stack + [elem])| <= PATH_MAX
    ensures Good(w.(stack := w.stack + [elem], rest := rest))
  {
  }

  /** A restart on a path shorter than the buffer is good. */
  lemma RestartGood(s: string, nlink: nat)
    requires |s| > 0 && nlink <= MAXSYMLINKS
    ensures Good(Start(s, nlink))
  {
  }

  /** The leading element of a rest that is not `/`, `.` or `..` is a
      component. */
  lemma ElemIsComponent(s: string)
    requires |s| > 0 && s[0] != '/' && !AtDot(s) && !AtDotDot(s)
    ensures ElemLen(s) > 0 && IsComponent(s[..ElemLen(s)])
  {
    var n := ElemLen(s);
    assert n > 0;
    assert n == 1 ==> s[..n] != ".";
    assert n == 2 ==> s[..n] != "..";
  }

  /** No component written so far names a symbolic link: readlink said
      EINVAL of the buffer as it stood after each one was appended. */
  ghost predicate Physical(readlink: Readlink, w: Walk) {
    forall k :: 1 <= k <= |w.stack| ==> readlink(Render(w.prefix, w.stack[..k])) == Err(EINVAL)
  }

  /** The errors sh_physpath can end with: its own two, or one readlink
      reported. */
  ghost predicate Reported(readlink: Readlink, e: Errno) {
    e == ENAMETOOLONG || e == ELOOP || exists s :: readlink(s) == Err(e)
  }

  /** A pass keeps every written component free of links: `..` keeps a
      prefix of them, an element is kept only when readlink said EINVAL,
      and an absolute link starts over with none. */
  lemma StepPhysical(readlink: Readlink, w: Walk)
    requires Good(w) && |w.rest| > 0
    ensures Physical(readlink, w) && StepOnce(readlink, w).Continue? ==> Physical(readlink, StepOnce(readlink, w).next)
  {
    if !Physical(readlink, w) || w.rest[0] == '/' || AtDot(w.rest) {
    } else if AtDotDot(w.rest) {
      var p := Pop(w.stack);
      forall k | 1 <= k <= |p|
        ensures readlink(Render(w.prefix, p[..k])) == Err(EINVAL)
      {
        assert p[..k] == w.stack[..k];
      }
    } else {
      var n := ElemLen(w.rest);
      var stack := w.stack + [w.rest[..n]];
      if StepOnce(readlink, w).Continue? && StepOnce(readlink, w).next.stack == stack {
        forall k | 1 <= k <= |stack|
          ensures readlink(Render(w.prefix, stack[..k])) == Err(EINVAL)
        {
          if k <= |w.stack| {
            assert stack[..k] == w.stack[..k];
          } else {
            assert stack[..k] == stack;
          }
        }
      }
    }
  }

  /** A failing pass fails with ENAMETOOLONG, ELOOP or readlink's error. */
  lemma StepReported(readlink: Readlink, w: Walk)
    requires Good(w) && |w.rest| > 0
    ensures StepOnce(readlink, w).Fail? ==> Reported(readlink, StepOnce(readlink, w).error)
  {
    if w.rest[0] != '/' && !AtDot(w.rest) && !AtDotDot(w.rest) {
      var n := ElemLen(w.rest);
      var s := Render(w.prefix, w.stack + [w.rest[..n]]);
      if readlink(s).Err? {
        assert readlink(s) == Err(readlink(s).error);
      }
    }
  }

  /** The main loop of sh_physpath: passes until the work path is used up
      or one fails. */
  function Resolve(readlink: Readlink, w: Walk): (r: Result<Walk>)
    requires Good(w)
    ensures r.Ok? ==> Good(r.value) && r.value.rest == ""
    ensures r.Ok? && w.prefix[0] == '/' ==> r.value.prefix[0] == '/'
    ensures r.Err? ==> r.error != EINVAL
    ensures r.Err? ==> Reported(readlink, r.error)
    ensures r.Ok? && Physical(readlink, w) ==> Physical(readlink, r.value)
    decreases MAXSYMLINKS - w.nlink, |w.rest|
  {
    if |w.rest| == 0 then Ok(w)
    else match StepOnce(readlink, w)
      case Fail(e) =>
        StepReported(readlink, w);
        Err(e)
      case Continue(next) =>
        StepPhysical(readlink, w);
        Resolve(readlink, next)
  }

  // ---------------------------------------------------------------------
  // Link substitution

  /** A component followed by nothing or by a `/` is read as one whole
      element. */
  lemma WholeElem(e: string, rest: string)
    requires IsComponent(e) && (rest == "" || rest[0] == '/')
    ensures var s := e + rest;
      && s[0] != '/' && !AtDot(s) && !AtDotDot(s)
      && ElemLen(s) == |e| && s[..|e|] == e && s[|e|..] == rest
  {
    var s := e + rest;
    var n := ElemLen(s);
    assert |e| < |s| ==> s[|e|] == '/';
    assert |e| == 1 ==> e == [s[0]];
    assert |e| == 2 ==> e == [s[0], s[1]];
  }

  /** An element that is not a link is appended, and resolution goes on
      from there. */
  lemma ResolveNonLink(readlink: Readlink, w: Walk, e: string, rest: string)
    requires Good(w) && IsComponent(e) && (rest == "" || rest[0] == '/')
    requires |Render(w.prefix, w.stack + [e])| <= PATH_MAX
    requires readlink(Render(w.prefix, w.stack + [e])) == Err(EINVAL)
    ensures Good(w.(stack := w.stack + [e], rest := rest))
    ensures Resolve(readlink, w.(rest := e + rest)) == Resolve(readlink, w.(stack := w.stack + [e], rest := rest))
  {
    WholeElem(e, rest);
    PushGood(w, e, rest);
  }

  /** An element that is a link to `t` is replaced by its target: an
      absolute target starts the walk again from its own root, a relative
      one is read in place of the element, before the rest. */
  lemma ResolveLink(readlink: Readlink, w: Walk, e: string, rest: string, t: string)
    requires Good(w) && IsComponent(e) && (rest == "" || rest[0] == '/')
    requires |Render(w.prefix, w.stack + [e])| <= PATH_MAX
    requires readlink(Render(w.prefix, w.stack + [e])) == Ok(t)
    requires w.nlink + 1 <= MAXSYMLINKS && |rest| + |t| + 2 < PATH_MAX
    ensures |t| > 0 && t[0] == '/' ==>
      Resolve(readlink, w.(rest := e + rest)) == Resolve(readlink, Start(t + rest, w.nlink + 1))
    ensures !(|t| > 0 && t[0] == '/') ==>
      Resolve(readlink, w.(rest := e + rest)) == Resolve(readlink, w.(rest := t + rest, nlink := w.nlink + 1))
  {
    var w' := w.(rest := e + rest);
    LinkStep(readlink, w, e, rest, t);
    FollowNext(w, t, rest);
    ResolveStep(readlink, w');
  }

  /** Within the bounds, following a link gives the restart from an
      absolute target, or the relative target read in place. */
  lemma FollowNext(w: Walk, t: string, rest: string)
    requires Good(w) && w.nlink + 1 <= MAXSYMLINKS && |rest| + |t| + 2 < PATH_MAX
    ensures |t| > 0 && t[0] == '/' ==> Follow(w, t, rest) == Continue(Start(t + rest, w.nlink + 1))
    ensures !(|t| > 0 && t[0] == '/') ==> Follow(w, t, rest) == Continue(w.(rest := t + rest, nlink := w.nlink + 1))
  {
  }

  /** The step on an element that is a link is the link's follow. */
  lemma LinkStep(readlink: Readlink, w: Walk, e: string, rest: string, t: string)
    requires Good(w) && IsComponent(e) && (rest == "" || rest[0] == '/')
    requires |Render(w.prefix, w.stack + [e])| <= PATH_MAX
    requires readlink(Render(w.prefix, w.stack + [e])) == Ok(t)
    ensures Good(w.(rest := e + rest))
    ensures StepOnce(readlink, w.(rest := e + rest)) == Follow(w, t, rest)
  {
    WholeElem(e, rest);
  }

  /** A separator is skipped. */
  lemma ResolveSlash(readlink: Readlink, w: Walk, rest: string)
    requires Good(w)
    ensures Resolve(readlink, w.(rest := "/" + rest)) == Resolve(readlink, w.(rest := rest))
  {
    assert ("/" + rest)[1..] == rest;
  }

  /** /a a link to the absolute /x: sh_physpath("/a/b") is "/x/b". */
  lemma AbsoluteLinkExample(readlink: Readlink)
    requires readlink("/a") == Ok("/x") && readlink("/x") == Err(EINVAL) && readlink("/x/b") == Err(EINVAL)
    ensures PhysPath("/a/b", readlink) == Ok("/x/b")
  {
    assert "/" + "x" == "/x" && "/" + "x" + "/b" == "/x/b";
    LinkThenPlain(readlink, "/x", "x");
  }

  /** /a a link to the relative c: the element is dropped and c read in its
      place, so sh_physpath("/a/b") is "/c/b". */
  lemma RelativeLinkExample(readlink: Readlink)
    requires readlink("/a") == Ok("c") && readlink("/c") == Err(EINVAL) && readlink("/c/b") == Err(EINVAL)
    ensures PhysPath("/a/b", readlink) == Ok("/c/b")
  {
    assert "/" + "c" == "/c" && "/" + "c" + "/b" == "/c/b";
    LinkThenPlain(readlink, "c", "c");
  }

  /** /a a link to `c` or `/c`, with no link below: either way "/a/b"
      resolves to "/c/b". */
  lemma LinkThenPlain(readlink: Readlink, t: string, c: string)
    requires IsComponent(c) && |c| == 1 && (t == "/" + c || t == c)
    requires readlink("/a") == Ok(t)
    requires readlink("/" + c) == Err(EINVAL) && readlink("/" + c + "/b") == Err(EINVAL)
    ensures PhysPath("/a/b", readlink) == Ok("/" + c + "/b")
  {
    LinkAtA(readlink, t);
    assert t == "/" + c ==> t + "/b" == "/" + c + "/b";
    PlainTail(readlink, c);
    RenderPair(c);
    PhysPathOf(readlink, "/a/b", Walk("/", [c, "b"], "", false, 1));
  }

  /** The first element of "/a/b" is a link to `t`. */
  lemma LinkAtA(readlink: Readlink, t: string)
    requires readlink("/a") == Ok(t) && 0 < |t| < 100
    ensures |t| > 0 && t[0] == '/' ==>
      Resolve(readlink, Start("/a/b", 0)) == Resolve(readlink, Start(t + "/b", 1))
    ensures !(|t| > 0 && t[0] == '/') ==>
      Resolve(readlink, Start("/a/b", 0)) == Resolve(readlink, Start("/" + t + "/b", 1))
  {
    var w0 := Walk("/", [], "", false, 0);
    var s := "/" + t + "/b";
    assert t[0] != '/' ==> s[1] == t[0] && !DoubleSlash(s) && Start(s, 1) == w0.(rest := t + "/b", nlink := 1);
    RenderPush("/", [], "a");
    assert Render("/", [] + ["a"]) == "/a";
    assert Start("/a/b", 0) == w0.(rest := "a" + "/b");
    ResolveLink(readlink, w0, "a", "/b", t);
  }

  /** sh_physpath gives the buffer of the walk it ends with. */
  lemma PhysPathOf(readlink: Readlink, path: string, w: Walk)
    requires |path| > 0 && Resolve(readlink, Start(path, 0)) == Ok(w)
    ensures PhysPath(path, readlink) == Ok(Render(w.prefix, w.stack))
  {
    FixupNeverApplies(w);
  }

  /** The buffer for a one-letter component followed by `b`. */
  lemma RenderPair(c: string)
    requires IsComponent(c) && |c| == 1
    ensures Render("/", [c, "b"]) == "/" + c + "/b"
  {
    RenderPush("/", [], c);
    RenderPush("/", [c], "b");
    assert [] + [c] == [c] && [c] + ["b"] == [c, "b"];
  }

  /** Past the link, "/c/b" with neither part a link resolves to both
      components. */
  lemma PlainTail(readlink: Readlink, c: string)
    requires IsComponent(c) && |c| == 1
    requires readlink("/" + c) == Err(EINVAL) && readlink("/" + c + "/b") == Err(EINVAL)
    ensures Good(Start("/" + c + "/b", 1))
    ensures Resolve(readlink, Start("/" + c + "/b", 1)) == Ok(Walk("/", [c, "b"], "", false, 1))
  {
    PlainFirst(readlink, c);
    PlainSecond(readlink, c);
  }

  /** The first component of "/c/b" is kept and the slash after it skipped. */
  lemma PlainFirst(readlink: Readlink, c: string)
    requires IsComponent(c) && |c| == 1 && readlink("/" + c) == Err(EINVAL)
    ensures Good(Start("/" + c + "/b", 1)) && Good(Walk("/", [c], "b", false, 1))
    ensures Resolve(readlink, Start("/" + c + "/b", 1)) == Resolve(readlink, Walk("/", [c], "b", false, 1))
  {
    var w1 := Walk("/", [], "", false, 1);
    var w2 := w1.(stack := [c]);
    RenderPush("/", [], c);
    assert [] + [c] == [c];
    assert Start("/" + c + "/b", 1) == w1.(rest := c + "/b");
    ResolveNonLink(readlink, w1, c, "/b");
    ResolveSlash(readlink, w2, "b");
    assert "/" + "b" == "/b";
  }

  /** The second component of "/c/b" is kept and ends the walk. */
  lemma PlainSecond(readlink: Readlink, c: string)
    requires IsComponent(c) && |c| == 1 && readlink("/" + c + "/b") == Err(EINVAL)
    ensures Good(Walk("/", [c], "b", false, 1))
    ensures Resolve(readlink, Walk("/", [c], "b", false, 1)) == Ok(Walk("/", [c, "b"], "", false, 1))
  {
    var w2 := Walk("/", [c], "", false, 1);
    RenderPush("/", [], c);
    assert [] + [c] == [c];
    RenderPair(c);
    ResolveNonLink(readlink, w2, "b", "");
    assert "b" + "" == "b" && [c] + ["b"] == [c, "b"];
  }

  /** The last step of sh_physpath: a result that starts with `//` when the
      work path did not is shortened by one character. */
  function Fixup(s: string, dslash: bool): string {
    if DoubleSlash(s) && !dslash then (if |s| == 2 then "/" else s[1..]) else s
  }

  /** The prefix length a path of this shape has. */
  function PrefixLen(s: string): nat {
    if DoubleSlash(s) then 2 else 1
  }

  /** The buffer of a good state starts with `//` exactly when the work
      path did, so the last step of sh_physpath never changes it. */
  lemma FixupNeverApplies(w: Walk)
    requires Good(w)
    ensures DoubleSlash(Render(w.prefix, w.stack)) == w.dslash
    ensures Fixup(Render(w.prefix, w.stack), w.dslash) == Render(w.prefix, w.stack)
  {
    var s := Render(w.prefix, w.stack);
    if |w.stack| > 0 {
      assert IsComponent(w.stack[0]);
      assert Join(w.stack)[0] == w.stack[0][0];
      assert s[|w.prefix|] == w.stack[0][0];
    }
  }

  /** Every leading part of `s` that ends a component after the prefix is
      not a symbolic link: readlink says EINVAL of it. */
  ghost predicate NoLinkAncestors(readlink: Readlink, s: string) {
    forall i :: PrefixLen(s) < i <= |s| && (i == |s| || s[i] == '/') ==> readlink(s[..i]) == Err(EINVAL)
  }

  /** The buffer of a good, link-free state has no link among its leading
      parts. */
  lemma PhysicalRendered(readlink: Readlink, w: Walk)
    requires Good(w) && Physical(readlink, w)
    ensures NoLinkAncestors(readlink, Render(w.prefix, w.stack))
  {
    var s, p := Render(w.prefix, w.stack), |w.prefix|;
    FixupNeverApplies(w);
    assert p == PrefixLen(s);
    forall i | PrefixLen(s) < i <= |s| && (i == |s| || s[i] == '/')
      ensures readlink(s[..i]) == Err(EINVAL)
    {
      var j := i - p;
      assert j == |Join(w.stack)| || Join(w.stack)[j] == s[i];
      var k := JoinBoundary(w.stack, j);
      assert s[..i] == Render(w.prefix, w.stack[..k]);
    }
  }

  /** sh_physpath.  An empty path is not accepted: the code copies its
      terminator into the prefix and then reads past it. */
  function PhysPath(path: string, readlink: Readlink): (r: Result<string>)
    requires |path| > 0
    ensures r.Ok? ==> |r.value| <= PATH_MAX
    ensures r.Ok? ==> |r.value| >= PrefixLen(r.value)
    ensures r.Ok? ==> |r.value| == PrefixLen(r.value) || Clean(Components(r.value[PrefixLen(r.value)..]))
    ensures r.Ok? && path[0] == '/' ==> r.value[0] == '/'
    ensures r.Ok? ==> NoLinkAncestors(readlink, r.value)
    ensures r.Err? ==> r.error != EINVAL && Reported(readlink, r.error)
  {
    var w :- Resolve(readlink, Start(path, 0));
    FixupNeverApplies(w);
    ResultShape(w);
    PhysicalRendered(readlink, w);
    Ok(Fixup(Render(w.prefix, w.stack), w.dslash))
  }

  /** The buffer of a good state is its prefix followed by clean
      components. */
  lemma ResultShape(w: Walk)
    requires Good(w)
    ensures var s := Render(w.prefix, w.stack);
      && |s| >= PrefixLen(s) && s[0] == w.prefix[0]
      && (|s| == PrefixLen(s) || Clean(Components(s[PrefixLen(s)..])))
  {
    var s := Render(w.prefix, w.stack);
    FixupNeverApplies(w);
    if |w.stack| > 0 {
      SplitJoin(w.stack);
      assert s[PrefixLen(s)..] == Join(w.stack);
    }
  }

  // ---------------------------------------------------------------------
  // Properties

  /** The readlink of a host without symbolic links. */
  function NoLinks(s: string): Result<string> {
    Err(EINVAL)
  }

  /** One step of the scanner agrees with one component of the reference. */
  lemma ComponentsSkip(s: string)
    requires |s| >= 1 && s[0] == '/'
    ensures Components(s) == [""] + Components(s[1..])
  {
  }

  lemma ComponentsOfElem(s: string, n: nat)
    requires n == ElemLen(s) && 0 < n
    ensures n == |s| ==> Components(s) == [s] && Components(s[n..]) == [""]
    ensures n < |s| ==>
      Components(s) == [s[..n]] + Components(s[n + 1..]) && Components(s[n..]) == [""] + Components(s[n + 1..])
  {
    if n < |s| {
      ComponentsSkip(s[n..]);
      assert s[n..][1..] == s[n + 1..];
    }
  }

  /** A real element on a host without links: appended if it fits. */
  lemma StepElem(w: Walk)
    requires Good(w) && |w.rest| > 0 && w.rest[0] != '/' && !AtDot(w.rest) && !AtDotDot(w.rest)
    ensures var n := ElemLen(w.rest);
      StepOnce(NoLinks, w)
        == if |Render(w.prefix, w.stack + [w.rest[..n]])| > PATH_MAX then Fail(ENAMETOOLONG)
           else Continue(w.(stack := w.stack + [w.rest[..n]], rest := w.rest[n..]))
  {
  }

  /** One component of the reference. */
  function LexicalStep(stack: seq<string>, c: string): seq<string> {
    if c == "" || c == "." then stack else if c == ".." then Pop(stack) else stack + [c]
  }

  lemma LexicalCons(stack: seq<string>, c: string, cs: seq<string>)
    ensures Lexical(stack, [c] + cs) == Lexical(LexicalStep(stack, c), cs)
  {
    assert ([c] + cs)[0] == c && ([c] + cs)[1..] == cs;
  }

  /** What a walk without links still has to account for: its buffer, the
      unread rest, and the separator the next element will take when one
      follows without a `/` in between (only after `/` is skipped). */
  function Budget(w: Walk): nat {
    |Render(w.prefix, w.stack)| + |w.rest| + (if |w.stack| > 0 && |w.rest| > 0 && w.rest[0] != '/' then 1 else 0)
  }

  /** Without links a pass never grows the budget: an element is written
      only in place of the characters it was read from, and a separator only
      after a `/` was skipped. So a walk whose budget fits in PATH_MAX never
      fails. */
  lemma BudgetStep(w: Walk)
    requires Good(w) && |w.rest| > 0 && Budget(w) <= PATH_MAX
    ensures StepOnce(NoLinks, w).Continue?
    ensures Budget(StepOnce(NoLinks, w).next) <= Budget(w)
  {
    var s := w.rest;
    if s[0] != '/' && AtDotDot(s) {
      RenderPop(w.prefix, w.stack);
    } else if s[0] != '/' && !AtDot(s) {
      var n := ElemLen(s);
      ElemIsComponent(s);
      StepElem(w);
      RenderPush(w.prefix, w.stack, s[..n]);
    }
  }

  /** Without links the walk is lexical normalisation of the rest onto the
      stack, unless a component would not fit. */
  lemma {:induction false} ResolveNoLinks(w: Walk)
    requires Good(w)
    ensures var r := Resolve(NoLinks, w);
      r == Err(ENAMETOOLONG)
      || (r.Ok? && r.value.prefix == w.prefix && r.value.dslash == w.dslash
          && r.value.stack == Lexical(w.stack, Components(w.rest)))
    ensures Budget(w) <= PATH_MAX ==> Resolve(NoLinks, w).Ok?
    decreases |w.rest|
  {
    var s := w.rest;
    if |s| == 0 {
      assert Components(s) == [""];
      LexicalCons(w.stack, "", []);
    } else {
      var next := StepOnce(NoLinks, w);
      if Budget(w) <= PATH_MAX {
        BudgetStep(w);
      }
      if next.Continue? {
        ResolveNoLinks(next.next);
        NoLinksStepAgrees(w);
      }
    }
  }

  /** One pass of the loop without links moves exactly one component of
      the reference from the rest onto the stack (or passes a `/`). */
  lemma NoLinksStepAgrees(w: Walk)
    requires Good(w) && |w.rest| > 0 && StepOnce(NoLinks, w).Continue?
    ensures var w' := StepOnce(NoLinks, w).next;
      && w'.prefix == w.prefix && w'.dslash == w.dslash
      && Lexical(w'.stack, Components(w'.rest)) == Lexical(w.stack, Components(w.rest))
  {
    var s := w.rest;
    if s[0] == '/' {
      ComponentsSkip(s);
      LexicalCons(w.stack, "", Components(s[1..]));
    } else {
      var n := ElemLen(s);
      ComponentsOfElem(s, n);
      var tail := if n == |s| then [] else Components(s[n + 1..]);
      assert n == |s| ==> s[..n] == s;
      assert Components(s) == [s[..n]] + tail;
      assert Components(s[n..]) == [""] + tail;
      LexicalCons(w.stack, s[..n], tail);
      if AtDot(s) {
        DotStep(w, n, tail);
      } else if AtDotDot(s) {
        DotDotStep(w, n, tail);
      } else {
        ElemStep(w, n, tail);
      }
    }
  }

  lemma DotStep(w: Walk, n: nat, tail: seq<string>)
    requires Good(w) && |w.rest| > 0 && w.rest[0] != '/' && AtDot(w.rest) && n == ElemLen(w.rest)
    requires Components(w.rest[n..]) == [""] + tail
    requires Lexical(w.stack, Components(w.rest)) == Lexical(LexicalStep(w.stack, w.rest[..n]), tail)
    ensures var w' := StepOnce(NoLinks, w).next;
      && w'.prefix == w.prefix && w'.dslash == w.dslash
      && Lexical(w'.stack, Components(w'.rest)) == Lexical(w.stack, Components(w.rest))
  {
    var s := w.rest;
    assert n == 1 by {
      assert s[0] != '/';
      assert |s| > 1 ==> s[1] == '/';
    }
    assert s[..1] == ".";
    LexicalCons(w.stack, "", tail);
  }

  lemma DotDotStep(w: Walk, n: nat, tail: seq<string>)
    requires Good(w) && |w.rest| > 0 && w.rest[0] != '/' && !AtDot(w.rest) && AtDotDot(w.rest)
    requires n == ElemLen(w.rest)
    requires Components(w.rest[n..]) == [""] + tail
    requires Lexical(w.stack, Components(w.rest)) == Lexical(LexicalStep(w.stack, w.rest[..n]), tail)
    ensures var w' := StepOnce(NoLinks, w).next;
      && w'.prefix == w.prefix && w'.dslash == w.dslash
      && Lexical(w'.stack, Components(w'.rest)) == Lexical(w.stack, Components(w.rest))
  {
    var s := w.rest;
    assert n == 2 by {
      assert s[0] != '/' && s[1] != '/';
      assert |s| > 2 ==> s[2] == '/';
    }
    assert s[..2] == "..";
    LexicalCons(Pop(w.stack), "", tail);
  }

  lemma ElemStep(w: Walk, n: nat, tail: seq<string>)
    requires Good(w) && |w.rest| > 0 && w.rest[0] != '/' && !AtDot(w.rest) && !AtDotDot(w.rest)
    requires n == ElemLen(w.rest) && StepOnce(NoLinks, w).Continue?
    requires Components(w.rest[n..]) == [""] + tail
    requires Lexical(w.stack, Components(w.rest)) == Lexical(LexicalStep(w.stack, w.rest[..n]), tail)
    ensures var w' := StepOnce(NoLinks, w).next;
      && w'.prefix == w.prefix && w'.dslash == w.dslash
      && Lexical(w'.stack, Components(w'.rest)) == Lexical(w.stack, Components(w.rest))
  {
    var s := w.rest;
    StepElem(w);
    var w' := w.(stack := w.stack + [s[..n]], rest := s[n..]);
    assert StepOnce(NoLinks, w) == Continue(w');
    ElemIsComponent(s);
    LexicalCons(w'.stack, "", tail);
  }

  /** The reference result for a host without links: the prefix followed
      by the lexical normalisation of the rest. */
  function LexicalPath(path: string): string
    requires |path| > 0
  {
    var w := Start(path, 0);
    Render(w.prefix, Lexical([], Components(w.rest)))
  }

  /** Without symbolic links sh_physpath is lexical normalisation, or
      fails because a component would not fit in PATH_MAX. */
  lemma NoLinksIsLexical(path: string)
    requires |path| > 0
    ensures PhysPath(path, NoLinks) == Err(ENAMETOOLONG) || PhysPath(path, NoLinks) == Ok(LexicalPath(path))
    ensures |path| <= PATH_MAX ==> PhysPath(path, NoLinks) == Ok(LexicalPath(path))
  {
    var w0 := Start(path, 0);
    assert Budget(w0) == |path|;
    ResolveNoLinks(w0);
    var r := Resolve(NoLinks, w0);
    if r.Ok? {
      FixupNeverApplies(r.value);
    }
  }

  /** Without links, the first character survives and `//` is kept exactly
      when the path began with exactly two slashes. */
  lemma NoLinksKeepsRoot(path: string)
    requires |path| > 0 && PhysPath(path, NoLinks).Ok?
    ensures PhysPath(path, NoLinks).value[0] == path[0]
    ensures DoubleSlash(PhysPath(path, NoLinks).value) == DoubleSlash(path)
  {
    var w0 := Start(path, 0);
    ResolveNoLinks(w0);
    var w := Resolve(NoLinks, w0).value;
    FixupNeverApplies(w);
  }

  /** One pass of the loop hands its successor to the rest of the loop. */
  lemma ResolveStep(readlink: Readlink, w: Walk)
    requires Good(w) && |w.rest| > 0 && StepOnce(readlink, w).Continue?
    ensures Resolve(readlink, w) == Resolve(readlink, StepOnce(readlink, w).next)
  {
  }

  /** Replaying a clean rest rebuilds the same stack without running out of
      room, when the final buffer fits. */
  lemma {:induction false} ReplayClean(w: Walk, cs: seq<string>)
    requires Good(w) && Clean(cs)
    requires w.rest == Join(cs) || (|cs| > 0 && w.rest == "/" + Join(cs))
    requires |Render(w.prefix, w.stack + cs)| <= PATH_MAX
    ensures Resolve(NoLinks, w).Ok? && Resolve(NoLinks, w).value.stack == w.stack + cs
    ensures Resolve(NoLinks, w).value.prefix == w.prefix && Resolve(NoLinks, w).value.dslash == w.dslash
    decreases |cs|, |w.rest|
  {
    if |cs| == 0 {
      assert w.rest == "";
      assert w.stack + cs == w.stack;
    } else if w.rest == "/" + Join(cs) {
      var next := w.(rest := w.rest[1..]);
      assert next.rest == Join(cs);
      assert StepOnce(NoLinks, w) == Continue(next);
      ResolveStep(NoLinks, w);
      ReplayClean(next, cs);
    } else {
      var next := w.(stack := w.stack + [cs[0]], rest := JoinTail(cs));
      ReplayElem(w, cs);
      ResolveStep(NoLinks, w);
      ReplayClean(next, cs[1..]);
    }
  }

  /** What follows the first component of a joined list. */
  function JoinTail(cs: seq<string>): string
    requires |cs| > 0
  {
    if |cs| == 1 then "" else "/" + Join(cs[1..])
  }

  /** A joined list is its first component followed by the rest. */
  lemma JoinFirst(cs: seq<string>)
    requires |cs| > 0
    ensures Join(cs) == cs[0] + JoinTail(cs)
    ensures JoinTail(cs) == Join(cs[1..]) || (|cs[1..]| > 0 && JoinTail(cs) == "/" + Join(cs[1..]))
    ensures |JoinTail(cs)| == 0 || JoinTail(cs)[0] == '/'
  {
    if |cs| == 1 {
      assert Join(cs) == cs[0] && JoinTail(cs) == "" == Join(cs[1..]);
    } else {
      var t := "/" + Join(cs[1..]);
      assert JoinTail(cs) == t && t[0] == '/';
      assert Join(cs) == cs[0] + "/" + Join(cs[1..]) == cs[0] + t;
    }
  }

  lemma CleanTail(cs: seq<string>)
    requires Clean(cs) && |cs| > 0
    ensures IsComponent(cs[0]) && Clean(cs[1..])
  {
    forall i | 0 <= i < |cs[1..]|
      ensures IsComponent(cs[1..][i])
    {
      assert cs[1..][i] == cs[i + 1];
    }
  }

  /** The pass over the first component of a clean rest pushes it. */
  lemma ReplayElem(w: Walk, cs: seq<string>)
    requires Good(w) && Clean(cs) && |cs| > 0 && w.rest == Join(cs)
    requires |Render(w.prefix, w.stack + cs)| <= PATH_MAX
    ensures |w.rest| > 0
    ensures StepOnce(NoLinks, w) == Continue(w.(stack := w.stack + [cs[0]], rest := JoinTail(cs)))
    ensures Clean(cs[1..]) && |Render(w.prefix, (w.stack + [cs[0]]) + cs[1..])| <= PATH_MAX
    ensures (w.stack + [cs[0]]) + cs[1..] == w.stack + cs
    ensures JoinTail(cs) == Join(cs[1..]) || (|cs[1..]| > 0 && JoinTail(cs) == "/" + Join(cs[1..]))
  {
    var c, tail := cs[0], JoinTail(cs);
    assert cs == [c] + cs[1..];
    assert w.stack + cs == (w.stack + [c]) + cs[1..];
    ReplayLength(w.prefix, w.stack + [c], cs[1..]);
    CleanTail(cs);
    JoinFirst(cs);
    NotDotOf(c, tail);
    StepElem(w);
  }

  /** A component followed by a `/` or nothing is read back as itself. */
  lemma NotDotOf(c: string, tail: string)
    requires IsComponent(c) && (|tail| == 0 || tail[0] == '/')
    ensures var s := c + tail;
      && ElemLen(s) == |c| && s[..|c|] == c && s[|c|..] == tail
      && s[0] != '/' && !AtDot(s) && !AtDotDot(s)
  {
    var s := c + tail;
    assert forall i :: 0 <= i < |c| ==> s[i] == c[i];
    assert |tail| > 0 ==> s[|c|] == '/';
    assert s[..|c|] == c;
    assert |c| == 1 ==> c == [c[0]];
    assert |c| == 2 ==> c == [c[0], c[1]];
  }

  /** A buffer with fewer components is no longer. */
  lemma {:induction false} ReplayLength(prefix: string, a: seq<string>, b: seq<string>)
    ensures |Render(prefix, a)| <= |Render(prefix, a + b)|
    decreases |b|
  {
    if |b| > 0 {
      var m := b[..|b| - 1];
      ReplayLength(prefix, a, m);
      assert a + b == (a + m) + [b[|b| - 1]];
      RenderPush(prefix, a + m, b[|b| - 1]);
    } else {
      assert a + b == a;
    }
  }

  /** Without symbolic links, resolving a resolved path changes nothing. */
  lemma PhysPathIdempotent(path: string)
    requires |path| > 0 && PhysPath(path, NoLinks).Ok?
    ensures PhysPath(PhysPath(path, NoLinks).value, NoLinks) == PhysPath(path, NoLinks)
  {
    var w := Resolve(NoLinks, Start(path, 0)).value;
    FixupNeverApplies(w);
    var s := Render(w.prefix, w.stack);
    assert PhysPath(path, NoLinks) == Ok(s);
    var w1 := Start(s, 0);
    assert w1.dslash == w.dslash;
    assert w1.prefix == w.prefix;
    assert w1.rest == Join(w.stack);
    assert w1.stack + w.stack == w.stack;
    ReplayClean(w1, w.stack);
    var w2 := Resolve(NoLinks, w1).value;
    assert w2.stack == w.stack;
    FixupNeverApplies(w2);
  }

  /** A link that points at itself is followed MAXSYMLINKS times and then
      reported as ELOOP. */
  lemma {:induction false} SelfLinkLoops(readlink: Readlink, k: nat)
    requires k <= MAXSYMLINKS
    requires forall s :: readlink(s) == Ok("/a")
    ensures Resolve(readlink, Walk("/", [], "a", false, k)) == Err(ELOOP)
    decreases MAXSYMLINKS - k
  {
    var w := Walk("/", [], "a", false, k);
    RenderPush("/", [], "a");
    if k + 1 <= MAXSYMLINKS {
      assert Start("/a" + "", k + 1) == Walk("/", [], "a", false, k + 1);
      SelfLinkLoops(readlink, k + 1);
    }
  }

  lemma SelfLinkIsEloop(readlink: Readlink)
    requires forall s :: readlink(s) == Ok("/a")
    ensures PhysPath("/a", readlink) == Err(ELOOP)
  {
    assert Start("/a", 0) == Walk("/", [], "a", false, 0);
    SelfLinkLoops(readlink, 0);
  }

  // ---------------------------------------------------------------------
  // sh_realpath

  /** The joining of sh_makepath (makepath.c is not part of this model) for
      a working directory and a relative name: a `/` between them unless
      the directory already ends in one. */
  function MakePath(dir: string, name: string): string {
    if |dir| > 0 && dir[|dir| - 1] != '/' then dir + "/" + name else dir + name
  }

  /** The value sh_realpath returns and what it leaves in the caller's
      buffer when there is one. */
  datatype RealOut = RealOut(result: Result<string>, buffer: Option<string>)

  /** sh_realpath.  A null name fails with EINVAL and an empty one with
      ENOENT; a relative name is joined to the working directory (whose
      lookup may fail); the physical path is copied into the caller's
      buffer, at most PATH_MAX - 1 characters of it, or the buffer is
      emptied on failure. */
  function RealPath(pathname: Option<string>, cwd: Result<string>, readlink: Readlink, hasBuffer: bool): (r: RealOut)
    ensures pathname.None? ==> r.result == Err(EINVAL) && r.buffer.None?
    ensures pathname == Some("") ==> r.result == Err(ENOENT) && r.buffer.None?
    ensures pathname.Some? && |pathname.value| > 0 && pathname.value[0] == '/' ==>
      r.result == (match PhysPath(pathname.value, readlink)
                   case Ok(s) => Ok(if hasBuffer && |s| > PATH_MAX - 1 then s[..PATH_MAX - 1] else s)
                   case Err(e) => Err(e))
    ensures pathname.Some? && |pathname.value| > 0 && pathname.value[0] != '/' && cwd.Err? ==>
      r.result == Err(cwd.error) && r.buffer.None?
    ensures pathname.Some? && |pathname.value| > 0 && pathname.value[0] != '/' && cwd.Ok? ==>
      r.result == (match PhysPath(MakePath(cwd.value, pathname.value), readlink)
                   case Ok(s) => Ok(if hasBuffer && |s| > PATH_MAX - 1 then s[..PATH_MAX - 1] else s)
                   case Err(e) => Err(e))
    ensures r.result.Ok? && hasBuffer ==> |r.result.value| <= PATH_MAX - 1 && r.buffer == Some(r.result.value)
    ensures r.result.Err? && hasBuffer && pathname.Some? && |pathname.value| > 0 && (pathname.value[0] == '/' || cwd.Ok?) ==>
      r.buffer == Some("")
    ensures !hasBuffer ==> r.buffer.None?
  {
    if pathname.None? then RealOut(Err(EINVAL), None)
    else if |pathname.value| == 0 then RealOut(Err(ENOENT), None)
    else
      var name := pathname.value;
      if name[0] != '/' && cwd.Err? then RealOut(Err(cwd.error), None)
      else
        var full := if name[0] != '/' then MakePath(cwd.value, name) else name;
        assert |full| > 0;
        var wd := PhysPath(full, readlink);
        if !hasBuffer then RealOut(wd, None)
        else match wd
          case Ok(s) =>
            var cut := if |s| > PATH_MAX - 1 then s[..PATH_MAX - 1] else s;
            RealOut(Ok(cut), Some(cut))
          case Err(e) => RealOut(Err(e), Some(""))
  }

  /** A relative name is resolved exactly as its join to an absolute
      working directory would be; the working directory is not consulted
      for an absolute name. */
  lemma RealPathRelative(name: string, cwd: string, other: Result<string>, readlink: Readlink, hasBuffer: bool)
    requires |name| > 0 && name[0] != '/' && |cwd| > 0 && cwd[0] == '/'
    ensures MakePath(cwd, name)[0] == '/'
    ensures RealPath(Some(name), Ok(cwd), readlink, hasBuffer) == RealPath(Some(MakePath(cwd, name)), other, readlink, hasBuffer)
  {
  }

  /** The caller's buffer loses a character only when the physical path
      fills all PATH_MAX characters the resolver allows. */
  lemma RealPathCut(pathname: string, readlink: Readlink)
    requires |pathname| > 0 && pathname[0] == '/'
    requires PhysPath(pathname, readlink).Ok?
    ensures var s := PhysPath(pathname, readlink).value;
      RealPath(Some(pathname), Err(Other(0)), readlink, true).result
        == Ok(if |s| == PATH_MAX then s[..PATH_MAX - 1] else s)
  {
  }
}

=== FILE: tmpfile.dfy ===
/** Temporary files and directories (lib/sh/tmpfile.c), in the build that
    has no mkstemp, mktemp or mkdtemp and draws candidate names itself.

    The host is an abstract file system: the paths that exist (files and
    directories), the descriptors that are open, and per-operation faults
    standing for every error the host may report for a path (including one
    caused by another process creating it in between).  The clock, the
    process id, the random words and the name limit of pathconf are inputs;
    the unbounded retry loops consume a finite sequence of clock/random
    readings and stop with `Exhausted` when it runs out. */
module TmpFile {
  import opened Base

  // ---------------------------------------------------------------------
  // The host

  datatype Node = File(mode: nat) | Dir(mode: nat, writable: bool)

  datatype Op = LstatOp | OpenOp | MkdirOp | UnlinkOp

  datatype Access = ReadWrite | WriteOnly

  datatype Fs = Fs(
    entries: map<string, Node>,
    faults: map<(Op, string), Errno>,
    fds: map<nat, (string, Access)>)

  /** file_iswdir: a directory the shell may write to (findcmd.c is not
      part of this model). */
  predicate IsWDir(fs: Fs, path: string) {
    path in fs.entries && fs.entries[path].Dir? && fs.entries[path].writable
  }

  function Lstat(fs: Fs, path: string): Result<Node> {
    if (LstatOp, path) in fs.faults then Err(fs.faults[(LstatOp, path)])
    else if path in fs.entries then Ok(fs.entries[path])
    else Err(ENOENT)
  }

  /** The lowest descriptor number at or above `k` that is not open. */
  function FreeFrom(open: set<nat>, k: nat): (r: nat)
    ensures k <= r && r !in open
    ensures forall j :: k <= j < r ==> j in open
    decreases |set x | x in open && x >= k|
  {
    if k !in open then k
    else
      var above := set x | x in open && x >= k + 1;
      var from := set x | x in open && x >= k;
      assert from == above + {k} && k !in above;
      assert |from| == |above| + 1;
      FreeFrom(open, k + 1)
  }

  /** open with O_CREAT|O_TRUNC|O_EXCL and mode 0600: fails with EEXIST on
      any existing path, otherwise creates the file and returns the lowest
      descriptor not open, as POSIX requires of open. */
  function OpenExcl(fs: Fs, path: string, access: Access): (r: Result<(nat, Fs)>)
    ensures r.Ok? ==> path !in fs.entries && r.value.1.entries == fs.entries[path := File(0x180)]
    ensures r.Ok? ==> r.value.0 !in fs.fds && r.value.1.fds == fs.fds[r.value.0 := (path, access)]
    ensures r.Ok? ==> forall j :: 0 <= j < r.value.0 ==> j in fs.fds
    ensures r.Ok? ==> r.value.1.faults == fs.faults
    ensures r.Err? && (OpenOp, path) !in fs.faults ==> r.error == EEXIST && path in fs.entries
  {
    if (OpenOp, path) in fs.faults then Err(fs.faults[(OpenOp, path)])
    else if path in fs.entries then Err(EEXIST)
    else
      var fd := FreeFrom(fs.fds.Keys, 0);
      Ok((fd, fs.(entries := fs.entries[path := File(0x180)], fds := fs.fds[fd := (path, access)])))
  }

  /** mkdir with mode 0700. */
  function Mkdir(fs: Fs, path: string): (r: Result<Fs>)
    ensures r.Ok? ==> path !in fs.entries && r.value.entries == fs.entries[path := Dir(0x1C0, true)]
    ensures r.Err? && (MkdirOp, path) !in fs.faults ==> r.error == EEXIST && path in fs.entries
  {
    if (MkdirOp, path) in fs.faults then Err(fs.faults[(MkdirOp, path)])
    else if path in fs.entries then Err(EEXIST)
    else Ok(fs.(entries := fs.entries[path := Dir(0x1C0, true)]))
  }

  function Unlink(fs: Fs, path: string): (r: Result<Fs>)
    ensures r.Ok? ==> path in fs.entries && r.value.entries == fs.entries - {path}
    ensures r.Ok? ==> r.value.fds == fs.fds
  {
    if (UnlinkOp, path) in fs.faults then Err(fs.faults[(UnlinkOp, path)])
    else if path !in fs.entries then Err(ENOENT)
    else if fs.entries[path].Dir? then Err(EISDIR)
    else Ok(fs.(entries := fs.entries - {path}))
  }

  /** close; closing -1 (or any descriptor not open) changes nothing. */
  function Close(fs: Fs, fd: int): (r: Fs)
    ensures r.entries == fs.entries && fd !in r.fds && r.fds.Keys <= fs.fds.Keys
  {
    if fd >= 0 then fs.(fds := fs.fds - {fd as nat}) else fs
  }

  // ---------------------------------------------------------------------
  // Process state and inputs

  /** The values of a 64-bit `unsigned long` and a 32-bit `unsigned int`. */
  type ULongWord = x: nat | x < 0x1_0000_0000_0000_0000
  type UIntWord = x: nat | x < 0x1_0000_0000

  /** The file-static state: the cached system temporary directory,
      `ntmpfiles` (a C `int`), `tmpnamelen` (-1 until pathconf answers) and
      `filenum` (an `unsigned long`). */
  datatype TmpState = TmpState(sysTmpdir: Option<string>, ntmpfiles: int, tmpnamelen: int, filenum: ULongWord)

  /** The state at process start. */
  const Initial: TmpState := TmpState(None, 0, -1, 1)

  /** `ntmpfiles` holds a value of a C `int`. */
  predicate GoodState(st: TmpState) {
    -0x8000_0000 <= st.ntmpfiles < 0x8000_0000
  }

  /** What the code reads but does not compute: TMPDIR, the process id
      `$$` (as `unsigned long`), P_tmpdir when the C library defines it, and
      pathconf(dir, _PC_NAME_MAX). */
  datatype Env = Env(tmpdirVar: Option<string>, pid: ULongWord, pTmpdir: Option<string>, nameMax: string -> int)

  /** One reading of the clock (`time (0)`) and of the random source
      (`get_urandom32`), consumed by each candidate name. */
  datatype Tick = Tick(now: ULongWord, random: UIntWord)

  /** The MT_* flags the code tests. */
  datatype MtFlags = MtFlags(useTmpdir: bool, readWrite: bool, unlink: bool, template: bool, useRandom: bool)

  const DEFAULT_TMPDIR: string := "."
  const DEFAULT_NAMEROOT: string := "shtmp"

  // ---------------------------------------------------------------------
  // get_sys_tmpdir, get_tmpdir

  /** The directories get_sys_tmpdir probes, in order. */
  function Probes(env: Env): seq<string> {
    (if env.pTmpdir.Some? then [env.pTmpdir.value] else []) + ["/tmp", "/var/tmp", "/usr/tmp"]
  }

  /** The position of the first probe that is a writable directory, or
      |probes| when there is none. */
  function FirstWDir(fs: Fs, probes: seq<string>): (k: nat)
    ensures k <= |probes|
    ensures k < |probes| ==> IsWDir(fs, probes[k])
    ensures forall i :: 0 <= i < k ==> !IsWDir(fs, probes[i])
    decreases |probes|
  {
    if |probes| == 0 then 0
    else if IsWDir(fs, probes[0]) then 0
    else
      var k := FirstWDir(fs, probes[1..]);
      assert forall i :: 1 <= i < k + 1 ==> probes[i] == probes[1..][i - 1];
      k + 1
  }

  /** get_sys_tmpdir: the cached directory if there is one; otherwise the
      first of P_tmpdir, /tmp, /var/tmp, /usr/tmp that is a writable
      directory, or ".", which is then cached. */
  function GetSysTmpdir(fs: Fs, st: TmpState, env: Env): (r: (string, TmpState))
    ensures st.sysTmpdir.Some? ==> r == (st.sysTmpdir.value, st)
    ensures st.sysTmpdir.None? ==>
      && r.1 == st.(sysTmpdir := Some(r.0))
      && ((exists k :: 0 <= k < |Probes(env)| && r.0 == Probes(env)[k] && IsWDir(fs, r.0)
             && forall i :: 0 <= i < k ==> !IsWDir(fs, Probes(env)[i]))
          || (r.0 == DEFAULT_TMPDIR && forall i :: 0 <= i < |Probes(env)| ==> !IsWDir(fs, Probes(env)[i])))
  {
    if st.sysTmpdir.Some? then (st.sysTmpdir.value, st)
    else
      var probes := Probes(env);
      var k := FirstWDir(fs, probes);
      var d := if k < |probes| then probes[k] else DEFAULT_TMPDIR;
      (d, st.(sysTmpdir := Some(d)))
  }

  /** Once chosen, the system directory is returned unchanged by every
      later call, whatever the file system has become. */
  lemma SysTmpdirCached(fs: Fs, fs': Fs, st: TmpState, env: Env)
    ensures var (d, st1) := GetSysTmpdir(fs, st, env);
      GetSysTmpdir(fs', st1, env) == (d, st1)
  {
  }

  /** Whether TMPDIR is taken: only when asked for, set, a writable
      directory and at most PATH_MAX bytes long. */
  predicate TmpdirUsable(fs: Fs, env: Env, useTmpdir: bool) {
    useTmpdir && env.tmpdirVar.Some? && IsWDir(fs, env.tmpdirVar.value) && |env.tmpdirVar.value| <= PATH_MAX
  }

  /** get_tmpdir: TMPDIR when usable, else the system directory; it never
      fails.  The first call whose pathconf answers fixes `tmpnamelen`. */
  function GetTmpdir(fs: Fs, st: TmpState, env: Env, useTmpdir: bool): (r: (string, TmpState))
    ensures TmpdirUsable(fs, env, useTmpdir) ==> r.0 == env.tmpdirVar.value
    ensures !TmpdirUsable(fs, env, useTmpdir) ==> r.0 == GetSysTmpdir(fs, st, env).0
    ensures st.tmpnamelen != -1 ==> r.1.tmpnamelen == st.tmpnamelen
    ensures st.tmpnamelen == -1 ==> r.1.tmpnamelen == env.nameMax(r.0)
    ensures r.1.ntmpfiles == st.ntmpfiles && r.1.filenum == st.filenum
    ensures |r.0| <= PATH_MAX || r.0 == GetSysTmpdir(fs, st, env).0
  {
    var (d, st1) :=
      if TmpdirUsable(fs, env, useTmpdir) then (env.tmpdirVar.value, st)
      else GetSysTmpdir(fs, st, env);
    (d, if st1.tmpnamelen == -1 then st1.(tmpnamelen := env.nameMax(d)) else st1)
  }

  // ---------------------------------------------------------------------
  // Candidate names

  /** The name root and whether MT_TEMPLATE survives: a null root becomes
      "shtmp", and a null root or one longer than PATH_MAX clears the
      flag. */
  function Root(nameroot: Option<string>): string {
    if nameroot.Some? then nameroot.value else DEFAULT_NAMEROOT
  }

  function EffectiveFlags(nameroot: Option<string>, flags: MtFlags): (r: MtFlags)
    ensures r.template ==> nameroot.Some? && |nameroot.value| <= PATH_MAX
    ensures r == flags.(template := r.template)
  {
    if nameroot.None? || |nameroot.value| > PATH_MAX then flags.(template := false) else flags
  }

  /** `ntmpfiles` as the conditional with `get_urandom32 ()` leaves it: the
      usual arithmetic conversions make the `int` an `unsigned int`, so a
      negative value wraps modulo 2^32 before it is widened to `unsigned
      long`. */
  function UIntOf(n: int): (r: UIntWord)
    requires -0x8000_0000 <= n < 0x8000_0000
    ensures (r - n) % 0x1_0000_0000 == 0
  {
    if n >= 0 then n else n + 0x1_0000_0000
  }

  /** `^` on two `unsigned long` values. */
  function XorLong(a: ULongWord, b: ULongWord): (r: ULongWord)
    ensures r == BitXor(a, b)
  {
    Pow2Word();
    BitXorBelow(a, b, 64);
    BitXor(a, b)
  }

  /** The part of the new counter that does not depend on the mixed word:
      `(filenum << 1) ^ now ^ pid`, the shift dropping the top bit. */
  function Key(filenum: ULongWord, now: ULongWord, pid: ULongWord): ULongWord {
    XorLong(XorLong((2 * filenum) % 0x1_0000_0000_0000_0000, now), pid)
  }

  /** The word a draw mixes in: the random reading with MT_USERANDOM,
      otherwise the current `ntmpfiles`. */
  function MixWord(st: TmpState, useRandom: bool, tick: Tick): ULongWord
    requires GoodState(st)
  {
    if useRandom then tick.random else UIntOf(st.ntmpfiles)
  }

  /** `filenum = (filenum << 1) ^ now ^ pid ^ x`: the word mixed in is
      recoverable from the old and new counters, the clock and the pid. */
  function NextFilenum(filenum: ULongWord, now: ULongWord, pid: ULongWord, x: ULongWord): (f: ULongWord)
    ensures BitXor(f, Key(filenum, now, pid)) == x
  {
    BitXorCancel(Key(filenum, now, pid), x);
    XorLong(Key(filenum, now, pid), x)
  }

  /** One draw: a new counter, and `ntmpfiles` stepped (as a 32-bit `int`)
      unless the random source was used. */
  function Draw(st: TmpState, env: Env, useRandom: bool, tick: Tick): (r: TmpState)
    requires GoodState(st)
    ensures GoodState(r)
    ensures r.sysTmpdir == st.sysTmpdir && r.tmpnamelen == st.tmpnamelen
    ensures useRandom ==> r.ntmpfiles == st.ntmpfiles
    ensures !useRandom ==> r.ntmpfiles == WrapInt32(st.ntmpfiles + 1)
    ensures r.filenum == NextFilenum(st.filenum, tick.now, env.pid, MixWord(st, useRandom, tick))
  {
    st.(filenum := NextFilenum(st.filenum, tick.now, env.pid, MixWord(st, useRandom, tick)),
        ntmpfiles := if useRandom then st.ntmpfiles else WrapInt32(st.ntmpfiles + 1))
  }

  /** Two draws from the same state and clock that read different random
      words give different counters. */
  lemma DrawSeparates(st: TmpState, env: Env, t1: Tick, t2: Tick)
    requires GoodState(st) && t1.now == t2.now && t1.random != t2.random
    ensures Draw(st, env, true, t1).filenum != Draw(st, env, true, t2).filenum
  {
    var k := Key(st.filenum, t1.now, env.pid);
    if BitXor(k, t1.random) == BitXor(k, t2.random) {
      BitXorInjective(k, t1.random, t2.random);
    }
  }

  /** `%lu`: the decimal numeral, most significant digit first. */
  function Decimal(n: nat): (r: string)
    ensures |r| >= 1 && forall i :: 0 <= i < |r| ==> '0' <= r[i] <= '9'
    decreases n
  {
    var d := ['0' + (n % 10) as char];
    if n < 10 then d else Decimal(n / 10) + d
  }

  function DecimalValue(s: string): nat
    requires forall i :: 0 <= i < |s| ==> '0' <= s[i] <= '9'
  {
    if |s| == 0 then 0 else 10 * DecimalValue(s[..|s| - 1]) + (s[|s| - 1] as int - '0' as int)
  }

  lemma {:induction false} DecimalRoundTrip(n: nat)
    ensures DecimalValue(Decimal(n)) == n
    decreases n
  {
    var r := Decimal(n);
    if n >= 10 {
      DecimalRoundTrip(n / 10);
      assert r[..|r| - 1] == Decimal(n / 10);
    }
  }

  /** The untruncated `"%s/%s-%lu"`. */
  function Formatted(tdir: string, root: string, filenum: nat): string {
    tdir + "/" + root + "-" + Decimal(filenum)
  }

  lemma SuffixOf(p: string, x: string)
    ensures (p + x)[|p|..] == x
  {
  }

  /** Different counters give different untruncated names. */
  lemma FormattedInjective(tdir: string, root: string, m: nat, n: nat)
    requires Formatted(tdir, root, m) == Formatted(tdir, root, n)
    ensures m == n
  {
    var p := tdir + "/" + root + "-";
    SuffixOf(p, Decimal(m));
    SuffixOf(p, Decimal(n));
    DecimalRoundTrip(m);
    DecimalRoundTrip(n);
  }

  /** A candidate name and the buffer index at which the code stores the
      NUL that cuts it, if it stores one. */
  datatype Candidate = Candidate(name: string, nulAt: Option<nat>)

  /** The buffer has PATH_MAX + 1 bytes: a store beyond index PATH_MAX lies
      outside it. */
  predicate Overruns(c: Candidate) {
    c.nulAt.Some? && c.nulAt.value > PATH_MAX
  }

  /** snprintf into PATH_MAX bytes keeps at most PATH_MAX - 1 characters. */
  function Snprintf(s: string): (r: string)
    ensures |r| <= PATH_MAX - 1 && r <= s
    ensures |s| <= PATH_MAX - 1 ==> r == s
  {
    if |s| <= PATH_MAX - 1 then s else s[..PATH_MAX - 1]
  }

  /** The candidate as the code builds it: snprintf, then, when
      0 < tmpnamelen < 32, a NUL stored at index tdlen + 1 + tmpnamelen of
      the buffer, which lies past the buffer's last byte (index PATH_MAX)
      when the directory name is long. */
  function CandidateAsWritten(tdir: string, root: string, filenum: nat, tmpnamelen: int): (r: Candidate)
    ensures 0 < tmpnamelen < 32 ==> (Overruns(r) <==> |tdir| + 1 + tmpnamelen > PATH_MAX)
    ensures !(0 < tmpnamelen < 32) ==> r.nulAt.None?
  {
    var s := Snprintf(Formatted(tdir, root, filenum));
    if 0 < tmpnamelen < 32 then
      var k := |tdir| + 1 + tmpnamelen;
      Candidate(if k < |s| then s[..k] else s, Some(k))
    else Candidate(s, None)
  }

  /** A TMPDIR of 4090 bytes is accepted (it is at most PATH_MAX), and with
      a name limit of 14 the NUL goes to index 4105 of a 4097-byte buffer. */
  lemma CandidateOverrun(tdir: string, root: string, filenum: nat)
    requires |tdir| == 4090
    ensures Overruns(CandidateAsWritten(tdir, root, filenum, 14))
  {
  }

  /** The candidate with the NUL stored only inside the buffer: the name is
      the same, the store happens at the same index whenever that index
      lies inside the buffer, and no byte outside the buffer is written. */
  function MakeCandidate(tdir: string, root: string, filenum: nat, tmpnamelen: int): (r: Candidate)
    ensures !Overruns(r)
    ensures r.nulAt.Some? <==> 0 < tmpnamelen < 32 && |tdir| + 1 + tmpnamelen <= PATH_MAX
    ensures r.nulAt.Some? ==> r.nulAt == CandidateAsWritten(tdir, root, filenum, tmpnamelen).nulAt
    ensures |r.name| <= PATH_MAX - 1 && r.name <= Formatted(tdir, root, filenum)
    ensures 0 < tmpnamelen < 32 ==> |r.name| <= |tdir| + 1 + tmpnamelen
    ensures !(0 < tmpnamelen < 32) ==> r.name == Snprintf(Formatted(tdir, root, filenum))
    ensures r.name == CandidateAsWritten(tdir, root, filenum, tmpnamelen).name
  {
    var s := Snprintf(Formatted(tdir, root, filenum));
    if 0 < tmpnamelen < 32 && |tdir| + 1 + tmpnamelen <= PATH_MAX then
      var k := |tdir| + 1 + tmpnamelen;
      Candidate(if k < |s| then s[..k] else s, Some(k))
    else Candidate(s, None)
  }

  /** When nothing is cut, equal candidates come from equal counters. */
  lemma CandidatesDistinct(tdir: string, root: string, f: nat, g: nat, tmpnamelen: int)
    requires !(0 < tmpnamelen < 32)
    requires |Formatted(tdir, root, f)| <= PATH_MAX - 1 && |Formatted(tdir, root, g)| <= PATH_MAX - 1
    ensures MakeCandidate(tdir, root, f, tmpnamelen).name == MakeCandidate(tdir, root, g, tmpnamelen).name ==> f == g
  {
    if MakeCandidate(tdir, root, f, tmpnamelen).name == MakeCandidate(tdir, root, g, tmpnamelen).name {
      FormattedInjective(tdir, root, f, g);
    }
  }

  // ---------------------------------------------------------------------
  // sh_mktmpname

  /** The outcome of a retry loop: the name found (None when the readings
      ran out), the new state, the unused readings and how many were drawn. */
  datatype NameOutcome = NameOutcome(name: Option<string>, st: TmpState, rest: seq<Tick>, drawn: nat)

  lemma WrapCongruent(x: int, q: int)
    ensures WrapInt32(x + 0x1_0000_0000 * q) == WrapInt32(x)
  {
    var m := 0x1_0000_0000;
    assert x == m * (x / m) + x % m;
    DivModUnique(x + m * q, m, x / m + q, x % m);
  }

  /** The loop of sh_mktmpname: draw a candidate and lstat it, until lstat
      fails with ENOENT.  Every other outcome, success or any other error,
      draws again. */
  function NameLoop(fs: Fs, st: TmpState, env: Env, tdir: string, root: string, useRandom: bool,
                    ticks: seq<Tick>): (r: NameOutcome)
    requires GoodState(st)
    ensures GoodState(r.st) && r.drawn <= |ticks| && r.rest == ticks[r.drawn..]
    ensures r.name.Some? ==> r.drawn >= 1 && Lstat(fs, r.name.value) == Err(ENOENT)
    ensures r.name.Some? ==> r.name.value == MakeCandidate(tdir, root, r.st.filenum, st.tmpnamelen).name
    ensures r.name.None? ==> r.drawn == |ticks|
    ensures r.st.sysTmpdir == st.sysTmpdir && r.st.tmpnamelen == st.tmpnamelen
    decreases |ticks|
  {
    if |ticks| == 0 then
      NameOutcome(None, st, ticks, 0)
    else
      var st1 := Draw(st, env, useRandom, ticks[0]);
      var name := MakeCandidate(tdir, root, st1.filenum, st1.tmpnamelen).name;
      if Lstat(fs, name) == Err(ENOENT) then
        NameOutcome(Some(name), st1, ticks[1..], 1)
      else
        var r := NameLoop(fs, st1, env, tdir, root, useRandom, ticks[1..]);
        NameOutcome(r.name, r.st, r.rest, r.drawn + 1)
  }

  /** Without MT_USERANDOM every candidate drawn steps `ntmpfiles` once, as
      a 32-bit `int`; with it the count is left alone. */
  lemma {:induction false} NameLoopCounts(fs: Fs, st: TmpState, env: Env, tdir: string, root: string,
                                          useRandom: bool, ticks: seq<Tick>)
    requires GoodState(st)
    ensures var r := NameLoop(fs, st, env, tdir, root, useRandom, ticks);
      r.st.ntmpfiles == if useRandom then st.ntmpfiles else WrapInt32(st.ntmpfiles + r.drawn)
    decreases |ticks|
  {
    if |ticks| > 0 {
      var st1 := Draw(st, env, useRandom, ticks[0]);
      var r' := NameLoop(fs, st1, env, tdir, root, useRandom, ticks[1..]);
      NameLoopStep(fs, st, env, tdir, root, useRandom, ticks);
      NameLoopCounts(fs, st1, env, tdir, root, useRandom, ticks[1..]);
      if !useRandom {
        WrapShift(st.ntmpfiles + 1, r'.drawn);
      }
    }
  }

  /** One round of the name loop either stops at the first candidate or
      continues from the state that candidate's draw left. */
  lemma NameLoopStep(fs: Fs, st: TmpState, env: Env, tdir: string, root: string,
                     useRandom: bool, ticks: seq<Tick>)
    requires GoodState(st) && |ticks| > 0
    ensures var r := NameLoop(fs, st, env, tdir, root, useRandom, ticks);
      var st1 := Draw(st, env, useRandom, ticks[0]);
      var r' := NameLoop(fs, st1, env, tdir, root, useRandom, ticks[1..]);
      (r.st == st1 && r.drawn == 1) || (r.st == r'.st && r.drawn == r'.drawn + 1)
  {
  }

  lemma WrapShift(a: int, k: int)
    ensures WrapInt32(WrapInt32(a) + k) == WrapInt32(a + k)
  {
    var w := WrapInt32(a);
    var m := 0x1_0000_0000;
    assert (w - a) % m == 0;
    var q := (w - a) / m;
    assert w + k == (a + k) + m * q;
    WrapCongruent(a + k, q);
  }

  /** sh_mktmpname: resolve the directory, settle the root and flags, then
      run the loop. */
  function MkTmpName(fs: Fs, st: TmpState, env: Env, nameroot: Option<string>, flags: MtFlags,
                     ticks: seq<Tick>): (r: NameOutcome)
    requires GoodState(st)
    ensures GoodState(r.st) && r.drawn <= |ticks| && r.rest == ticks[r.drawn..]
    ensures r.name.Some? ==> r.drawn >= 1 && Lstat(fs, r.name.value) == Err(ENOENT)
    ensures r.name.Some? ==>
      r.name.value == MakeCandidate(GetTmpdir(fs, st, env, flags.useTmpdir).0, Root(nameroot),
                                    r.st.filenum, r.st.tmpnamelen).name
    ensures r.name.None? ==> r.drawn == |ticks|
    ensures r.st.sysTmpdir == GetTmpdir(fs, st, env, flags.useTmpdir).1.sysTmpdir
    ensures r.st.tmpnamelen == GetTmpdir(fs, st, env, flags.useTmpdir).1.tmpnamelen
  {
    var (tdir, st1) := GetTmpdir(fs, st, env, flags.useTmpdir);
    var fl := EffectiveFlags(nameroot, flags);
    NameLoop(fs, st1, env, tdir, Root(nameroot), fl.useRandom, ticks)
  }

  /** MT_TEMPLATE is never read by the name loop: it makes no difference. */
  lemma TemplateIgnored(fs: Fs, st: TmpState, env: Env, nameroot: Option<string>, flags: MtFlags,
                        ticks: seq<Tick>)
    requires GoodState(st)
    ensures MkTmpName(fs, st, env, nameroot, flags.(template := true), ticks)
         == MkTmpName(fs, st, env, nameroot, flags.(template := false), ticks)
  {
  }


  // ---------------------------------------------------------------------
  // sh_mktmpfd, sh_mktmpfp

  /** The last step of the open loop: a descriptor, or the error that ended
      the loop, with the candidate tried. */
  datatype OpenOutcome = Opened(fd: nat, name: string) | OpenFailed(error: Errno, name: string) | OpenExhausted

  datatype FdLoopResult = FdLoopResult(outcome: OpenOutcome, fs: Fs, st: TmpState, drawn: nat)

  function AccessOf(flags: MtFlags): Access {
    if flags.readWrite then ReadWrite else WriteOnly
  }

  /** The do-while loop of sh_mktmpfd: draw a candidate and open it
      exclusively, again only while the open fails with EEXIST. */
  function FdLoop(fs: Fs, st: TmpState, env: Env, tdir: string, root: string, flags: MtFlags,
                  ticks: seq<Tick>): (r: FdLoopResult)
    requires GoodState(st)
    ensures GoodState(r.st) && r.drawn <= |ticks|
    ensures r.st.sysTmpdir == st.sysTmpdir && r.st.tmpnamelen == st.tmpnamelen
    ensures r.outcome.OpenExhausted? ==> r.drawn == |ticks|
    ensures !r.outcome.OpenExhausted? ==>
      r.outcome.name == MakeCandidate(tdir, root, r.st.filenum, st.tmpnamelen).name
    ensures r.outcome.Opened? ==>
      && r.outcome.name !in fs.entries
      && r.outcome.fd !in fs.fds
      && r.fs.entries == fs.entries[r.outcome.name := File(0x180)]
      && r.fs.fds == fs.fds[r.outcome.fd := (r.outcome.name, AccessOf(flags))]
      && r.fs.faults == fs.faults
    ensures r.outcome.OpenFailed? ==> r.outcome.error != EEXIST
    ensures !r.outcome.Opened? ==> r.fs == fs
    decreases |ticks|
  {
    if |ticks| == 0 then
      FdLoopResult(OpenExhausted, fs, st, 0)
    else
      var st1 := Draw(st, env, flags.useRandom, ticks[0]);
      var name := MakeCandidate(tdir, root, st1.filenum, st1.tmpnamelen).name;
      match OpenExcl(fs, name, AccessOf(flags))
      case Ok((fd, fs1)) => FdLoopResult(Opened(fd, name), fs1, st1, 1)
      case Err(e) =>
        if e != EEXIST then FdLoopResult(OpenFailed(e, name), fs, st1, 1)
        else
          var r := FdLoop(fs, st1, env, tdir, root, flags, ticks[1..]);
          FdLoopResult(r.outcome, r.fs, r.st, r.drawn + 1)
  }

  /** What sh_mktmpfd returns: the descriptor (or -1), errno when it is -1,
      the name stored through `namep`, and the new host and state; or
      `FdExhausted` when the readings ran out inside the loop.  `tried` is
      the last candidate the loop opened (what the buffer holds) and
      `openError` the error of that open, None when it succeeded. */
  datatype FdResult =
    | FdResult(fd: int, errno: Option<Errno>, name: Option<string>, fs: Fs, st: TmpState,
               tried: string, openError: Option<Errno>)
    | FdExhausted

  /** The outcome rules of sh_mktmpfd, against the host `fs` it started
      from.  The loop ends on a descriptor or on an open error other than
      EEXIST.  MT_UNLINK unlinks the last candidate whatever the open did:
      after a failed open the result is the open's error when the unlink
      succeeds and the unlink's error otherwise; after a successful open a
      failed unlink (only a host fault can make it fail, the file having
      just been created) closes the descriptor, keeps the file and gives the
      unlink's error.  The name comes back only with a descriptor and only
      when asked for. */
  predicate FdOutcome(fs: Fs, flags: MtFlags, wantName: bool, r: FdResult)
    requires r.FdResult?
  {
    && (r.name.Some? <==> r.fd >= 0 && wantName)
    && (r.fd >= 0 <==> r.errno.None?)
    && (r.name.Some? ==> r.name.value == r.tried)
    && (forall k :: k in r.fs.fds ==> k in fs.fds || k == r.fd)
    && (r.openError.Some? ==> r.openError.value != EEXIST && r.fd == -1)
    && (r.openError.None? ==> r.tried !in fs.entries)
    && (r.fd >= 0 ==>
          && r.openError.None? && r.fd !in fs.fds
          && r.fs.fds == fs.fds[r.fd := (r.tried, AccessOf(flags))]
          && r.fs.entries == (if flags.unlink then fs.entries else fs.entries[r.tried := File(0x180)]))
    && (r.openError.None? && flags.unlink ==> ((UnlinkOp, r.tried) in fs.faults <==> r.fd < 0))
    && (r.openError.None? && r.fd < 0 ==>
          && flags.unlink && (UnlinkOp, r.tried) in fs.faults
          && r.errno == Some(fs.faults[(UnlinkOp, r.tried)])
          && r.fs.fds == fs.fds && r.fs.entries == fs.entries[r.tried := File(0x180)])
    && (r.openError.Some? && !flags.unlink ==> r.errno == r.openError && r.fs == fs)
    && (r.openError.Some? && flags.unlink && Unlink(fs, r.tried).Ok? ==>
          r.errno == r.openError && r.fs == Unlink(fs, r.tried).value)
    && (r.openError.Some? && flags.unlink && Unlink(fs, r.tried).Err? ==>
          r.errno == Some(Unlink(fs, r.tried).error) && r.fs == fs)
  }

  /** The tail of sh_mktmpfd after its loop: MT_UNLINK, then the name. */
  function FinishFd(fs: Fs, l: FdLoopResult, flags: MtFlags, wantName: bool): (r: FdResult)
    requires GoodState(l.st)
    requires l.outcome.Opened? ==>
      && l.outcome.name !in fs.entries
      && l.outcome.fd !in fs.fds
      && l.fs.entries == fs.entries[l.outcome.name := File(0x180)]
      && l.fs.fds == fs.fds[l.outcome.fd := (l.outcome.name, AccessOf(flags))]
      && l.fs.faults == fs.faults
    requires l.outcome.OpenFailed? ==> l.outcome.error != EEXIST
    requires !l.outcome.Opened? ==> l.fs == fs
    ensures r.FdExhausted? <==> l.outcome.OpenExhausted?
    ensures r.FdResult? ==> r.st == l.st && r.tried == l.outcome.name
    ensures r.FdResult? ==> FdOutcome(fs, flags, wantName, r)
  {
    match l.outcome
    case OpenExhausted => FdExhausted
    case Opened(fd, name) =>
      if flags.unlink then
        match Unlink(l.fs, name)
        case Ok(fs2) =>
          FdResult(fd, None, if wantName then Some(name) else None, fs2, l.st, name, None)
        case Err(e) =>
          assert Close(l.fs, fd).fds == fs.fds;
          FdResult(-1, Some(e), None, Close(l.fs, fd), l.st, name, None)
      else FdResult(fd, None, if wantName then Some(name) else None, l.fs, l.st, name, None)
    case OpenFailed(e, name) =>
      if flags.unlink then
        match Unlink(l.fs, name)
        case Ok(fs2) => FdResult(-1, Some(e), None, fs2, l.st, name, Some(e))
        case Err(e2) => FdResult(-1, Some(e2), None, Close(l.fs, -1), l.st, name, Some(e))
      else FdResult(-1, Some(e), None, l.fs, l.st, name, Some(e))
  }

  /** sh_mktmpfd: the directory, root and flags as for sh_mktmpname, the
      open loop, then the tail above.  The candidate tried last is the
      candidate name in the resolved directory for the final counter. */
  function MkTmpFd(fs: Fs, st: TmpState, env: Env, nameroot: Option<string>, flags: MtFlags,
                   wantName: bool, ticks: seq<Tick>): (r: FdResult)
    requires GoodState(st)
    ensures r.FdResult? ==> GoodState(r.st)
    ensures r.FdResult? ==> FdOutcome(fs, flags, wantName, r)
    ensures r.FdResult? ==>
      r.tried == MakeCandidate(GetTmpdir(fs, st, env, flags.useTmpdir).0, Root(nameroot),
                               r.st.filenum, r.st.tmpnamelen).name
    ensures r.FdResult? ==> r.st.sysTmpdir == GetTmpdir(fs, st, env, flags.useTmpdir).1.sysTmpdir
    ensures r.FdResult? ==> r.st.tmpnamelen == GetTmpdir(fs, st, env, flags.useTmpdir).1.tmpnamelen
  {
    var (tdir, st1) := GetTmpdir(fs, st, env, flags.useTmpdir);
    var fl := EffectiveFlags(nameroot, flags);
    assert AccessOf(fl) == AccessOf(flags);
    FinishFd(fs, FdLoop(fs, st1, env, tdir, Root(nameroot), fl, ticks), flags, wantName)
  }

  /** What sh_mktmpfp returns: the stream (its descriptor) or none, and
      what sh_mktmpfd stored through `namep`. */
  datatype FpResult = FpResult(stream: Option<nat>, name: Option<string>, fs: Fs, st: TmpState) | FpExhausted

  /** sh_mktmpfp: sh_mktmpfd, then fdopen with "w+" or "w" (`fdopenOk`
      says whether it succeeds).  A stream comes back exactly when there is
      a descriptor and fdopen succeeds; when fdopen fails the descriptor is
      closed, and the name sh_mktmpfd stored is kept even then. */
  function MkTmpFp(fs: Fs, st: TmpState, env: Env, nameroot: Option<string>, flags: MtFlags,
                   wantName: bool, fdopenOk: bool, ticks: seq<Tick>): (r: FpResult)
    requires GoodState(st)
    ensures var d := MkTmpFd(fs, st, env, nameroot, flags, wantName, ticks);
      && (r.FpExhausted? <==> d.FdExhausted?)
      && (r.FpResult? ==> (r.stream.Some? <==> d.fd >= 0 && fdopenOk))
      && (r.FpResult? ==> r.name == d.name && (r.name.Some? <==> d.fd >= 0 && wantName))
      && (r.FpResult? && r.stream.Some? ==>
            r.stream.value == d.fd && r.stream.value in r.fs.fds && r.fs.fds[r.stream.value].1 == AccessOf(flags))
      && (r.FpResult? && d.fd >= 0 && !fdopenOk ==>
            d.fd !in r.fs.fds && r.fs.entries == d.fs.entries && r.fs.fds.Keys <= d.fs.fds.Keys)
    ensures r.FpResult? && r.stream.None? ==> r.fs.fds.Keys <= fs.fds.Keys
  {
    match MkTmpFd(fs, st, env, nameroot, flags, wantName, ticks)
    case FdExhausted => FpExhausted
    case FdResult(fd, _, name, fs1, st1, _, _) =>
      if fd < 0 then
        FpResult(None, name, fs1, st1)
      else if !fdopenOk then
        FpResult(None, name, Close(fs1, fd), st1)
      else FpResult(Some(fd as nat), name, fs1, st1)
  }

  // ---------------------------------------------------------------------
  // sh_mktmpdir

  datatype DirResult = DirResult(name: Option<string>, errno: Option<Errno>, fs: Fs, st: TmpState) | DirExhausted

  /** The directory get_tmpdir resolves is the same on every later call
      that sees the state the first call left: TMPDIR does not change, and
      the system directory is cached, and so is the name length once the
      first call has asked pathconf for it (asking again of the same
      directory gives the same answer). */
  lemma TmpdirStable(fs: Fs, st: TmpState, st2: TmpState, env: Env, useTmpdir: bool)
    requires st2.sysTmpdir == GetTmpdir(fs, st, env, useTmpdir).1.sysTmpdir
    requires st2.tmpnamelen == GetTmpdir(fs, st, env, useTmpdir).1.tmpnamelen
    ensures GetTmpdir(fs, st2, env, useTmpdir).0 == GetTmpdir(fs, st, env, useTmpdir).0
    ensures GetTmpdir(fs, st2, env, useTmpdir).1.sysTmpdir == st2.sysTmpdir
    ensures GetTmpdir(fs, st2, env, useTmpdir).1.tmpnamelen == st2.tmpnamelen
  {
  }

  /** sh_mktmpdir: sh_mktmpname, then mkdir with mode 0700, again only
      while mkdir fails with EEXIST. */
  function MkTmpDir(fs: Fs, st: TmpState, env: Env, nameroot: Option<string>, flags: MtFlags,
                    ticks: seq<Tick>): (r: DirResult)
    requires GoodState(st)
    ensures r.DirResult? ==> GoodState(r.st)
    ensures r.DirResult? && r.name.Some? ==>
      && r.name.value !in fs.entries
      && r.fs.entries == fs.entries[r.name.value := Dir(0x1C0, true)]
      && r.errno.None?
      && r.name.value == MakeCandidate(GetTmpdir(fs, st, env, flags.useTmpdir).0, Root(nameroot),
                                       r.st.filenum, r.st.tmpnamelen).name
    ensures r.DirResult? && r.name.None? ==> r.errno.Some? && r.errno.value != EEXIST && r.fs == fs
    ensures r.DirResult? ==> r.st.sysTmpdir == GetTmpdir(fs, st, env, flags.useTmpdir).1.sysTmpdir
    ensures r.DirResult? ==> r.st.tmpnamelen == GetTmpdir(fs, st, env, flags.useTmpdir).1.tmpnamelen
    decreases |ticks|
  {
    var n := MkTmpName(fs, st, env, nameroot, flags, ticks);
    if n.name.None? then DirExhausted
    else
      match Mkdir(fs, n.name.value)
      case Ok(fs1) => DirResult(n.name, None, fs1, n.st)
      case Err(e) =>
        if e == EEXIST then
          var r := MkTmpDir(fs, n.st, env, nameroot, flags, n.rest);
          TmpdirStable(fs, st, n.st, env, flags.useTmpdir);
          r
        else DirResult(None, Some(e), fs, n.st)
  }
}
